=== FILE: README.md ===
# fsck.overlay, modelled in Dafny

This project models the checker of an overlay file system (fsck.overlay).

**Layers and lookup.**
- An overlay is an optional upper layer over a stack of lower layers.
- The checker looks up every entry of a layer in the layers below it, following redirect directories.
- Lookup walks the ancestors of a missing path, nearest parent first. An opaque or non-directory ancestor stops it. A redirect ancestor rewrites the path for the next layer.

**Checks and repairs.**
- Orphan whiteouts are counted and removed.
- Redirect directories are validated. Invalid redirect xattrs are removed, and duplicates go through a registry of valid redirects.
- Impure directories are counted and marked.
- Every repair is asked for, and the answer comes from the `-p`/`-n`/`-y` flags or from standard input.

**The scan.** It runs two passes over every layer, lowest lower first and the upper last.

**Around the scan:**
- path helpers (`joinname`, `basename2`, glibc `dirname`);
- mount-option parsing and the mounted-overlay check;
- command-line option rules;
- the status bits and the exit code;
- the shell quoting of a file name for generated scripts.

**How the model is written.**
- Layers are immutable maps from a path to an entry.
- Syscalls are functions on those maps that may fail.
- Each check is a pure function from (overlay, counters, registry, remaining input) to the next state and a success flag.
- Strings are `seq<char>`. The C `int` bit masks are `bv32`.

Modules, one per file:
- `Util`: Option/Result, and the fault kinds.
- `Paths`: `path.c`, plus glibc `dirname`.
- `Status`: `lib.h`.
- `Ask`: `ask_question`/`ask_yn`.
- `Layers`: the layer store, the xattr wrappers of `lib.c` and the xattr predicates of `check.c`.
- `Lookups`: `check.c` lookup.
- `Registry`: the redirect registry.
- `Checks`: the per-entry checks.
- `Scan`: `scan_dir` and `ovl_scan_fix`.
- `Mount`: `mount.c`.
- `Fsck`: `fsck.c`.
- `Shell`: `quote` of `sh.c`.
- `Findings`: concrete inputs for the findings below.

## Model

| member | source | states |
|---|---|---|
| Paths.JoinnameCases | path.c:64-100 | "." and "" count as empty and leading "./" (and "/" of the name) are dropped; both empty gives "."; one empty gives the other; otherwise the result is head, one '/' unless head already ends in '/', then tail, and its length is the sum |
| Paths.JoinnameExamples | path.c:38-46 | every example in the comment above joinname holds |
| Paths.JoinThenBasename | path.c:93-98 | for a directory not starting with '.' and a plain name, joinname inserts one '/' and basename2 of the join recovers the name (round trip) |
| Paths.JoinThenBasenameFixed | path.c:111-124 | the same round trip for the corrected basename2, for every non-empty directory other than ".", "./…" and one ending in '/' |
| Paths.Basename2 | path.c:105-125 | the result is ".", or a final part of the path that is the whole path or does not start with '/'; the directory itself gives "." when it does not start with '.' |
| Paths.Basename2Fixed | path.c:105-125 | the same shape of result, and the directory itself always gives "." |
| Paths.HiddenDirectoryNotStripped | path.c:111-112 | basename2 as written leaves ".cache/x" whole under ".cache"; the corrected one gives "x" |
| Paths.DirnameOfChild | check.c:268-297 | dirname of "d/n" (n without '/') is d, so the walk's first ancestor of a child is its directory |
| Paths.DirnameOfRelative | check.c:268-297 | dirname of a relative path is "." or a proper, relative prefix of it without trailing '/' |
| Paths.AncestorsChain | check.c:268-297 | the ancestor list starts at the parent, each next one is the dirname of the previous, and it ends where dirname gives "." |
| Paths.AncestorsArePrefixes | check.c:268-297 | every ancestor visited is a proper prefix of the path and never "." |
| Status.SetInconsistency | lib.h:108-111 | the inconsistency bit is set and every other bit is unchanged |
| Status.InconsistencyKeepsAbort | lib.h:108-116 | setting the inconsistency bit does not change whether the abort bit is set |
| Status.SetAbort | lib.h:113-116 | the abort bit is set and every other bit is unchanged |
| Status.StatusSettersIdempotentAndCommute | lib.h:108-116 | both setters are idempotent and commute |
| Status.FlagLayout | lib.h:23-42 | the exit codes are pairwise disjoint; FL_OPT_MASK is AUTO\|NO\|YES and disjoint from VERBOSE and UPPER; the three policy bits are pairwise disjoint |
| Status.ExitCodes | lib.h:24-30 | the seven nonzero exit codes are distinct powers of two |
| Ask.Fgets | lib.c:43-47 | fgets into ans[16] with size 15 reads at most 14 characters; it stops after a newline; what it reads and what is left make up the input; end of input reads nothing |
| Ask.FgetsReadsLine | lib.c:47 | a short line with its newline is read whole |
| Ask.AskYn | lib.c:41-59 | only a suffix of the input is consumed; end of input or a blank line gives the default |
| Ask.AnswerLines | lib.c:48-53 | y/yes gives yes, n/no gives no (case-insensitive), a blank line gives the default, and exactly one line is consumed |
| Ask.IllegalAnswerIsReasked | lib.c:54-57 | any other line shorter than 14 characters is dropped and the question asked again on the rest |
| Ask.UnterminatedAnswerGivesDefault | lib.c:47-58 | a last line without a newline that is not an answer leaves the default |
| Ask.AskQuestion | lib.c:61-70 | with a policy flag no input is read and yes beats no beats auto (auto gives the default); without one the answer comes from ask_yn |
| Layers.Stat | check.c:229-244 | a fault is an error; otherwise the entry at the path, or none |
| Layers.GetXattr | lib.c:72-119 | fails iff the entry cannot be opened read-only without following links (missing, a symlink, a socket or a whiteout); otherwise the value iff the xattr is present |
| Layers.SetXattr | lib.c:121-151 | afterwards get_xattr returns the new value; every other xattr, every other entry and the file type stay |
| Layers.RemoveXattr | lib.c:153-172 | fails unless the xattr is present; afterwards it is absent and nothing else changes |
| Layers.Unlink | check.c:432 | removes exactly the one non-directory entry |
| Layers.MknodWhiteout | check.c:177-185 | creates exactly a whiteout (char device 0) where nothing was and the parent is a directory |
| Layers.GetRedirect | check.c:146-170 | a redirect value "/t" gives "t"; a relative value is joined to the parent directory; absent or empty gives none |
| Layers.RedirectPathsAfterRemoveRedirect | check.c:556-560 | removing a redirect xattr removes exactly that path from the redirect paths, so their number drops by one |
| Layers.RedirectPathsAfterUnlink | check.c:432 | unlinking never adds a redirect path |
| Lookups.AncestorVerdict | check.c:273-295 | for one ancestor: missing or a plain dir continues; a non-dir or opaque dir stops; a redirect dir rewrites to its target; an empty redirect value is an error |
| Lookups.WalkFindsFirstDecisive | check.c:268-297 | the walk continues past every ancestor iff each one continues; otherwise its verdict is that of the first one that does not |
| Lookups.LayerStep | check.c:246-300 | a found entry is the stat of the current path; stop and redirect change only when the path is absent, the layer is not the last, and the walk decided so; the new path is joinname(target, tail) |
| Lookups.LayerStepMiss | check.c:268-297 | when a layer that is not the last misses the path, the ancestor walk decides the context: continue keeps it, stop sets stop, a redirect sets the new path joinname(target, tail) |
| Lookups.LookupIn | check.c:361-389 | as written: anything found is a real entry of a layer at or below the start; the freed-buffer read occurs only in this variant |
| Lookups.Lookup | check.c:361-389 | anything found exists at its recorded path in its recorded layer at or below the start; never a freed read |
| Lookups.LookupLower | check.c:310-355 | for an entry of lower layer s, anything found lies strictly below s |
| Lookups.LookupIsSearch | check.c:361-389 | the lookup loop equals a reference search defined layer by layer: a layer faults, holds the path, or lacks it and names the next path from its ancestors |
| Lookups.LookupFollowsRoute | check.c:361-389 | on the route (the path searched in each layer reached): anything found is the route's path in that layer; not found means every layer of the route lacks its path; with no faulting layer on the route the lookup does not fail |
| Lookups.RouteHitIsLookup | check.c:361-389 | a layer of the route that holds its path is exactly what the lookup finds, with that path and that layer |
| Lookups.LookupMissesIffRouteEmpty | check.c:361-389 | not found iff every layer of the route lacks its path and none faults |
| Lookups.LookupLowerSkipsHome | check.c:310-355 | the entry's own layer is not looked at, only its ancestors there: a fault is the error, a stop gives not found, otherwise it is the lookup of the path they name from the layer below; an entry of the bottom lower layer finds nothing |
| Lookups.PlainLookupFindsFirstLayer | check.c:331-350 | with no redirects, opaque dirs or faults: the first layer at or below start holding the path, with that path; not found iff no such layer |
| Lookups.StopHidesDeeperLayers | check.c:281-284 | an opaque or non-directory ancestor in a layer where the path is absent makes the lookup "not found" |
| Lookups.RedirectSendsToNextLayer | check.c:286-295 | a redirect ancestor makes the next layer search joinname(target, tail) |
| Lookups.ChildOfRedirectDir | check.c:286-295 | the child n of a redirect directory with value "/t" is looked up as "t/n" in the next layer |
| Registry.Find | check.c:468-492 | none iff no entry has the origin and layer; otherwise the first entry that has them |
| Registry.Del | check.c:494-517 | with no match the registry is unchanged; otherwise exactly one matching entry is removed |
| Registry.AddKeepsUnique | check.c:447-466 | adding a key that is not present keeps keys unique; the new key finds the new entry, and every other key finds what it found before |
| Registry.DelRemovesKey | check.c:494-517 | on a registry with unique keys, delete leaves the key absent, keeps keys unique, and changes no other key |
| Checks.Decide | lib.c:61-70 | with a policy flag the state is untouched; -y says yes, -n no, -p the default |
| Checks.CheckWhiteout | check.c:396-442 | non-whiteouts are untouched; a whiteout adds 1 to the total, and 1 to invalid iff orphaned; a successful unlink undoes both; only an orphan is ever unlinked; -n never unlinks, and -p does when it can |
| Checks.DoRemoveRedirect | check.c:547-598 | each call removes that path's redirect xattr or fails unchanged; the redirect count of the layer strictly decreases (the termination measure) and invalid drops by one; under -y the registry is untouched, since the opaque offer is taken before any cascade |
| Checks.RemoveInvalid | check.c:706-716 | an invalid redirect adds 1 to invalid; -n leaves it; -p removes it when it can |
| Checks.CoverMissing | check.c:664-675 | under -n the redirect is registered and no layer changes; under -y or -p the whiteout is created, counted in the total and the redirect registered, or a failed mknod fails with the state unchanged; whenever mknod can succeed the redirect is registered, whatever the answer |
| Checks.OfferOpaque | check.c:688-697 | declined, only the input is consumed; accepted with a settable opaque xattr, the redirect is registered; the registry grows only with the name made opaque |
| Checks.CoverMerged | check.c:676-697 | the redirect is counted invalid; under -n and -p nothing else changes; under -y its redirect xattr is removed and the registry is untouched; answering no to removal and yes to the opaque offer makes the name opaque and registers the redirect; the registry grows only in that case |
| Checks.CoverTarget | check.c:660-703 | a stat error on the redirect name fails unchanged; a missing name goes to the missing-whiteout repair, a plain merge directory to the merged-name repair, and any other cover registers the redirect at once; whenever the cover accepts the redirect it is registered |
| Checks.RedirectStepRegistry | check.c:644-700 | a redirect step keeps the registry free of duplicates, and grows it only by an entry whose redirect resolves to a key not yet registered |
| Checks.CheckTarget | check.c:630-647 | a redirect in the bottom layer, or one whose target is missing below or is not a directory, goes to the invalid-redirect repair |
| Checks.AcceptTarget | check.c:644-657 | a target already registered is a duplicate: it never registers again, and under -n or -p it is only counted invalid (removal defaults to no) |
| Checks.CheckRedirect | check.c:614-720 | no or empty redirect: untouched; a present one is counted and its target checked; per redirect xattr the total grows by one less every one removed; only this layer changes and only by losing redirects; the registry stays unique and grows only by a resolved new key; -n changes no layer |
| Checks.FirstClaimRegistered | check.c:660-700 | a redirect resolving to a directory not yet registered becomes its registry entry, not counted invalid, whenever the cover accepts it; under -n, -p or -y it is registered only then |
| Checks.SecondClaimIsDuplicate | check.c:644-657 | a redirect resolving to an already registered directory is, under -n or -p, counted and counted invalid with nothing else changed |
| Checks.TwoClaimsOneDuplicate | check.c:644-700 | two redirect directories of one layer resolving to one directory: the first is registered, the second is the one duplicate, leaving a single entry for it |
| Checks.CountImpurity | check.c:789-808 | the parent's origins, redirects and merge dirs grow by one exactly when the child is an origin, a redirect dir or a merge dir |
| Checks.CheckImpure | check.c:733-768 | only a dir that needs it (some child counter nonzero and impure not "y") is touched; it becomes impure, or m_impure grows by one iff declined with origins or redirects nonzero |
| Scan.Visit | lib.c:203-244 | FTS_F counts a file, FTS_D a directory; a read error fails; in pass 0 a directory goes to the redirect check and in pass 1 an FTS_DEFAULT entry to the whiteout check, with the path relative to the layer root; any other entry changes nothing; pass 0 never changes the invalid-whiteout count, pass 1 neither redirect count, and neither the impurity count |
| Scan.ScanEntries | lib.c:203-245 | a successful walk met no read error and counted exactly its files and directories |
| Scan.ScanDir | lib.c:189-249 | fts_open failure fails unchanged; otherwise it is the walk, and only that layer changes |
| Scan.ScanOrder | check.c:901-927 | every lower from the deepest to index 0, then the upper; every layer exactly once |
| Scan.ScanPass | check.c:894-913 | files and directories start from zero each pass and count that pass's walks; the other counters carry on from the previous pass, and the pass's checks leave alone those they do not own; no layer is added or lost |
| Scan.ScanFix | check.c:884-936 | the layers keep their shape; -n changes nothing; a finished scan has the last pass's file and directory counts, no directory is counted missing the impure xattr, and it is inconsistent iff invalid whiteouts or redirect directories are left |
| Mount.SplitLowerdirsCount | mount.c:59-77 | the number of components is one more than the unescaped ':' |
| Mount.SplitLowerdirsFits | mount.c:64-75 | the components with their NUL separators never need more room than the list |
| Mount.SplitPlainList | mount.c:64-75 | a list without '\\' or ':' is one component, unchanged |
| Mount.SplitJoinLowerdirs | mount.c:59-77 | splitting the escaped, ':'-joined names gives the names back |
| Mount.ResolveLowerdirs | mount.c:80-121 | more than 500 components is an error; otherwise every component resolved in order, or failure iff one does not resolve |
| Mount.JoinSplitOpts | mount.c:127-148 | the tokens ovl_next_opt returns, joined with ',', are the option string again |
| Mount.SplitJoinOpts | mount.c:127-148 | options without an unescaped ',' joined with ',' split back into themselves |
| Mount.ApplyOptsLastWins | mount.c:150-155 | each directory field is the text after the last option with its prefix, or what it held before |
| Mount.PrefixesDisjoint | mount.c:225-237 | the three option prefixes exclude each other, so one option sets at most one field |
| Mount.GetDirs | mount.c:160-205 | succeeds iff every option given resolves; the fields take the resolved values and others keep theirs; from a zeroed slot no garbage is ever read |
| Mount.CollectZeroed | mount.c:259-287 | when every slot it reaches is zeroed (all blocks zeroed, or fewer than 16 lines kept, which smalloc's first block holds), the mount loop keeps, in table order, one slot per line of type overlay with absolute options that all resolve, holding the resolved directories; a failed line leaves its slot zeroed for the next |
| Mount.AsWrittenWithinFirstBlock | mount.c:259-281 | with fewer than 16 eligible lines the mount scan and mount check as written give exactly the slots and the answer of the zeroed model |
| Mount.ScanMounts | mount.c:242-294 | with every slot zeroed the result is exactly the slots of the eligible table lines, in order, each fully initialised |
| Mount.MatchSlot | mount.c:336-361 | on an initialised slot: mounted iff a lowerdir is shared, or upper equals upper, or work equals work |
| Mount.AnyMounted | mount.c:334-362 | over initialised slots: mounted iff some slot matches |
| Mount.AnyMountedTable | mount.c:334-362 | the mount loop over the kept slots answers "mounted" iff some line of the table is eligible and uses one of our directories |
| Mount.CheckMount | mount.c:321-370 | an unreadable mount table is an error; otherwise mounted iff some line of the table has type overlay, absolute options that all resolve, and a resolved lowerdir, upperdir or workdir equal to one of ours |
| Fsck.TakeOpt | fsck.c:187-221 | -V exits 0; -h, -a and unknown options exit 1; -o, -v and the policies keep parsing |
| Fsck.TakeOptPolicy | fsck.c:193-210 | a policy option conflicts iff a different policy was set before; otherwise its bit is added |
| Fsck.PolicyMask | fsck.c:193-210 | after the loop the policy bits are exactly the bit of the first policy option |
| Fsck.PolicyConflict | fsck.c:193-210 | conflict iff at least two different policies were given; repeating one is no conflict |
| Fsck.Validate | fsck.c:224-254 | a run goes ahead iff there is no conflict, a lowerdir list is given, every option given resolves, an upperdir comes with a workdir, and without an upperdir there are at least two lowerdirs; then the lowerdirs, the upperdir and the workdir are present exactly when given and equal their resolved values; otherwise exit 1 |
| Fsck.ParseOptions | fsck.c:170-255 | a run goes ahead iff the getopt loop ends without exiting and Validate's conditions hold; then each directory is present exactly when given and equals its resolved value, FL_UPPER is set iff an upperdir is, and the policy bits are those of the loop; every other outcome exits 0 or 1 |
| Fsck.TakeOptsConfig | fsck.c:187-192 | the configuration the getopt loop ends with is the options of all -o arguments applied in order, so each directory takes the last value any -o argument gives |
| Fsck.StatusReport | fsck.c:258-269 | the inconsistency bit gives FSCK_UNCORRECTED and the abort bit FSCK_ERROR, independently, and nothing else |
| Fsck.OpenDirs | fsck.c:61-120 | opens iff every given directory exists; the overlay has those layers in order |
| Fsck.ScanExit | fsck.c:293-309 | exit 0 iff the scan finished and nothing was left inconsistent; a scan error sets FSCK_ERROR, inconsistency FSCK_UNCORRECTED |
| Fsck.Main | fsck.c:271-310 | a mounted overlay without -n aborts with FSCK_ERROR and no scan; mounted with -n, or not mounted, scans; after a scan the exit code is that of the scan's outcome and the layers are as the scan left them; under -n the scan leaves the layers as opened; exit 0 only after a scan or for -V |
| Shell.QuoteBody | sh.c:25-31 | each single quote costs four characters more |
| Shell.Quote | sh.c:23-35 | the output starts and ends with a single quote and is the name's length plus 2 plus 4 per single quote |
| Shell.QuoteReadsBack | sh.c:23-35 | the POSIX shell reads the output as one word equal to the name |
| Shell.QuoteInjective | sh.c:23-35 | different names are quoted differently |
| Shell.QuoteTo | sh.c:23-35 | returns 0 iff the whole quoted name fits in the stream, -1 otherwise; the stream holds the quoted name up to where it failed |
| Findings.SecondRedirectReadsFreedPath | check.c:286-295 | a chain of two redirects in consecutive layers makes the lookup as written read freed memory; corrected, it finds the entry in the third layer |
| Findings.HiddenRedirectMissesTarget | path.c:111-112 | under a redirect dir ".cache" the lookup as written keeps the whole path and misses the target; corrected, it finds it |
| Findings.LowerOnlyMountReadsGarbage | mount.c:348-352 | with seventeen mounted overlays that give only lowerdirs, the seventeenth lands in a slot srealloc did not zero, and the mount check as written reads its unwritten upperdir; with every slot zeroed it answers "not mounted" |

## Left out

- System calls are functions on the layer maps, with a set of faulting paths per layer. The calls are fstatat, openat, the f*xattr calls, unlinkat and mknodat. Any failure other than ENOENT/ENOTDIR/ENODATA is one generic fault.
- File descriptors, rlimit handling and ovl_clean_dirs in fsck.c are not modelled. ovl_open_dirs becomes a lookup of each resolved directory in a map.
- fts is not modelled. The pre-order entry sequence of every (pass, layer) is an input (`Scan.Walks`), and a missing one is an fts_open failure.
- realpath is a finite map (`Mount.Resolver`); a path outside it does not resolve.
- setmntent/getmntent are not modelled. The mount table is an input, and `None` means it cannot be opened.
- Standard input is one string. Output, messages and verbose/debug printing are not modelled, and neither is the FL_VERBOSE effect.
- getopt_long is not modelled. The options arrive already split into `Fsck.Opt` values.
- usage() is taken to exit with 1, as its callers rely on.
- FL_WORK is not defined in lib.h. The model uses "a workdir resolved" directly.
- Absolute paths inside a layer are outside the model. They come only from a redirect value starting with "//". Every layer operation on them fails (see Lookups.LayerStep below).
- The scan status is a pair of booleans (`Scan.Outcome.inconsistent`, `ok`), not a global bit mask. Fsck.ScanExit turns them into the bits.
- The `.impurity`/`.impure` scan callbacks are registered for the upper layer, but scan_dir never calls them. Checks.CountImpurity and Checks.CheckImpure are modelled on their own and the scan does not use them.
- main.c, logic.c, mv.c and common.c are not part of this model. In sh.c, create_shell_script and command are not part of it either.
- ovl_next_opt on a NULL string is not modelled; the model's strings are never NULL.
- Shell.QuoteTo requires a name without NUL, because the C string ends at the first NUL.
- Scan.ScanEntries: it does not state that the entries after a failing one are left unvisited; it states only the counts of a walk that finishes.
- Lookups.LayerStep: a lower layer's entry is searched without stat of itself (skip). The contract states this only through `found.None?` under skip; how a miss sets the context is stated by Lookups.LayerStepMiss.
- Lookups.Lookup: its own contract states only soundness (a hit is a real entry at or below the start). That it finds the first layer of the route holding the path, misses exactly when every layer lacks it, and fails only on a faulting layer is stated by Lookups.LookupFollowsRoute, Lookups.RouteHitIsLookup and Lookups.LookupMissesIffRouteEmpty.
- Lookups.LookupLower: its own contract states only soundness; the skipped home layer and what happens below it are stated by Lookups.LookupLowerSkipsHome.
- Lookups.LookupIn: the lookup as written is stated for soundness only. The route lemmas are proved for the corrected lookup; the freed-buffer read depends on whether an earlier layer already redirected, so it is not a property of one layer.
- Lookups.AncestorVerdict: an ancestor whose redirect xattr is empty makes ovl_get_redirect return success with a NULL redirect (check.c:152-154), and joinname then calls strlen on NULL (check.c:292, path.c:58), which crashes. The model ends the lookup with the fault NullRedirect instead.
- Lookups.LayerStep: a redirect value "//x" gives the absolute path "/x". The ancestor loop `while (strcmp(dirname(pathname), "."))` (check.c:273) never ends there, since dirname of "/" is "/". The model ends such a lookup with the fault Io instead, and also does not model fstatat on an absolute path reading the host file system.
- Checks.CheckWhiteout: it decides orphans with the corrected lookup (Basename2Fixed, no freed-buffer read). As written, a whiteout under an upper directory ".cache" with redirect "/d", where lower 0 holds "d/x", is found orphaned and unlinked under -p/-y; the model keeps it. See Findings.
- Checks.CheckTarget: it looks up the redirect target with the corrected lookup. As written, a target under a hidden redirect directory is missed and the redirect xattr is removed (check.c:706-716); the model finds it and registers it.
- Checks.CheckRedirect: it goes through Checks.CheckTarget, so it models the corrected lookup too.
- Checks.TwoClaimsOneDuplicate: it is stated under -n, and under -p only when the first redirect's name already exists in the layer. When -p creates a whiteout for the first claim, the layer changes before the second check, and the lemma does not follow the second lookup through that change. Checks.SecondClaimIsDuplicate still covers the second claim on its own.
- Checks.CountImpurity: it uses the corrected lookup, so it differs from the code as written under hidden redirect directories. A FIFO, a block device or a character device other than a whiteout counts as openable for the origin xattr; whether open succeeds on a device depends on the host's drivers, which the model does not see.
- Scan.ScanFix: it runs the checks above, so it models the scan with the corrected lookup.
- Fsck.Main: it runs the scan with the corrected lookup and Mount.CheckMount with every slot zeroed. The code as written is Lookups.LookupIn and Mount.CheckMountAsWritten; see Findings. Mount.CheckMount gives the same answer as the code as written whenever fewer than 16 mount table lines are kept (Mount.AsWrittenWithinFirstBlock).
- Fsck.Main: when a lower directory fails to open, ovl_open_dirs jumps to a cleanup loop that counts an unsigned index down while it is at least 0 (fsck.c:63, 111). That loop never ends and indexes lowerfd past its end, so the program crashes or hangs instead of returning -1. The model ends the run with FSCK_ERROR, as it does for a failed upper open, which the source handles cleanly.
- Ask.IllegalAnswerIsReasked: a line of 14 characters or more is read in 14-character pieces (fgets with size 15), and each piece is judged as an answer of its own. A piece of 14 junk characters followed by a lone newline gives the default, and a last piece "y\n" answers yes. The lemmas cover lines shorter than 14 characters; Ask.Fgets states the pieces.
- Ask.AskYn: the contract states the blank-line and end-of-input cases directly. The answer lines are stated by Ask.AnswerLines, Ask.IllegalAnswerIsReasked and Ask.UnterminatedAnswerGivesDefault.
- Fsck.TakeOpts: its contract states only the exit codes and that only option bits are set. The policy bits and the conflict are stated by Fsck.PolicyMask and Fsck.PolicyConflict.

## Findings

| source | as written | input that shows it | evidently intended | confidence | as-written member | corrected member |
|---|---|---|---|---|---|---|
| check.c:286-295 | ovl_lookup_layer frees the previous redirect buffer and then takes basename2 of the path that still points into it | lower 0 has dir "a" with redirect "/b"; lower 1 has dir "b" with redirect "/c"; lower 2 has "c/x"; look up "a/x" | take the tail before freeing the old buffer, and find "c/x" in lower 2 | not executed | Lookups.LookupIn, shown by Findings.SecondRedirectReadsFreedPath | Lookups.Lookup |
| path.c:111-112 | basename2 compares no prefix at all when dir starts with '.', so a hidden directory such as ".cache" is not stripped | lower 0 has dir ".cache" with redirect "/d"; lower 1 has "d/x"; look up ".cache/x", which is rewritten to "d/.cache/x" | treat only "." as the empty prefix, and find "d/x" | not executed | Paths.Basename2, shown by Findings.HiddenRedirectMissesTarget and Paths.HiddenDirectoryNotStripped | Paths.Basename2Fixed, with Paths.JoinThenBasenameFixed |
| mount.c:279-281, 348-352 | the first 16 mount entries come zeroed from smalloc, but srealloc grows the array without zeroing; a mount with only lowerdirs in entry 16 or later leaves upperdir/workdir unwritten, and ovl_check_mount compares ours with them | the mount table holds 17 overlays, each with only "lowerdir=/a:/b"; fsck runs with lowerdirs /x, /y, upperdir /u and workdir /w | zero the entries srealloc adds, so the check answers "not mounted" | not executed | Mount.CheckMountAsWritten, shown by Findings.LowerOnlyMountReadsGarbage | Mount.CheckMount |

=== FILE: ask.dfy ===
/** The repair decision of lib.c:41-70. Standard input is one string that
    the decisions consume from the front; each decision returns the answer
    and what is left of the input. */
module Ask {
  import opened Util
  import opened Status

  /** `fgets(ans, sizeof(ans)-1, stdin)` with `char ans[16]` stores at most
      14 characters per call (lib.c:43, 47). */
  const ReadMax: nat := 14

  /** Length of the chunk fgets stores: up to and including the first
      newline, but never more than `limit` characters. */
  function ChunkLen(s: string, limit: nat): (n: nat)
    requires limit <= |s|
    ensures limit > 0 ==> 1 <= n
    ensures n <= limit
    ensures forall i | 0 <= i < n - 1 :: s[i] != '\n'
    ensures n < limit ==> s[n - 1] == '\n'
  {
    if limit == 0 then 0
    else if s[0] == '\n' then 1
    else 1 + ChunkLen(s[1..], limit - 1)
  }

  /** One fgets call: None at end of input, else the chunk read and the rest. */
  function Fgets(input: string): (r: Option<(string, string)>)
    ensures r.None? <==> input == ""
    ensures r.Some? ==> r.value.0 + r.value.1 == input
    ensures r.Some? ==> 1 <= |r.value.0| <= ReadMax
    ensures r.Some? ==> forall i | 0 <= i < |r.value.0| - 1 :: r.value.0[i] != '\n'
    ensures r.Some? && |r.value.0| < ReadMax && r.value.1 != "" ==> r.value.0[|r.value.0| - 1] == '\n'
  {
    if input == "" then None
    else
      var n := ChunkLen(input, if |input| < ReadMax then |input| else ReadMax);
      assert input[..n] + input[n..] == input;
      Some((input[..n], input[n..]))
  }

  /** A line shorter than the buffer, newline included, is read by one call. */
  lemma FgetsReadsLine(line: string, rest: string)
    requires |line| < ReadMax && '\n' !in line
    ensures Fgets(line + "\n" + rest) == Some((line + "\n", rest))
  {
    var input := line + "\n" + rest;
    var limit := if |input| < ReadMax then |input| else ReadMax;
    ChunkLenOfLine(input, line, limit);
    assert input[..|line| + 1] == line + "\n";
    assert input[|line| + 1..] == rest;
  }

  lemma {:induction false} ChunkLenOfLine(s: string, line: string, limit: nat)
    requires '\n' !in line && |line| < limit <= |s| && s[..|line| + 1] == line + "\n"
    ensures ChunkLen(s, limit) == |line| + 1
    decreases |line|
  {
    if |line| == 0 {
      assert s[0] == '\n';
    } else {
      assert s[0] == line[0] && line[0] in line;
      assert s[1..][..|line[1..]| + 1] == line[1..] + "\n";
      ChunkLenOfLine(s[1..], line[1..], limit - 1);
    }
  }

  /** A final fragment without a newline is read whole by one call. */
  lemma FgetsReadsFragment(line: string)
    requires 0 < |line| < ReadMax && '\n' !in line
    ensures Fgets(line) == Some((line, ""))
  {
    var n := ChunkLen(line, |line|);
    assert line[..n] == line;
  }

  /** tolower in the C locale. */
  function LowerAscii(c: char): char {
    if 'A' <= c <= 'Z' then (c as int + 32) as char else c
  }

  /** strcasecmp(a, b) == 0. */
  predicate SameIgnoringCase(a: string, b: string) {
    |a| == |b| && forall i | 0 <= i < |a| :: LowerAscii(a[i]) == LowerAscii(b[i])
  }

  predicate IsYes(chunk: string) {
    SameIgnoringCase(chunk, "y\n") || SameIgnoringCase(chunk, "yes\n")
  }

  predicate IsNo(chunk: string) {
    SameIgnoringCase(chunk, "n\n") || SameIgnoringCase(chunk, "no\n")
  }

  /** ask_yn (lib.c:41-59): read chunks until one is blank, a yes or a no. */
  function AskYn(def: bool, input: string): (r: (bool, string))
    ensures |r.1| <= |input| && r.1 == input[|input| - |r.1|..]
    ensures input == "" ==> r == (def, "")
    ensures |input| > 0 && input[0] == '\n' ==> r == (def, input[1..])
    decreases |input|
  {
    match Fgets(input)
    case None => (def, input)
    case Some((chunk, rest)) =>
      if chunk[0] == '\n' then (def, rest)
      else if IsYes(chunk) then (true, rest)
      else if IsNo(chunk) then (false, rest)
      else AskYn(def, rest)
  }

  /** ask_question (lib.c:61-70): any policy flag answers without reading. */
  function AskQuestion(flags: bv32, def: bool, input: string): (r: (bool, string))
    ensures flags & FL_OPT_MASK != 0 ==> r.1 == input
    ensures AssumeYes(flags) ==> r.0
    ensures AssumeNo(flags) ==> !r.0
    ensures Automatic(flags) ==> r.0 == def
    ensures flags & FL_OPT_MASK == 0 ==> r == AskYn(def, input)
  {
    if flags & FL_OPT_MASK != 0 then
      (if flags & FL_OPT_YES != 0 then true else if flags & FL_OPT_NO != 0 then false else def, input)
    else AskYn(def, input)
  }

  /** A "y" or "yes" line, in any case, answers yes; an "n" or "no" line
      answers no; a blank line takes the default. Each consumes its line. */
  lemma AnswerLines(def: bool, line: string, rest: string)
    requires |line| < ReadMax && '\n' !in line
    ensures IsYes(line + "\n") ==> AskYn(def, line + "\n" + rest) == (true, rest)
    ensures IsNo(line + "\n") ==> AskYn(def, line + "\n" + rest) == (false, rest)
    ensures line == "" ==> AskYn(def, line + "\n" + rest) == (def, rest)
  {
    FgetsReadsLine(line, rest);
    if line != "" {
      assert (line + "\n")[0] == line[0] && line[0] in line;
    }
  }

  /** An answer that is neither blank, yes nor no is rejected and the
      question is asked again on the following input. */
  lemma IllegalAnswerIsReasked(def: bool, line: string, rest: string)
    requires 0 < |line| < ReadMax && '\n' !in line
    requires !IsYes(line + "\n") && !IsNo(line + "\n")
    ensures AskYn(def, line + "\n" + rest) == AskYn(def, rest)
  {
    FgetsReadsLine(line, rest);
    assert (line + "\n")[0] == line[0] && line[0] in line;
  }

  /** An answer at the very end of the input without its newline is not
      recognised, and the default is taken. */
  lemma UnterminatedAnswerGivesDefault(def: bool, line: string)
    requires 0 < |line| < ReadMax && '\n' !in line
    ensures AskYn(def, line) == (def, "")
  {
    FgetsReadsFragment(line);
    assert line[0] in line;
    assert line[|line| - 1] in line;
  }
}

=== FILE: checks.dfy ===
/** The per-entry checks and repairs of check.c:396-808, each a function from
    the checker state to the next state and a success flag. Every repair is
    guarded by a question (Ask.AskQuestion); the answer comes from the option
    flags or from the input. */
module Checks {
  import opened Util
  import opened Status
  import opened Ask
  import opened Paths
  import opened Layers
  import opened Lookups
  import opened Registry

  /** The counters of struct scan_ctx that check.c reads and writes. */
  datatype Counters = Counters(
    files: int, directories: int,
    tWhiteouts: int, iWhiteouts: int,
    tRedirects: int, iRedirects: int,
    mImpure: int)

  const Zero: Counters := Counters(0, 0, 0, 0, 0, 0, 0)

  /** Everything a check may change: the layers, the counters, the redirect
      registry and what is left of the input. */
  datatype State = State(ovl: Overlay, ctr: Counters, reg: seq<RedirectEntry>, input: string)

  /** A check's outcome; `ok` is false where the source returns -1. */
  datatype Done = Done(st: State, ok: bool)

  /** The two overlays have the same layers, and agree on every layer but `pl`. */
  ghost predicate OnlyLayerChanged(a: Overlay, b: Overlay, pl: Place) {
    && |a.lowers| == |b.lowers| && a.upper.Some? == b.upper.Some?
    && forall q | ValidPlace(a, q) && q != pl :: LayerAt(b, q) == LayerAt(a, q)
  }

  /** The entry sits in the bottom lower layer (check.c:410, 630). */
  predicate Bottom(o: Overlay, pl: Place) {
    pl.Lower? && pl.stack == |o.lowers| - 1
  }

  /** ask_question on the remaining input. */
  function Decide(st: State, flags: bv32, def: bool): (r: (bool, State))
    ensures r.1 == st.(input := r.1.input)
    ensures flags & FL_OPT_MASK != 0 ==> r.1 == st
    ensures AssumeYes(flags) ==> r.0
    ensures AssumeNo(flags) ==> !r.0
    ensures Automatic(flags) ==> r.0 == def
  {
    var (answer, rest) := AskQuestion(flags, def, st.input);
    (answer, st.(input := rest))
  }

  // ---------------------------------------------------------------------
  // Whiteouts
  // ---------------------------------------------------------------------

  /** A whiteout is orphaned when nothing it could hide exists below it: it
      is in the bottom layer, or the lookup below finds nothing or finds
      another whiteout (check.c:410-422). */
  predicate OrphanWhiteout(o: Overlay, pl: Place, path: string)
    requires ValidPlace(o, pl)
  {
    Bottom(o, pl)
    || LookupLower(o, path, pl) == Ok(NotFound)
    || (LookupLower(o, path, pl).Ok? && LookupLower(o, path, pl).value.Found?
        && IsWhiteout(LookupLower(o, path, pl).value.entry.kind))
  }

  /** ovl_check_whiteout (check.c:396-442) for the scanned entry `path` of
      kind `kind` in layer `pl`. */
  function CheckWhiteout(st: State, flags: bv32, pl: Place, path: string, kind: Kind): (r: Done)
    requires ValidPlace(st.ovl, pl)
    ensures !IsWhiteout(kind) ==> r == Done(st, true)
    ensures r.st.reg == st.reg
    ensures r.st.ctr.(tWhiteouts := 0, iWhiteouts := 0) == st.ctr.(tWhiteouts := 0, iWhiteouts := 0)
    ensures r.st.ovl == st.ovl
      || (&& r.ok && OrphanWhiteout(st.ovl, pl, path)
          && Unlink(LayerAt(st.ovl, pl), path).Ok?
          && r.st.ovl == WithLayer(st.ovl, pl, Unlink(LayerAt(st.ovl, pl), path).value)
          && r.st.ctr == st.ctr)
    ensures IsWhiteout(kind) && r.ok && r.st.ovl == st.ovl ==>
      r.st.ctr == st.ctr.(tWhiteouts := st.ctr.tWhiteouts + 1,
                          iWhiteouts := st.ctr.iWhiteouts + if OrphanWhiteout(st.ovl, pl, path) then 1 else 0)
    ensures !r.ok ==> IsWhiteout(kind) && r.st.ovl == st.ovl
    ensures AssumeNo(flags) ==> r.st.ovl == st.ovl && r.st.input == st.input
    ensures Automatic(flags) && IsWhiteout(kind) && OrphanWhiteout(st.ovl, pl, path) && Unlink(LayerAt(st.ovl, pl), path).Ok?
      ==> r.st.ovl != st.ovl
  {
    if !IsWhiteout(kind) then Done(st, true)
    else
      var st1 := st.(ctr := st.ctr.(tWhiteouts := st.ctr.tWhiteouts + 1));
      if !Bottom(st.ovl, pl) && LookupLower(st.ovl, path, pl).Err? then Done(st1, false)
      else if !OrphanWhiteout(st.ovl, pl, path) then Done(st1, true)
      else
        var st2 := st1.(ctr := st1.ctr.(iWhiteouts := st1.ctr.iWhiteouts + 1));
        var (yes, st3) := Decide(st2, flags, true);
        if !yes then Done(st3, true)
        else
          match Unlink(LayerAt(st3.ovl, pl), path)
          case Err(_) => Done(st3, false)
          case Ok(l) => Done(st3.(ovl := WithLayer(st3.ovl, pl, l), ctr := st.ctr), true)
  }

  // ---------------------------------------------------------------------
  // Redirect directories
  // ---------------------------------------------------------------------

  /** The redirect directories of the layer at `pl`. */
  function Redirects(o: Overlay, pl: Place): set<string>
    requires ValidPlace(o, pl)
  {
    RedirectPaths(LayerAt(o, pl))
  }

  /** What every step of the redirect repair preserves: the layers other
      than `pl` and the shape of the overlay; no redirect directory appears;
      t_redirects minus the number of redirect directories of the layer stays
      the same; and the registry only loses entries and keeps no duplicates. */
  ghost predicate Keeps(st: State, st': State, pl: Place) {
    && ValidPlace(st.ovl, pl) && ValidPlace(st'.ovl, pl)
    && OnlyLayerChanged(st.ovl, st'.ovl, pl)
    && Redirects(st'.ovl, pl) <= Redirects(st.ovl, pl)
    && st'.ctr.tRedirects - |Redirects(st'.ovl, pl)| == st.ctr.tRedirects - |Redirects(st.ovl, pl)|
    && (Unique(st.reg) ==> Unique(st'.reg))
    && |st'.reg| <= |st.reg|
    && (forall e | e in st'.reg :: e in st.reg)
  }

  lemma KeepsTrans(a: State, b: State, c: State, pl: Place)
    requires Keeps(a, b, pl) && Keeps(b, c, pl)
    ensures Keeps(a, c, pl)
  {
  }

  /** ovl_do_remove_redirect (check.c:547-598): remove the redirect xattr of
      `path`, count the redirect as neither present nor invalid any more, and
      go on with FollowRemoval. Each call first removes one redirect xattr,
      which fails when there is none, so the number of redirect directories of
      the layer bounds the recursion. */
  function DoRemoveRedirect(st: State, flags: bv32, pl: Place, path: string): (r: Done)
    requires ValidPlace(st.ovl, pl)
    ensures Keeps(st, r.st, pl)
    ensures RemoveXattr(LayerAt(st.ovl, pl), path, Redirect).Err? ==> r == Done(st, false)
    ensures RemoveXattr(LayerAt(st.ovl, pl), path, Redirect).Ok? ==>
      Key(path) in Redirects(st.ovl, pl) && Key(path) !in Redirects(r.st.ovl, pl)
    ensures r.ok ==> r.st.ctr.iRedirects == st.ctr.iRedirects - 1
    ensures r.st.ctr.(tRedirects := 0, iRedirects := 0) == st.ctr.(tRedirects := 0, iRedirects := 0)
    ensures AssumeYes(flags) ==> r.st.reg == st.reg
    decreases |Redirects(st.ovl, pl)|, 0
  {
    var l := LayerAt(st.ovl, pl);
    match RemoveXattr(l, path, Redirect)
    case Err(_) => Done(st, false)
    case Ok(l1) =>
      RedirectPathsAfterRemoveRedirect(l, path);
      var st1 := st.(ovl := WithLayer(st.ovl, pl, l1),
                     ctr := st.ctr.(tRedirects := st.ctr.tRedirects - 1,
                                    iRedirects := st.ctr.iRedirects - 1));
      assert Keeps(st, st1, pl);
      var r := FollowRemoval(st1, flags, pl, path);
      KeepsTrans(st, st1, r.st, pl);
      r
  }

  /** ovl_set_opaque (check.c:131-134) on `p` in layer `pl`. */
  function SetOpaqueAt(st: State, pl: Place, p: string): (r: Done)
    requires ValidPlace(st.ovl, pl)
    ensures Keeps(st, r.st, pl)
    ensures r.st.ctr == st.ctr && r.st.reg == st.reg && r.st.input == st.input
    ensures r.ok <==> SetXattr(LayerAt(st.ovl, pl), p, Opaque, "y").Ok?
    ensures r.ok ==> IsOpaque(LayerAt(r.st.ovl, pl), p)
    ensures !r.ok ==> r.st == st
  {
    var l := LayerAt(st.ovl, pl);
    match SetXattr(l, p, Opaque, "y")
    case Err(_) => Done(st, false)
    case Ok(l1) =>
      RedirectPathsAfterSetXattr(l, p, Opaque, "y");
      Done(st.(ovl := WithLayer(st.ovl, pl, l1)), true)
  }

  /** The rest of ovl_do_remove_redirect once the xattr is gone
      (check.c:563-594): if a directory of the same name exists below, offer
      to make `path` opaque (default no), and if that is declined go on with
      Cascade. */
  function FollowRemoval(st: State, flags: bv32, pl: Place, path: string): (r: Done)
    requires ValidPlace(st.ovl, pl)
    ensures Keeps(st, r.st, pl)
    ensures r.ok ==> r.st.ctr.iRedirects == st.ctr.iRedirects
    ensures r.st.ctr.(tRedirects := 0, iRedirects := 0) == st.ctr.(tRedirects := 0, iRedirects := 0)
    ensures AssumeNo(flags) ==> r.st == st
    ensures AssumeYes(flags) ==> r.st.reg == st.reg
    decreases |Redirects(st.ovl, pl)|, 2
  {
    match LookupLower(st.ovl, path, pl)
    case Err(_) => Done(st, false)
    case Ok(NotFound) => Done(st, true)
    case Ok(Found(opath, ostack, e)) =>
      if !e.kind.Dir? then Done(st, true)
      else
        var (setOpaque, st2) := Decide(st, flags, false);
        if setOpaque then SetOpaqueAt(st2, pl, path)
        else
          var r := Cascade(st2, flags, pl, opath, ostack);
          KeepsTrans(st, st2, r.st, pl);
          r
  }

  /** The duplicate cascade of check.c:576-594: when the registry records a
      redirect directory of the same layer for the lower directory `origin`,
      offer to remove its redirect too (default no); if accepted, count it
      invalid again, remove it recursively, and drop its registry entry. */
  function Cascade(st: State, flags: bv32, pl: Place, origin: string, ostack: nat): (r: Done)
    requires ValidPlace(st.ovl, pl)
    ensures Keeps(st, r.st, pl)
    ensures r.ok ==> r.st.ctr.iRedirects == st.ctr.iRedirects
    ensures r.st.ctr.(tRedirects := 0, iRedirects := 0) == st.ctr.(tRedirects := 0, iRedirects := 0)
    ensures AssumeNo(flags) ==> r.st == st
    decreases |Redirects(st.ovl, pl)|, 1
  {
    match Find(st.reg, origin, ostack)
    case None => Done(st, true)
    case Some(dup) =>
      if dup.place != pl then Done(st, true)
      else
        var (again, st1) := Decide(st, flags, false);
        if !again then Done(st1, true)
        else
          var st2 := st1.(ctr := st1.ctr.(iRedirects := st1.ctr.iRedirects + 1));
          var sub := DoRemoveRedirect(st2, flags, pl, dup.pathname);
          KeepsTrans(st, st2, sub.st, pl);
          if !sub.ok then sub
          else
            DelKeepsUnique(sub.st.reg, origin, ostack);
            var r := Done(sub.st.(reg := Del(sub.st.reg, origin, ostack)), true);
            KeepsTrans(st, sub.st, r.st, pl);
            r
  }

  /** Del keeps the registry free of duplicates. */
  lemma DelKeepsUnique(reg: seq<RedirectEntry>, origin: string, ostack: nat)
    ensures Unique(reg) ==> Unique(Del(reg, origin, ostack))
  {
    if Unique(reg) {
      DelRemovesKey(reg, origin, ostack);
    }
  }

  /** The layer the lookup for a redirect target starts from (check.c:635). */
  function TargetStart(pl: Place): nat {
    match pl
    case Upper => 0
    case Lower(s) => s + 1
  }

  /** The invalid-redirect branch of ovl_check_redirect (check.c:706-716):
      count it, and remove the xattr if the answer (default yes) allows. */
  function RemoveInvalid(st: State, flags: bv32, pl: Place, path: string): (r: Done)
    requires ValidPlace(st.ovl, pl)
    ensures Keeps(st, r.st, pl)
    ensures r.st.ctr.(tRedirects := 0, iRedirects := 0) == st.ctr.(tRedirects := 0, iRedirects := 0)
    ensures AssumeNo(flags) ==> r == Done(st.(ctr := st.ctr.(iRedirects := st.ctr.iRedirects + 1)), true)
    ensures Automatic(flags) && RemoveXattr(LayerAt(st.ovl, pl), path, Redirect).Ok? ==>
      Key(path) !in Redirects(r.st.ovl, pl)
  {
    var st1 := st.(ctr := st.ctr.(iRedirects := st.ctr.iRedirects + 1));
    var (yes, st2) := Decide(st1, flags, true);
    if !yes then Done(st2, true)
    else DoRemoveRedirect(st2, flags, pl, path)
  }

  /** The entry the registry gains for a valid redirect. */
  function Register(st: State, pl: Place, path: string, origin: string, ostack: nat): (r: Done)
    ensures r.ok && r.st == st.(reg := Add(st.reg, RedirectEntry(path, pl, origin, ostack)))
  {
    Done(st.(reg := Add(st.reg, RedirectEntry(path, pl, origin, ostack))), true)
  }

  /** A repair step from `st` to `st'` that keeps what Keeps keeps about the
      layers and the counters, and adds the entry `e` at the registry's head. */
  ghost predicate Grows(st: State, st': State, pl: Place, e: RedirectEntry) {
    && ValidPlace(st.ovl, pl) && ValidPlace(st'.ovl, pl)
    && OnlyLayerChanged(st.ovl, st'.ovl, pl)
    && Redirects(st'.ovl, pl) <= Redirects(st.ovl, pl)
    && st'.ctr.tRedirects - |Redirects(st'.ovl, pl)| == st.ctr.tRedirects - |Redirects(st.ovl, pl)|
    && st'.reg == Add(st.reg, e)
  }

  /** The missing-name branch of check.c:667-677: nothing in this layer hides
      the redirect target `rd`; offer to create a whiteout there (default
      yes), counted as a whiteout, and record the redirect. */
  function CoverMissing(st: State, flags: bv32, pl: Place, path: string, rd: string, origin: string, ostack: nat): (r: Done)
    requires ValidPlace(st.ovl, pl)
    ensures r.ok ==> Grows(st, r.st, pl, RedirectEntry(path, pl, origin, ostack))
    ensures !r.ok ==> Keeps(st, r.st, pl) && r.st.reg == st.reg
    ensures r.st.ctr.(tWhiteouts := 0) == st.ctr.(tWhiteouts := 0)
    ensures r.st.ctr.tWhiteouts != st.ctr.tWhiteouts ==>
      && r.st.ctr.tWhiteouts == st.ctr.tWhiteouts + 1
      && MknodWhiteout(LayerAt(st.ovl, pl), rd).Ok?
      && LayerAt(r.st.ovl, pl) == MknodWhiteout(LayerAt(st.ovl, pl), rd).value
    ensures r.st.ovl != st.ovl ==> r.st.ctr.tWhiteouts == st.ctr.tWhiteouts + 1
    ensures AssumeNo(flags) ==> r.st.ovl == st.ovl && r.st.input == st.input && r.ok
    ensures AssumeNo(flags) ==> r == Done(st.(reg := Add(st.reg, RedirectEntry(path, pl, origin, ostack))), true)
    ensures (AssumeYes(flags) || Automatic(flags)) && MknodWhiteout(LayerAt(st.ovl, pl), rd).Ok? ==>
      r == Done(st.(ovl := WithLayer(st.ovl, pl, MknodWhiteout(LayerAt(st.ovl, pl), rd).value),
                    ctr := st.ctr.(tWhiteouts := st.ctr.tWhiteouts + 1),
                    reg := Add(st.reg, RedirectEntry(path, pl, origin, ostack))), true)
    ensures (AssumeYes(flags) || Automatic(flags)) && MknodWhiteout(LayerAt(st.ovl, pl), rd).Err? ==> r == Done(st, false)
    ensures MknodWhiteout(LayerAt(st.ovl, pl), rd).Ok? ==> r.ok
  {
    var l := LayerAt(st.ovl, pl);
    var (add, st1) := Decide(st, flags, true);
    if !add then Register(st1, pl, path, origin, ostack)
    else
      match MknodWhiteout(l, rd)
      case Err(_) => Done(st1, false)
      case Ok(l1) =>
        RedirectPathsAfterMknod(l, rd);
        Register(st1.(ovl := WithLayer(st1.ovl, pl, l1),
                      ctr := st1.ctr.(tWhiteouts := st1.ctr.tWhiteouts + 1)),
                 pl, path, origin, ostack)
  }

  /** The set-opaque question of check.c:689-697 (default no): on yes, make
      `rd` opaque and record the redirect; on no, leave everything else. */
  function OfferOpaque(st: State, flags: bv32, pl: Place, path: string, rd: string, origin: string, ostack: nat): (r: Done)
    requires ValidPlace(st.ovl, pl)
    ensures Grows(st, r.st, pl, RedirectEntry(path, pl, origin, ostack)) || Keeps(st, r.st, pl)
    ensures r.st.ctr == st.ctr
    ensures !Decide(st, flags, false).0 ==> r == Done(Decide(st, flags, false).1, true)
    ensures Decide(st, flags, false).0 && SetXattr(LayerAt(st.ovl, pl), rd, Opaque, "y").Ok? ==>
      r.ok && r.st.reg == Add(st.reg, RedirectEntry(path, pl, origin, ostack))
    ensures |r.st.reg| > |st.reg| ==> r.ok && IsOpaque(LayerAt(r.st.ovl, pl), rd)
  {
    var (makeOpaque, st1) := Decide(st, flags, false);
    if !makeOpaque then
      assert Keeps(st, st1, pl);
      Done(st1, true)
    else
      var s := SetOpaqueAt(st1, pl, rd);
      KeepsTrans(st, st1, s.st, pl);
      if !s.ok then s
      else
        var r := Register(s.st, pl, path, origin, ostack);
        assert Grows(st, r.st, pl, RedirectEntry(path, pl, origin, ostack));
        r
  }

  /** The merged-name branch of check.c:678-697: a plain directory of this
      layer already merges with the target `rd`, so the redirect is counted
      invalid; offer to remove it (default no), or else to make `rd` opaque
      (default no) and record the redirect. */
  function CoverMerged(st: State, flags: bv32, pl: Place, path: string, rd: string, origin: string, ostack: nat): (r: Done)
    requires ValidPlace(st.ovl, pl)
    ensures Grows(st, r.st, pl, RedirectEntry(path, pl, origin, ostack)) || Keeps(st, r.st, pl)
    ensures ValidPlace(r.st.ovl, pl)
    ensures r.st.ctr.(tRedirects := 0, iRedirects := 0) == st.ctr.(tRedirects := 0, iRedirects := 0)
    ensures AssumeNo(flags) || Automatic(flags) ==>
      r == Done(st.(ctr := st.ctr.(iRedirects := st.ctr.iRedirects + 1)), true)
    ensures AssumeYes(flags) ==> r.st.reg == st.reg
    ensures AssumeYes(flags) && RemoveXattr(LayerAt(st.ovl, pl), path, Redirect).Ok? ==>
      Key(path) !in Redirects(r.st.ovl, pl)
    ensures AssumeYes(flags) && RemoveXattr(LayerAt(st.ovl, pl), path, Redirect).Err? ==>
      r == Done(st.(ctr := st.ctr.(iRedirects := st.ctr.iRedirects + 1)), false)
    ensures |r.st.reg| > |st.reg| ==>
      && r.ok && IsOpaque(LayerAt(r.st.ovl, pl), rd)
      && r.st.ctr == st.ctr.(iRedirects := st.ctr.iRedirects + 1)
    ensures (&& SetXattr(LayerAt(st.ovl, pl), rd, Opaque, "y").Ok?
             && !RemoveAnswer(st, flags).0
             && Decide(RemoveAnswer(st, flags).1, flags, false).0) ==>
        r.ok && r.st.reg == Add(st.reg, RedirectEntry(path, pl, origin, ostack))
  {
    var (remove, st2) := RemoveAnswer(st, flags);
    if remove then
      var r := DoRemoveRedirect(st2, flags, pl, path);
      KeepsTrans(st, st2, r.st, pl);
      r
    else
      var r := OfferOpaque(st2, flags, pl, path, rd, origin, ostack);
      assert Keeps(st, st2, pl);
      if |r.st.reg| > |st.reg| then
        assert Grows(st, r.st, pl, RedirectEntry(path, pl, origin, ostack));
        r
      else
        KeepsTrans(st, st2, r.st, pl);
        r
  }

  /** The first question of the merged-name branch (check.c:683-688): the
      redirect is counted invalid, then its removal is offered (default no). */
  function RemoveAnswer(st: State, flags: bv32): (r: (bool, State))
    ensures r.1.ctr == st.ctr.(iRedirects := st.ctr.iRedirects + 1)
    ensures r.1 == st.(ctr := r.1.ctr, input := r.1.input)
    ensures flags & FL_OPT_MASK != 0 ==> r.1.input == st.input && r.0 == AssumeYes(flags)
  {
    Decide(st.(ctr := st.ctr.(iRedirects := st.ctr.iRedirects + 1)), flags, false)
  }

  /** The name `rd` in the layer is a plain directory that merges with what
      lies below it: not opaque and not itself a redirect (check.c:678-680). */
  predicate MergedCover(l: Layer, rd: string) {
    && Stat(l, rd).Ok? && Stat(l, rd).value.Some? && Stat(l, rd).value.value.kind.Dir?
    && !IsOpaque(l, rd) && !IsRedirect(l, rd)
  }

  /** Whatever the answers, the cover check lets the redirect through: the
      name `rd` already hides something that is not a plain merge directory,
      or it is missing and a whiteout can be made there or, under -n, is not
      attempted. */
  predicate CoverAccepts(l: Layer, rd: string, flags: bv32) {
    && Stat(l, rd).Ok? && !MergedCover(l, rd)
    && (Stat(l, rd).value.Some? || AssumeNo(flags) || MknodWhiteout(l, rd).Ok?)
  }

  /** The valid-target part of ovl_check_redirect (check.c:660-703): the
      redirect resolves to a directory not yet claimed; make sure the name
      `rd` in this layer hides that directory, then record the redirect. */
  function CoverTarget(st: State, flags: bv32, pl: Place, path: string, rd: string, origin: string, ostack: nat): (r: Done)
    requires ValidPlace(st.ovl, pl)
    ensures Grows(st, r.st, pl, RedirectEntry(path, pl, origin, ostack)) || Keeps(st, r.st, pl)
    ensures r.st.ctr.(tWhiteouts := 0, tRedirects := 0, iRedirects := 0)
         == st.ctr.(tWhiteouts := 0, tRedirects := 0, iRedirects := 0)
    ensures Stat(LayerAt(st.ovl, pl), rd).Err? ==> r == Done(st, false)
    ensures AssumeNo(flags) ==> r.st.ovl == st.ovl && r.st.input == st.input
    ensures Stat(LayerAt(st.ovl, pl), rd) == Ok(None) ==> r == CoverMissing(st, flags, pl, path, rd, origin, ostack)
    ensures MergedCover(LayerAt(st.ovl, pl), rd) ==> r == CoverMerged(st, flags, pl, path, rd, origin, ostack)
    ensures Stat(LayerAt(st.ovl, pl), rd).Ok? && Stat(LayerAt(st.ovl, pl), rd).value.Some? && !MergedCover(LayerAt(st.ovl, pl), rd) ==>
      r == Done(st.(reg := Add(st.reg, RedirectEntry(path, pl, origin, ostack))), true)
    ensures CoverAccepts(LayerAt(st.ovl, pl), rd, flags) ==>
      r.ok && r.st.reg == Add(st.reg, RedirectEntry(path, pl, origin, ostack))
  {
    var l := LayerAt(st.ovl, pl);
    match Stat(l, rd)
    case Err(_) => Done(st, false)
    case Ok(None) => CoverMissing(st, flags, pl, path, rd, origin, ostack)
    case Ok(Some(c)) =>
      if MergedCover(l, rd) then
        CoverMerged(st, flags, pl, path, rd, origin, ostack)
      else Register(st, pl, path, origin, ostack)
  }

  /** The redirect of `path` resolves to the directory `origin` of lower layer
      `ostack`: the lookup from the layer below `pl` finds a directory there. */
  ghost predicate ResolvesTo(o: Overlay, pl: Place, path: string, origin: string, ostack: nat)
    requires ValidPlace(o, pl)
  {
    && GetRedirect(LayerAt(o, pl), path).Ok? && GetRedirect(LayerAt(o, pl), path).value.Some?
    && !Bottom(o, pl)
    && var hit := Lookup(o, GetRedirect(LayerAt(o, pl), path).value.value, TargetStart(pl));
       hit.Ok? && hit.value.Found? && hit.value.path == origin && hit.value.stack == ostack
       && hit.value.entry.kind.Dir?
  }

  /** One redirect check either keeps what Keeps keeps, or records `path` as
      the one redirect directory that claims the directory its redirect
      resolves to. */
  ghost predicate RedirectStep(st: State, st': State, pl: Place, path: string)
    requires ValidPlace(st.ovl, pl)
  {
    || Keeps(st, st', pl)
    || exists origin, ostack | Grows(st, st', pl, RedirectEntry(path, pl, origin, ostack)) ::
         ResolvesTo(st.ovl, pl, path, origin, ostack) && Find(st.reg, origin, ostack).None?
  }

  /** A redirect step keeps the registry free of duplicates, and the registry
      grows only by an entry for a redirect that resolves. */
  lemma RedirectStepRegistry(st: State, st': State, pl: Place, path: string)
    requires ValidPlace(st.ovl, pl) && RedirectStep(st, st', pl, path)
    ensures Unique(st.reg) ==> Unique(st'.reg)
    ensures |st'.reg| > |st.reg| ==>
      exists origin, ostack | st'.reg == Add(st.reg, RedirectEntry(path, pl, origin, ostack)) ::
        ResolvesTo(st.ovl, pl, path, origin, ostack) && Find(st.reg, origin, ostack).None?
  {
    if !Keeps(st, st', pl) {
      var origin, ostack :| Grows(st, st', pl, RedirectEntry(path, pl, origin, ostack))
        && ResolvesTo(st.ovl, pl, path, origin, ostack) && Find(st.reg, origin, ostack).None?;
      if Unique(st.reg) {
        AddKeepsUnique(st.reg, RedirectEntry(path, pl, origin, ostack));
      }
    }
  }

  /** The resolved-target part of ovl_check_redirect (check.c:648-703): the
      redirect of `path` resolves to the directory `origin` of layer
      `ostack`. A second claim on it is a duplicate, counted invalid, whose
      removal is offered (default no); a first claim goes on to CoverTarget. */
  function AcceptTarget(st: State, flags: bv32, pl: Place, path: string, rd: string, origin: string, ostack: nat): (r: Done)
    requires ValidPlace(st.ovl, pl)
    requires ResolvesTo(st.ovl, pl, path, origin, ostack)
    ensures RedirectStep(st, r.st, pl, path)
    ensures Find(st.reg, origin, ostack).Some? ==> Keeps(st, r.st, pl)
    ensures Find(st.reg, origin, ostack).Some? && (AssumeNo(flags) || Automatic(flags)) ==>
      r == Done(st.(ctr := st.ctr.(iRedirects := st.ctr.iRedirects + 1)), true)
    ensures r.st.ctr.(tWhiteouts := 0, tRedirects := 0, iRedirects := 0)
         == st.ctr.(tWhiteouts := 0, tRedirects := 0, iRedirects := 0)
    ensures AssumeNo(flags) ==> r.st.ovl == st.ovl && r.st.input == st.input
  {
    if Find(st.reg, origin, ostack).Some? then
      var st1 := st.(ctr := st.ctr.(iRedirects := st.ctr.iRedirects + 1));
      var (remove, st2) := Decide(st1, flags, false);
      assert Keeps(st, st2, pl);
      if remove then
        var r := DoRemoveRedirect(st2, flags, pl, path);
        KeepsTrans(st, st2, r.st, pl);
        r
      else Done(st2, true)
    else
      CoverTarget(st, flags, pl, path, rd, origin, ostack)
  }

  /** ovl_check_redirect (check.c:614-720) for the scanned directory `path` of
      layer `pl`. */
  function CheckRedirect(st: State, flags: bv32, pl: Place, path: string): (r: Done)
    requires ValidPlace(st.ovl, pl)
    ensures ValidPlace(r.st.ovl, pl) && OnlyLayerChanged(st.ovl, r.st.ovl, pl)
    ensures GetRedirect(LayerAt(st.ovl, pl), path).Err? ==> r == Done(st, false)
    ensures GetRedirect(LayerAt(st.ovl, pl), path) == Ok(None) ==> r == Done(st, true)
    ensures GetRedirect(LayerAt(st.ovl, pl), path).Ok? && GetRedirect(LayerAt(st.ovl, pl), path).value.Some? ==>
      r.st.ctr.tRedirects - |Redirects(r.st.ovl, pl)| == st.ctr.tRedirects + 1 - |Redirects(st.ovl, pl)|
    ensures Redirects(r.st.ovl, pl) <= Redirects(st.ovl, pl)
    ensures Unique(st.reg) ==> Unique(r.st.reg)
    ensures |r.st.reg| > |st.reg| ==>
      exists origin, ostack | r.st.reg == Add(st.reg, RedirectEntry(path, pl, origin, ostack)) ::
        ResolvesTo(st.ovl, pl, path, origin, ostack) && Find(st.reg, origin, ostack).None?
    ensures r.st.ctr.(tWhiteouts := 0, tRedirects := 0, iRedirects := 0)
         == st.ctr.(tWhiteouts := 0, tRedirects := 0, iRedirects := 0)
    ensures AssumeNo(flags) ==> r.st.ovl == st.ovl && r.st.input == st.input
    ensures GetRedirect(LayerAt(st.ovl, pl), path).Ok? && GetRedirect(LayerAt(st.ovl, pl), path).value.Some? ==>
      r == CheckTarget(st.(ctr := st.ctr.(tRedirects := st.ctr.tRedirects + 1)), flags, pl, path,
                       GetRedirect(LayerAt(st.ovl, pl), path).value.value)
  {
    match GetRedirect(LayerAt(st.ovl, pl), path)
    case Err(_) => Done(st, false)
    case Ok(None) => Done(st, true)
    case Ok(Some(rd)) =>
      var st1 := st.(ctr := st.ctr.(tRedirects := st.ctr.tRedirects + 1));
      var r := CheckTarget(st1, flags, pl, path, rd);
      RedirectStepRegistry(st1, r.st, pl, path);
      r
  }

  /** A redirect to `rd` from layer `pl` that can never be valid: it sits in
      the bottom layer, or nothing below holds `rd`, or what holds it is not a
      directory. */
  predicate InvalidTarget(o: Overlay, pl: Place, rd: string) {
    || Bottom(o, pl)
    || Lookup(o, rd, TargetStart(pl)) == Ok(NotFound)
    || (Lookup(o, rd, TargetStart(pl)).Ok? && Lookup(o, rd, TargetStart(pl)).value.Found?
        && !Lookup(o, rd, TargetStart(pl)).value.entry.kind.Dir?)
  }

  /** The lookup of the redirect target `rd` of `path` (check.c:630-647,
      704-716): a redirect in the bottom layer, or one whose target is
      missing or not a directory, is invalid. */
  function CheckTarget(st: State, flags: bv32, pl: Place, path: string, rd: string): (r: Done)
    requires ValidPlace(st.ovl, pl)
    requires GetRedirect(LayerAt(st.ovl, pl), path) == Ok(Some(rd))
    ensures RedirectStep(st, r.st, pl, path)
    ensures InvalidTarget(st.ovl, pl, rd) ==> r == RemoveInvalid(st, flags, pl, path)
    ensures r.st.ctr.(tWhiteouts := 0, tRedirects := 0, iRedirects := 0)
         == st.ctr.(tWhiteouts := 0, tRedirects := 0, iRedirects := 0)
    ensures AssumeNo(flags) ==> r.st.ovl == st.ovl && r.st.input == st.input
  {
    if InvalidTarget(st.ovl, pl, rd) then RemoveInvalid(st, flags, pl, path)
    else if Lookup(st.ovl, rd, TargetStart(pl)).Err? then Done(st, false)
    else
      var hit := Lookup(st.ovl, rd, TargetStart(pl)).value;
      assert ResolvesTo(st.ovl, pl, path, hit.path, hit.stack);
      AcceptTarget(st, flags, pl, path, rd, hit.path, hit.stack)
  }

  /** The target the redirect xattr of `path` names. */
  function TargetOf(o: Overlay, pl: Place, path: string): string
    requires ValidPlace(o, pl)
    requires GetRedirect(LayerAt(o, pl), path).Ok? && GetRedirect(LayerAt(o, pl), path).value.Some?
  {
    GetRedirect(LayerAt(o, pl), path).value.value
  }

  /** The target of a resolving redirect is accepted or refused by the
      registry. */
  lemma CheckTargetResolves(st: State, flags: bv32, pl: Place, path: string, origin: string, ostack: nat)
    requires ValidPlace(st.ovl, pl)
    requires ResolvesTo(st.ovl, pl, path, origin, ostack)
    ensures CheckTarget(st, flags, pl, path, TargetOf(st.ovl, pl, path))
         == AcceptTarget(st, flags, pl, path, TargetOf(st.ovl, pl, path), origin, ostack)
  {
    var hit := Lookup(st.ovl, TargetOf(st.ovl, pl, path), TargetStart(pl));
    assert hit.Ok? && hit.value == Found(origin, ostack, hit.value.entry);
  }

  /** A first claim on a lower directory (check.c:660-700): when the cover
      check lets the redirect through, it becomes the registry's entry for
      that directory and is not counted invalid; under -n, -p or -y it is
      registered only then. */
  lemma FirstClaimRegistered(st: State, flags: bv32, pl: Place, path: string, origin: string, ostack: nat)
    requires ValidPlace(st.ovl, pl)
    requires ResolvesTo(st.ovl, pl, path, origin, ostack) && Find(st.reg, origin, ostack).None?
    ensures var r := CheckRedirect(st, flags, pl, path);
      CoverAccepts(LayerAt(st.ovl, pl), TargetOf(st.ovl, pl, path), flags) ==>
        && r.ok && r.st.reg == Add(st.reg, RedirectEntry(path, pl, origin, ostack))
        && r.st.ctr.iRedirects == st.ctr.iRedirects
        && r.st.ctr.tRedirects == st.ctr.tRedirects + 1
    ensures var r := CheckRedirect(st, flags, pl, path);
      flags & FL_OPT_MASK != 0 && !CoverAccepts(LayerAt(st.ovl, pl), TargetOf(st.ovl, pl, path), flags) ==>
        r.st.reg == st.reg
  {
    var rd := TargetOf(st.ovl, pl, path);
    var st1 := st.(ctr := st.ctr.(tRedirects := st.ctr.tRedirects + 1));
    CheckTargetResolves(st1, flags, pl, path, origin, ostack);
    assert AcceptTarget(st1, flags, pl, path, rd, origin, ostack) == CoverTarget(st1, flags, pl, path, rd, origin, ostack);
  }

  /** A second claim on a registered directory is a duplicate (check.c:648-657):
      under -n or -p it is counted, once, as invalid, and nothing else changes. */
  lemma SecondClaimIsDuplicate(st: State, flags: bv32, pl: Place, path: string, origin: string, ostack: nat)
    requires ValidPlace(st.ovl, pl)
    requires ResolvesTo(st.ovl, pl, path, origin, ostack) && Find(st.reg, origin, ostack).Some?
    requires AssumeNo(flags) || Automatic(flags)
    ensures CheckRedirect(st, flags, pl, path)
         == Done(st.(ctr := st.ctr.(tRedirects := st.ctr.tRedirects + 1, iRedirects := st.ctr.iRedirects + 1)), true)
  {
    var rd := TargetOf(st.ovl, pl, path);
    var st1 := st.(ctr := st.ctr.(tRedirects := st.ctr.tRedirects + 1));
    CheckTargetResolves(st1, flags, pl, path, origin, ostack);
  }

  /** Two redirect directories of one layer that resolve to the same lower
      directory: checking them in turn registers the first and counts the
      second as the one duplicate, leaving a single registry entry for that
      directory. */
  lemma TwoClaimsOneDuplicate(st: State, flags: bv32, pl: Place, p1: string, p2: string, origin: string, ostack: nat)
    requires ValidPlace(st.ovl, pl)
    requires ResolvesTo(st.ovl, pl, p1, origin, ostack) && ResolvesTo(st.ovl, pl, p2, origin, ostack)
    requires Find(st.reg, origin, ostack).None?
    requires Stat(LayerAt(st.ovl, pl), TargetOf(st.ovl, pl, p1)).Ok?
    requires !MergedCover(LayerAt(st.ovl, pl), TargetOf(st.ovl, pl, p1))
    requires AssumeNo(flags) || (Automatic(flags) && Stat(LayerAt(st.ovl, pl), TargetOf(st.ovl, pl, p1)).value.Some?)
    ensures var r1 := CheckRedirect(st, flags, pl, p1);
      var r2 := CheckRedirect(r1.st, flags, pl, p2);
      && r1.ok && r2.ok
      && r2.st.reg == Add(st.reg, RedirectEntry(p1, pl, origin, ostack))
      && r2.st.ctr.tRedirects == st.ctr.tRedirects + 2
      && r2.st.ctr.iRedirects == st.ctr.iRedirects + 1
  {
    var r1 := CheckRedirect(st, flags, pl, p1);
    FirstClaimRegistered(st, flags, pl, p1, origin, ostack);
    var rd := TargetOf(st.ovl, pl, p1);
    var st1 := st.(ctr := st.ctr.(tRedirects := st.ctr.tRedirects + 1));
    CheckTargetResolves(st1, flags, pl, p1, origin, ostack);
    assert r1 == CoverTarget(st1, flags, pl, p1, rd, origin, ostack);
    assert r1.st.ovl == st.ovl;
    assert r1.st.reg[0] == RedirectEntry(p1, pl, origin, ostack);
    SecondClaimIsDuplicate(r1.st, flags, pl, p2, origin, ostack);
  }

  // ---------------------------------------------------------------------
  // Impure directories
  // ---------------------------------------------------------------------

  /** struct scan_dir_data: what the children of a directory hold. */
  datatype DirData = DirData(origins: nat, mergedirs: nat, redirects: nat)

  /** ovl_is_merge (check.c:770-783): the directory is not opaque and a
      directory of the same name exists below; a lookup failure counts as no. */
  predicate IsMerge(o: Overlay, pl: Place, path: string)
    requires ValidPlace(o, pl)
  {
    && !IsOpaque(LayerAt(o, pl), path)
    && LookupLower(o, path, pl).Ok? && LookupLower(o, path, pl).value.Found?
    && LookupLower(o, path, pl).value.entry.kind.Dir?
  }

  /** ovl_count_impurity (check.c:789-808): tally in the parent's record what
      the child entry `path` of kind `kind` contributes. */
  function CountImpurity(o: Overlay, pl: Place, path: string, kind: Kind, parent: Option<DirData>): (r: Option<DirData>)
    requires ValidPlace(o, pl)
    ensures parent.None? ==> r.None?
    ensures parent.Some? ==>
      && r.Some?
      && r.value.origins == parent.value.origins + (if IsOrigin(LayerAt(o, pl), path) then 1 else 0)
      && r.value.redirects == parent.value.redirects
           + (if kind.Dir? && IsRedirect(LayerAt(o, pl), path) then 1 else 0)
      && r.value.mergedirs == parent.value.mergedirs
           + (if kind.Dir? && IsMerge(o, pl, path) then 1 else 0)
  {
    match parent
    case None => None
    case Some(d) =>
      var l := LayerAt(o, pl);
      var d1 := if IsOrigin(l, path) then d.(origins := d.origins + 1) else d;
      var d2 := if kind.Dir? && IsRedirect(l, path) then d1.(redirects := d1.redirects + 1) else d1;
      var d3 := if kind.Dir? && IsMerge(o, pl, path) then d2.(mergedirs := d2.mergedirs + 1) else d2;
      Some(d3)
  }

  /** The directory needs the impure xattr: some child is an origin target,
      a redirect directory or a merge directory, and it is not yet set. */
  predicate NeedsImpure(o: Overlay, pl: Place, path: string, dd: Option<DirData>)
    requires ValidPlace(o, pl)
  {
    dd.Some? && (dd.value.origins > 0 || dd.value.mergedirs > 0 || dd.value.redirects > 0)
    && !IsImpure(LayerAt(o, pl), path)
  }

  /** ovl_check_impure (check.c:733-768). */
  function CheckImpure(st: State, flags: bv32, pl: Place, path: string, dd: Option<DirData>): (r: Done)
    requires ValidPlace(st.ovl, pl)
    ensures !NeedsImpure(st.ovl, pl, path, dd) ==> r == Done(st, true)
    ensures r.st.reg == st.reg && OnlyLayerChanged(st.ovl, r.st.ovl, pl) && ValidPlace(r.st.ovl, pl)
    ensures r.st.ovl != st.ovl ==>
      r.ok && NeedsImpure(st.ovl, pl, path, dd) && IsImpure(LayerAt(r.st.ovl, pl), path)
      && r.st.ctr == st.ctr
    ensures r.st.ctr.(mImpure := 0) == st.ctr.(mImpure := 0)
    ensures r.st.ctr.mImpure == st.ctr.mImpure + 1 <==>
      NeedsImpure(st.ovl, pl, path, dd) && r.st.ovl == st.ovl && r.ok
      && (dd.value.origins > 0 || dd.value.redirects > 0)
    ensures r.st.ctr.mImpure == st.ctr.mImpure || r.st.ctr.mImpure == st.ctr.mImpure + 1
    ensures !r.ok ==> r.st.ovl == st.ovl
    ensures AssumeNo(flags) ==> r.st.ovl == st.ovl && r.st.input == st.input
    ensures Automatic(flags) && NeedsImpure(st.ovl, pl, path, dd) && r.ok ==> IsImpure(LayerAt(r.st.ovl, pl), path)
  {
    if !NeedsImpure(st.ovl, pl, path, dd) then Done(st, true)
    else
      var (fix, st1) := Decide(st, flags, true);
      if fix then
        match SetXattr(LayerAt(st1.ovl, pl), path, Impure, "y")
        case Err(_) => Done(st1, false)
        case Ok(l) => Done(st1.(ovl := WithLayer(st1.ovl, pl, l)), true)
      else if dd.value.origins > 0 || dd.value.redirects > 0 then
        Done(st1.(ctr := st1.ctr.(mImpure := st1.ctr.mImpure + 1)), true)
      else Done(st1, true)
  }
}

=== FILE: findings.dfy ===
/** Concrete inputs on which the code as written and the corrected model part
    ways. Each lemma evaluates both versions on one small overlay or mount
    table. */
module Findings {
  import opened Util
  import opened Paths
  import opened Layers
  import opened Lookups
  import opened Mount

  const PlainDir: Entry := Entry(Dir, map[])
  const File: Entry := Entry(Reg, map[])

  function RedirectDir(target: string): Entry {
    Entry(Dir, map[Redirect := target])
  }

  /** A path whose parent is a top-level name has that name as its only
      ancestor. */
  lemma SingleAncestor(p: string, d: string)
    requires !IsAbsolute(p) && Dirname(p) == d && d != "." && Dirname(d) == "."
    ensures Ancestors(p) == [d]
  {
    DirnameOfRelative(p);
    assert Ancestors(d) == [];
  }

  /** A one-level path "d/n" has "d" as its only ancestor. */
  lemma AncestorsOfChild(d: string, n: string)
    requires d != "" && d != "." && d[0] != '/' && forall i | 0 <= i < |d| :: d[i] != '/'
    requires n != "" && forall i | 0 <= i < |n| :: n[i] != '/'
    ensures Ancestors(d + "/" + n) == [d]
  {
    DirnameOfChild(d, n);
    var k := LastSlash(d, |d|);
    assert k < 0;
    assert Dirname(d) == ".";
    var p := d + "/" + n;
    assert p[0] == d[0];
    SingleAncestor(p, d);
  }

  /** Three lower layers: "a" redirects to "b", "b" redirects to "c", and
      "c/x" exists in the bottom layer. */
  function ChainOverlay(): Overlay {
    Overlay(None, [
      Layer(map["a" := RedirectDir("/b")], {}),
      Layer(map["b" := RedirectDir("/c")], {}),
      Layer(map["c" := PlainDir, "c/x" := File], {})])
  }

  /** The first layer of the chain rewrites "a/x" to "b/x" in both
      variants. */
  lemma ChainFirstLayer()
    ensures LayerStep(ChainOverlay().lowers[0], "a/x", false, false, Fresh, AsWritten)
      == Ok(Step(None, Ctx(Some("b/x"), false)))
    ensures LayerStep(ChainOverlay().lowers[0], "a/x", false, false, Fresh, Corrected)
      == Ok(Step(None, Ctx(Some("b/x"), false)))
  {
    var l := ChainOverlay().lowers[0];
    AncestorsOfChild("a", "x");
    assert "a" + "/" + "x" == "a/x";
    assert GetRedirect(l, "a") == Ok(Some("b"));
    assert WalkAncestors(l, ["a"]) == Ok(Rewrite("b", "a"));
    JoinThenBasename("a", "x");
    JoinThenBasenameFixed("a", "x");
    JoinPlain("b", "x");
    assert "b" + "/" + "x" == "b/x";
  }

  /** The second layer meets the second redirect while the first is in
      force. */
  lemma ChainSecondLayer()
    ensures LayerStep(ChainOverlay().lowers[1], "b/x", false, false, Ctx(Some("b/x"), false), AsWritten)
      == Err(FreedRead)
    ensures LayerStep(ChainOverlay().lowers[1], "b/x", false, false, Ctx(Some("b/x"), false), Corrected)
      == Ok(Step(None, Ctx(Some("c/x"), false)))
  {
    var l := ChainOverlay().lowers[1];
    AncestorsOfChild("b", "x");
    assert "b" + "/" + "x" == "b/x";
    assert GetRedirect(l, "b") == Ok(Some("c"));
    assert WalkAncestors(l, ["b"]) == Ok(Rewrite("c", "b"));
    JoinThenBasenameFixed("b", "x");
    JoinPlain("c", "x");
    assert "c" + "/" + "x" == "c/x";
  }

  /** A second redirect met while a first one is in force: as written,
      ovl_lookup_layer frees the redirect buffer (check.c:291) and then takes
      basename2 of the path that lives in it (check.c:293); the corrected
      lookup follows both redirects to "c/x" in the bottom layer. */
  lemma SecondRedirectReadsFreedPath()
    ensures LookupIn(ChainOverlay(), "a/x", 0, AsWritten) == Err(FreedRead)
    ensures Lookup(ChainOverlay(), "a/x", 0) == Ok(Found("c/x", 2, File))
  {
    var o := ChainOverlay();
    var ctx1 := Ctx(Some("b/x"), false);
    var ctx2 := Ctx(Some("c/x"), false);
    ChainFirstLayer();
    ChainSecondLayer();
    assert LayerStep(o.lowers[2], "c/x", false, true, ctx2, Corrected) == Ok(Step(Some(File), ctx2));
    assert LowersFrom(o, "a/x", 1, ctx1, -1, AsWritten) == Err(FreedRead);
    assert LowersFrom(o, "a/x", 2, ctx2, -1, Corrected) == Ok(Found("c/x", 2, File));
    assert LowersFrom(o, "a/x", 1, ctx1, -1, Corrected) == Ok(Found("c/x", 2, File));
  }

  /** Two lower layers: the hidden directory ".cache" redirects to "d", and
      "d/x" exists below it. */
  function HiddenOverlay(): Overlay {
    Overlay(None, [
      Layer(map[".cache" := RedirectDir("/d")], {}),
      Layer(map["d" := PlainDir, "d/x" := File], {})])
  }

  /** The redirect of ".cache" in the top layer of the hidden example. */
  lemma HiddenWalk()
    ensures Ancestors(".cache/x") == [".cache"]
    ensures WalkAncestors(HiddenOverlay().lowers[0], [".cache"]) == Ok(Rewrite("d", ".cache"))
  {
    var l := HiddenOverlay().lowers[0];
    AncestorsOfChild(".cache", "x");
    assert ".cache" + "/" + "x" == ".cache/x";
    assert GetRedirect(l, ".cache") == Ok(Some("d"));
  }

  /** As written, the top layer rewrites ".cache/x" to "d/.cache/x". */
  lemma HiddenFirstLayerAsWritten()
    ensures LayerStep(HiddenOverlay().lowers[0], ".cache/x", false, false, Fresh, AsWritten)
      == Ok(Step(None, Ctx(Some("d/.cache/x"), false)))
  {
    HiddenWalk();
    HiddenDirectoryNotStripped();
    JoinPlain("d", ".cache/x");
    assert "d" + "/" + ".cache/x" == "d/.cache/x";
  }

  /** Corrected, the top layer rewrites ".cache/x" to "d/x". */
  lemma HiddenFirstLayerCorrected()
    ensures LayerStep(HiddenOverlay().lowers[0], ".cache/x", false, false, Fresh, Corrected)
      == Ok(Step(None, Ctx(Some("d/x"), false)))
  {
    HiddenWalk();
    HiddenDirectoryNotStripped();
    JoinPlain("d", "x");
    assert "d" + "/" + "x" == "d/x";
  }

  /** The bottom layer of the hidden example holds "d/x" and not
      "d/.cache/x". */
  lemma HiddenBottom()
    ensures var l := HiddenOverlay().lowers[1];
      && Stat(l, "d/.cache/x") == Ok(None)
      && Stat(l, "d/x") == Ok(Some(File))
  {
    var l := HiddenOverlay().lowers[1];
    assert Key("d/.cache/x") == "d/.cache/x" && Key("d/x") == "d/x";
    assert "d/.cache/x" != "d" && "d/.cache/x" != "d/x";
  }

  lemma HiddenAsWrittenMisses()
    ensures LookupIn(HiddenOverlay(), ".cache/x", 0, AsWritten) == Ok(NotFound)
  {
    var o := HiddenOverlay();
    var bad := Ctx(Some("d/.cache/x"), false);
    HiddenFirstLayerAsWritten();
    HiddenBottom();
    assert LayerStep(o.lowers[1], "d/.cache/x", false, true, bad, AsWritten) == Ok(Step(None, bad));
    assert LowersFrom(o, ".cache/x", 1, bad, -1, AsWritten) == Ok(NotFound);
  }

  lemma HiddenCorrectedFinds()
    ensures Lookup(HiddenOverlay(), ".cache/x", 0) == Ok(Found("d/x", 1, File))
  {
    var o := HiddenOverlay();
    var good := Ctx(Some("d/x"), false);
    HiddenFirstLayerCorrected();
    HiddenBottom();
    assert LayerStep(o.lowers[1], "d/x", false, true, good, Corrected) == Ok(Step(Some(File), good));
    assert LowersFrom(o, ".cache/x", 1, good, -1, Corrected) == Ok(Found("d/x", 1, File));
  }

  /** basename2 as written (path.c:111-112) strips nothing from ".cache/x",
      so the lookup goes to "d/.cache/x" and misses; with the prefix
      corrected it goes to "d/x" and finds it. */
  lemma HiddenRedirectMissesTarget()
    ensures LookupIn(HiddenOverlay(), ".cache/x", 0, AsWritten) == Ok(NotFound)
    ensures Lookup(HiddenOverlay(), ".cache/x", 0) == Ok(Found("d/x", 1, File))
  {
    HiddenAsWrittenMisses();
    HiddenCorrectedFinds();
  }

  /** An overlay mounted read-only from two lowerdirs (it needs at least two
      without an upperdir), and an fsck run that names an upperdir and a
      workdir. */
  const LowerOnlyLine: MntEnt := MntEnt(OVERLAY_NAME, "lowerdir=/a:/b")
  const Identity: Resolver := map["/a" := "/a", "/b" := "/b"]
  const UpperRun: Dirs := Dirs(["/x", "/y"], Some("/u"), Some("/w"))

  /** `n` copies of one mount table line. */
  function Copies(m: MntEnt, n: nat): seq<MntEnt> {
    seq(n, _ => m)
  }

  /** Slots `i` to `i + n - 1` as they start, with lowerdirs `ds` written. */
  function Filled(i: nat, n: nat, zeroed: bool, ds: seq<string>): seq<Slot> {
    seq(n, k requires 0 <= k < n => FreshSlot(i + k, zeroed).(lower := Val(ds)))
  }

  /** Seventeen such overlays, one more than the first block of slots holds:
      several read-only mounts of one image, say. */
  const LowerOnlyTable: seq<MntEnt> := Copies(LowerOnlyLine, ALLOC_NUM + 1)

  /** The option string of the line names the lowerdir list "/a:/b" only. */
  lemma LowerOnlyOptions()
    ensures MountConfig(LowerOnlyLine) == Config(Some("/a:/b"), None, None)
  {
    var o := "lowerdir=/a:/b";
    LowerOnlySplit();
    LowerOnlyApply();
    assert ApplyOpts(ApplyOpt(NoConfig, o), []) == ApplyOpt(NoConfig, o);
  }

  /** The option string is a single option. */
  lemma LowerOnlySplit()
    ensures SplitOpts("lowerdir=/a:/b") == ["lowerdir=/a:/b"]
  {
    var o := "lowerdir=/a:/b";
    assert PlainOpt(o);
    OptEndPlain(o, "");
    assert o + "" == o;
  }

  /** That option sets the lowerdir list and nothing else. */
  lemma LowerOnlyApply()
    ensures ApplyOpt(NoConfig, "lowerdir=/a:/b") == Config(Some("/a:/b"), None, None)
  {
    var o := "lowerdir=/a:/b";
    assert !HasPrefix(o, OPT_UPPERDIR) by { assert o[0] != OPT_UPPERDIR[0]; }
    assert HasPrefix(o, OPT_LOWERDIR) by { assert o[..9] == "lowerdir="; }
    assert o[|OPT_LOWERDIR|..] == "/a:/b";
  }

  /** The lowerdirs of the example mount, after realpath. */
  const LowerPair: seq<string> := ["/a", "/b"]

  /** A two-character name with no '\' or ':' is written unchanged. */
  lemma EscapePlainPair(c: char, d: char)
    requires c != '\\' && c != ':' && d != '\\' && d != ':'
    ensures Escape([c, d]) == [c, d]
  {
    assert [c, d][1..] == [d] && [d][1..] == [];
    assert Escape([d]) == [d] + "";
    assert Escape([c, d]) == [c] + Escape([d]);
    assert [c] + ([d] + "") == [c, d];
  }

  lemma JoinPair(x: string, y: string)
    ensures JoinLowerdirs([x, y]) == Escape(x) + ":" + Escape(y)
  {
    assert [x, y][1..] == [y];
  }

  /** "/a:/b" is the two lowerdirs "/a" and "/b", and realpath keeps both. */
  lemma LowerOnlyResolves()
    ensures ResolveLowerdirs("/a:/b", Identity) == Resolved(LowerPair)
  {
    EscapePlainPair('/', 'a');
    EscapePlainPair('/', 'b');
    JoinPair("/a", "/b");
    assert "/a" + ":" + "/b" == "/a:/b";
    SplitJoinLowerdirs(LowerPair);
  }

  /** A line that gives only lowerdirs, all of which resolve, fills in the
      lowerdirs of whatever slot it is resolved into and nothing else. */
  lemma LowerOnlyGetDirs(m: MntEnt, rp: Resolver, ds: seq<string>, s: Slot)
    requires MountConfig(m).lowerdir.Some? && MountConfig(m).upperdir.None? && MountConfig(m).workdir.None?
    requires ResolveLowerdirs(MountConfig(m).lowerdir.value, rp) == Resolved(ds)
    ensures GetDirs(MountConfig(m), s, rp) == Ok((true, s.(lower := Val(ds))))
  {
  }

  /** `n` copies of such a line, from slot `i` on: each keeps a fresh slot
      with only its lowerdirs written. */
  lemma {:induction false} CollectCopies(m: MntEnt, rp: Resolver, ds: seq<string>, n: nat, i: nat, zeroed: bool)
    requires m.fsType == OVERLAY_NAME && AbsoluteOpts(MountConfig(m))
    requires MountConfig(m).lowerdir.Some? && MountConfig(m).upperdir.None? && MountConfig(m).workdir.None?
    requires ResolveLowerdirs(MountConfig(m).lowerdir.value, rp) == Resolved(ds)
    ensures CollectMounts(Copies(m, n), rp, i, FreshSlot(i, zeroed), zeroed) == Ok(Filled(i, n, zeroed, ds))
    decreases n
  {
    if n == 0 {
      assert Copies(m, n) == [] && Filled(i, n, zeroed, ds) == [];
    } else {
      assert Copies(m, n)[0] == m && Copies(m, n)[1..] == Copies(m, n - 1);
      LowerOnlyGetDirs(m, rp, ds, FreshSlot(i, zeroed));
      CollectCopies(m, rp, ds, n - 1, i + 1, zeroed);
      assert [FreshSlot(i, zeroed).(lower := Val(ds))] + Filled(i + 1, n - 1, zeroed, ds) == Filled(i, n, zeroed, ds);
    }
  }

  /** When no slot before the last matches, the last slot decides the mount
      loop. */
  lemma {:induction false} AnyMountedLast(slots: seq<Slot>, mine: Dirs)
    requires |slots| > 0
    requires forall k | 0 <= k < |slots| - 1 :: MatchSlot(slots[k], mine) == Ok(false)
    ensures AnyMounted(slots, mine) == MatchSlot(slots[|slots| - 1], mine)
    decreases |slots|
  {
    if |slots| > 1 {
      assert forall k | 0 <= k < |slots| - 2 :: slots[1..][k] == slots[k + 1];
      AnyMountedLast(slots[1..], mine);
    }
  }

  /** One more lowerdir-only overlay than the first block of slots holds,
      none sharing a lowerdir with a run that names an upperdir: the check as
      written finds nothing in the zeroed slots and then reads the unwritten
      upperdir of the last one. */
  lemma CopiesPastFirstBlock(m: MntEnt, rp: Resolver, ds: seq<string>, mine: Dirs)
    requires m.fsType == OVERLAY_NAME && AbsoluteOpts(MountConfig(m))
    requires MountConfig(m).lowerdir.Some? && MountConfig(m).upperdir.None? && MountConfig(m).workdir.None?
    requires ResolveLowerdirs(MountConfig(m).lowerdir.value, rp) == Resolved(ds)
    requires !SharesLower(ds, mine.lowerdirs) && mine.upperdir.Some?
    ensures CheckMountAsWritten(Some(Copies(m, ALLOC_NUM + 1)), rp, mine) == Err(UninitRead)
  {
    var slots := Filled(0, ALLOC_NUM + 1, false, ds);
    var good := Slot(Val(ds), Null, Null);
    CollectCopies(m, rp, ds, ALLOC_NUM + 1, 0, false);
    assert MatchSlot(good, mine) == Ok(false);
    assert forall k | 0 <= k < |slots| - 1 :: slots[k] == good;
    assert slots[|slots| - 1] == Slot(Val(ds), Garbage, Garbage);
    AnyMountedLast(slots, mine);
  }

  /** A table of copies of a line that does not use our directories is not
      mounted. */
  lemma CopiesUnmounted(m: MntEnt, n: nat, rp: Resolver, mine: Dirs)
    requires !Uses(m, rp, mine)
    ensures CheckMount(Some(Copies(m, n)), rp, mine) == Ok(false)
  {
    assert forall i | 0 <= i < n :: Copies(m, n)[i] == m;
  }

  /** The mount shares no lowerdir with the fsck run. */
  lemma LowerPairNotOurs()
    ensures !SharesLower(LowerPair, UpperRun.lowerdirs)
  {
    assert forall j, k | 0 <= j < 2 && 0 <= k < 2 :: LowerPair[j][1] != UpperRun.lowerdirs[k][1];
  }

  /** As written, the seventeenth overlay lands in a slot srealloc did not
      zero (mount.c:279-281); ovl_check_mount finds nothing shared in the
      sixteen zeroed slots before it and then compares our upperdir with
      its unwritten upperdir (mount.c:348-352). With every slot zeroed no
      line of the table uses our directories, so the check answers "not
      mounted". */
  lemma LowerOnlyMountReadsGarbage()
    ensures CheckMountAsWritten(Some(LowerOnlyTable), Identity, UpperRun) == Err(UninitRead)
    ensures CheckMount(Some(LowerOnlyTable), Identity, UpperRun) == Ok(false)
  {
    LowerOnlyOptions();
    LowerOnlyResolves();
    LowerPairNotOurs();
    CopiesPastFirstBlock(LowerOnlyLine, Identity, LowerPair, UpperRun);
    assert !Uses(LowerOnlyLine, Identity, UpperRun);
    CopiesUnmounted(LowerOnlyLine, ALLOC_NUM + 1, Identity, UpperRun);
  }
}

=== FILE: fsck.dfy ===
/** The fsck.overlay program of fsck.c: option parsing and validation, the
    refusal to repair a mounted overlay, the scan, and the exit status. The
    command line arrives already split by getopt_long into options; the
    layer directories, realpath and the mount table are inputs. */
module Fsck {
  import opened Util
  import opened Status
  import opened Layers
  import opened Mount
  import opened Scan

  /** What getopt_long returns for "o:apnyvVh" and the long options
      (fsck.c:177-185); `OptA` is -a, which the switch has no case for. */
  datatype Opt = OptO(arg: string) | OptA | OptP | OptN | OptY | OptVerbose | OptVersion | OptHelp | OptUnknown

  predicate IsPolicy(o: Opt) { o.OptP? || o.OptN? || o.OptY? }

  /** The flag each policy option sets. */
  function PolicyBit(o: Opt): bv32 {
    match o
    case OptP => FL_OPT_AUTO
    case OptN => FL_OPT_NO
    case OptY => FL_OPT_YES
    case _ => 0
  }

  /** The flags a policy option conflicts with (fsck.c:194, 200, 206). */
  function Rivals(o: Opt): bv32 {
    match o
    case OptP => FL_OPT_YES | FL_OPT_NO
    case OptN => FL_OPT_YES | FL_OPT_AUTO
    case OptY => FL_OPT_NO | FL_OPT_AUTO
    case _ => 0
  }

  /** The state of the getopt loop: still parsing, or exited (-V with 0,
      -h or an unknown option through usage() with 1). */
  datatype Parse = Parsing(flags: bv32, conflict: bool, cfg: Config) | Quit(code: bv32)

  /** One turn of the getopt loop (fsck.c:187-221). */
  function TakeOpt(p: Parse, o: Opt): (r: Parse)
    ensures p.Quit? ==> r == p
    ensures p.Parsing? && !IsPolicy(o) && !o.OptVerbose? && !o.OptO? ==> r.Quit? && r.code == (if o.OptVersion? then 0 else 1)
    ensures p.Parsing? && (IsPolicy(o) || o.OptVerbose? || o.OptO?) ==> r.Parsing?
  {
    match p
    case Quit(_) => p
    case Parsing(flags, conflict, cfg) =>
      match o
      case OptO(arg) => Parsing(flags, conflict, ParseOpt(arg, cfg))
      case OptVerbose => Parsing(flags | FL_VERBOSE, conflict, cfg)
      case OptVersion => Quit(0)
      case OptHelp => Quit(1)
      case OptA => Quit(1)
      case OptUnknown => Quit(1)
      case _ =>
        if flags & Rivals(o) != 0 then Parsing(flags, true, cfg)
        else Parsing(flags | PolicyBit(o), conflict, cfg)
  }

  /** The flags hold nothing but -v and policy bits. */
  predicate OptionBitsOnly(flags: bv32) {
    flags & !(FL_VERBOSE | FL_OPT_MASK) == 0
  }

  /** An option that is not a policy option leaves the policy bits and the
      conflict flag alone. */
  lemma TakeOptFrame(p: Parse, o: Opt)
    requires p.Parsing? && TakeOpt(p, o).Parsing? && !IsPolicy(o)
    ensures TakeOpt(p, o).conflict == p.conflict
    ensures TakeOpt(p, o).flags & FL_OPT_MASK == p.flags & FL_OPT_MASK
  {
    if o.OptVerbose? {
      OrOutsideMask(p.flags, FL_VERBOSE);
    }
  }

  /** No option sets a bit other than FL_VERBOSE and the policy bits. */
  lemma TakeOptBits(p: Parse, o: Opt)
    requires p.Parsing? && TakeOpt(p, o).Parsing? && OptionBitsOnly(p.flags)
    ensures OptionBitsOnly(TakeOpt(p, o).flags)
  {
    var r := TakeOpt(p, o);
    if o.OptVerbose? {
      assert r.flags == p.flags | FL_VERBOSE;
      OrOutsideMask(p.flags, FL_VERBOSE);
    } else if IsPolicy(o) && p.flags & Rivals(o) == 0 {
      assert r.flags == p.flags | PolicyBit(o);
      OrOutsideMask(p.flags, PolicyBit(o));
    } else {
      assert r.flags == p.flags;
    }
  }

  /** What a policy option does to the policy bits and the conflict flag. */
  lemma TakeOptPolicy(p: Parse, o: Opt)
    requires p.Parsing? && IsPolicy(o)
    ensures var r := TakeOpt(p, o);
      && r.Parsing?
      && (r.conflict <==> p.conflict || p.flags & Rivals(o) != 0)
      && r.flags & FL_OPT_MASK ==
           if p.flags & Rivals(o) != 0 then p.flags & FL_OPT_MASK else (p.flags & FL_OPT_MASK) | PolicyBit(o)
  {
    var r := TakeOpt(p, o);
    FlagLayout();
    assert r == if p.flags & Rivals(o) != 0 then p.(conflict := true) else p.(flags := p.flags | PolicyBit(o));
    if p.flags & Rivals(o) == 0 {
      OrOutsideMask(p.flags, PolicyBit(o));
    }
  }

  /** Or-ing in -v or a policy bit: how the mask and the bits outside it move. */
  lemma OrOutsideMask(f: bv32, b: bv32)
    requires b == FL_VERBOSE || b == FL_OPT_AUTO || b == FL_OPT_NO || b == FL_OPT_YES
    ensures b == FL_VERBOSE ==> (f | b) & FL_OPT_MASK == f & FL_OPT_MASK
    ensures b != FL_VERBOSE ==> (f | b) & FL_OPT_MASK == (f & FL_OPT_MASK) | b
    ensures OptionBitsOnly(f) ==> OptionBitsOnly(f | b)
  {
    assert FL_OPT_MASK == 56 && FL_VERBOSE | FL_OPT_MASK == 57;
    assert b == 1 || b == 8 || b == 16 || b == 32;
  }

  /** The getopt loop over the options in order, from no flags. */
  function TakeOpts(opts: seq<Opt>): (r: Parse)
    ensures r.Quit? ==> r.code == 0 || r.code == 1
    ensures r.Parsing? ==> OptionBitsOnly(r.flags)
    decreases |opts|
  {
    if |opts| == 0 then Parsing(0, false, NoConfig)
    else
      var p := TakeOpts(opts[..|opts| - 1]);
      var o := opts[|opts| - 1];
      assert TakeOpt(p, o).Parsing? ==> OptionBitsOnly(TakeOpt(p, o).flags) by {
        if p.Parsing? && TakeOpt(p, o).Parsing? { TakeOptBits(p, o); }
      }
      TakeOpt(p, o)
  }

  /** The directory options the -o arguments give, in order: each argument
      split at its unescaped commas. */
  function OptArgs(opts: seq<Opt>): seq<string>
    decreases |opts|
  {
    if |opts| == 0 then []
    else OptArgs(opts[..|opts| - 1]) + (if opts[|opts| - 1].OptO? then SplitOpts(opts[|opts| - 1].arg) else [])
  }

  /** Every -o argument is parsed into the same configuration (fsck.c:188-192),
      so the loop ends with the options of all -o arguments applied in order,
      and for each directory the last value given wins. */
  lemma {:induction false} TakeOptsConfig(opts: seq<Opt>)
    ensures TakeOpts(opts).Parsing? ==> TakeOpts(opts).cfg == ApplyOpts(NoConfig, OptArgs(opts))
    ensures TakeOpts(opts).Parsing? ==>
      var cfg := TakeOpts(opts).cfg;
      && cfg.upperdir == LastValue(OptArgs(opts), OPT_UPPERDIR)
      && cfg.lowerdir == LastValue(OptArgs(opts), OPT_LOWERDIR)
      && cfg.workdir == LastValue(OptArgs(opts), OPT_WORKDIR)
    decreases |opts|
  {
    if |opts| > 0 {
      var n := |opts| - 1;
      var front, o := opts[..n], opts[n];
      TakeOptsConfig(front);
      if TakeOpts(front).Parsing? {
        if o.OptO? {
          ApplyOptsAppend(NoConfig, OptArgs(front), SplitOpts(o.arg));
        } else {
          assert OptArgs(opts) == OptArgs(front) + [] == OptArgs(front);
        }
      }
    }
    ApplyOptsLastWins(NoConfig, OptArgs(opts));
  }

  /** The distinct policy options given. */
  function Policies(opts: seq<Opt>): set<Opt> {
    set o | o in opts && IsPolicy(o)
  }

  /** The first policy option given. */
  function FirstPolicy(opts: seq<Opt>): Option<Opt>
    decreases |opts|
  {
    if |opts| == 0 then None
    else if IsPolicy(opts[0]) then Some(opts[0])
    else FirstPolicy(opts[1..])
  }

  lemma {:induction false} FirstPolicySnoc(opts: seq<Opt>, o: Opt)
    ensures FirstPolicy(opts + [o]) ==
      if FirstPolicy(opts).Some? then FirstPolicy(opts) else if IsPolicy(o) then Some(o) else None
    ensures FirstPolicy(opts).Some? ==> FirstPolicy(opts).value in Policies(opts)
    ensures FirstPolicy(opts).None? ==> Policies(opts) == {}
    decreases |opts|
  {
    if |opts| > 0 {
      assert (opts + [o])[1..] == opts[1..] + [o];
      FirstPolicySnoc(opts[1..], o);
      assert forall x | x in opts[1..] :: x in opts;
      assert forall x | x in opts :: x == opts[0] || x in opts[1..];
    } else {
      assert opts + [o] == [o];
    }
  }

  /** The policy bits an option sequence leaves: those of its first policy
      option. */
  function FirstBit(opts: seq<Opt>): bv32 {
    if FirstPolicy(opts).Some? then PolicyBit(FirstPolicy(opts).value) else 0
  }

  /** With the policy bits of at most one option set, a policy option meets
      a rival exactly when a different policy option came first. */
  lemma RivalOf(flags: bv32, first: Option<Opt>, o: Opt)
    requires IsPolicy(o) && (first.Some? ==> IsPolicy(first.value))
    requires flags & FL_OPT_MASK == if first.Some? then PolicyBit(first.value) else 0
    ensures flags & Rivals(o) != 0 <==> first.Some? && first.value != o
    ensures first.None? ==> (flags & FL_OPT_MASK) | PolicyBit(o) == PolicyBit(o)
  {
    FlagLayout();
    assert flags & Rivals(o) == (flags & FL_OPT_MASK) & Rivals(o);
  }

  /** The policy bits after the loop are those of the first policy option. */
  lemma {:induction false} PolicyMask(opts: seq<Opt>)
    ensures TakeOpts(opts).Parsing? ==> TakeOpts(opts).flags & FL_OPT_MASK == FirstBit(opts)
    decreases |opts|
  {
    if |opts| > 0 {
      var n := |opts| - 1;
      var front, o := opts[..n], opts[n];
      assert front + [o] == opts;
      PolicyMask(front);
      FirstPolicySnoc(front, o);
      var p := TakeOpts(front);
      if p.Parsing? && TakeOpt(p, o).Parsing? && !IsPolicy(o) { TakeOptFrame(p, o); }
      if p.Parsing? && IsPolicy(o) {
        TakeOptPolicy(p, o);
        RivalOf(p.flags, FirstPolicy(front), o);
      }
    }
  }

  /** A conflict is recorded exactly when two different policy options were
      given; repeating the same one is no conflict. */
  lemma {:induction false} PolicyConflict(opts: seq<Opt>)
    ensures TakeOpts(opts).Parsing? ==> (TakeOpts(opts).conflict <==> |Policies(opts)| >= 2)
    decreases |opts|
  {
    if |opts| > 0 {
      var n := |opts| - 1;
      var front, o := opts[..n], opts[n];
      assert front + [o] == opts;
      PolicyConflict(front);
      PolicyMask(front);
      FirstPolicySnoc(front, o);
      var p := TakeOpts(front);
      PoliciesSnoc(front, o, FirstPolicy(front));
      if p.Parsing? && TakeOpt(p, o).Parsing? && !IsPolicy(o) { TakeOptFrame(p, o); }
      if p.Parsing? && IsPolicy(o) {
        TakeOptPolicy(p, o);
        RivalOf(p.flags, FirstPolicy(front), o);
      }
    }
  }

  /** One more option: the policy options given grow to two or more exactly
      when they already were, or a policy option other than the first one
      arrives. */
  lemma PoliciesSnoc(front: seq<Opt>, o: Opt, first: Option<Opt>)
    requires first.Some? ==> first.value in Policies(front) && IsPolicy(first.value)
    requires first.None? ==> Policies(front) == {}
    ensures !IsPolicy(o) ==> Policies(front + [o]) == Policies(front)
    ensures IsPolicy(o) ==>
      (|Policies(front + [o])| >= 2 <==> |Policies(front)| >= 2 || (first.Some? && first.value != o))
  {
    var opts := front + [o];
    assert Policies(opts) == Policies(front) + (if IsPolicy(o) then {o} else {});
    if IsPolicy(o) {
      if first.Some? {
        if o == first.value {
          assert Policies(opts) == Policies(front);
        } else {
          assert {first.value, o} <= Policies(opts);
          assert |{first.value, o}| == 2;
          SubsetSize({first.value, o}, Policies(opts));
        }
      } else {
        assert Policies(opts) == {o};
      }
    }
  }

  lemma SubsetSize<T>(a: set<T>, b: set<T>)
    requires a <= b
    ensures |a| <= |b|
  {
    assert b == a + (b - a);
  }

  /** The resolved directories and the flags the run uses. */
  datatype Start = Exit(code: bv32) | Ready(flags: bv32, dirs: Dirs)

  /** Setting FL_UPPER after the getopt loop: it leaves the policy bits
      alone, and over option bits only it is set exactly when asked. */
  lemma UpperBit(flags: bv32, up: bool)
    ensures var f := if up then flags | FL_UPPER else flags;
      && f & FL_OPT_MASK == flags & FL_OPT_MASK
      && (OptionBitsOnly(flags) ==> (f & FL_UPPER != 0 <==> up))
  {
    FlagLayout();
  }

  /** ovl_get_dirs on the options, into the NULL-initialised globals
      (fsck.c:225): whatever it cannot resolve stays NULL. */
  function OptionDirs(cfg: Config, rp: Resolver): (r: Slot)
    ensures r.lower.Val? <==> Resolvable(cfg, rp) && cfg.lowerdir.Some?
    ensures r.upper.Val? <==> Resolvable(cfg, rp) && cfg.upperdir.Some?
    ensures r.work.Val? <==> Resolvable(cfg, rp) && cfg.workdir.Some?
    ensures r.lower.Val? ==>
      && ResolveLowerdirs(cfg.lowerdir.value, rp).Resolved?
      && r.lower.v == ResolveLowerdirs(cfg.lowerdir.value, rp).dirs
      && 1 <= |r.lower.v| == |SplitLowerdirs(cfg.lowerdir.value)|
    ensures r.upper.Val? ==> cfg.upperdir.value in rp && r.upper.v == rp[cfg.upperdir.value]
    ensures r.work.Val? ==> cfg.workdir.value in rp && r.work.v == rp[cfg.workdir.value]
  {
    GetDirsCleared(cfg, rp);
    GetDirs(cfg, Cleared, rp).value.1
  }

  /** The end of parse_options (fsck.c:224-254) once the getopt loop is
      over: ovl_get_dirs on the options collected (its result is not looked
      at: whatever it could not resolve stays NULL), then the checks of
      fsck.c:231-245, each of which ends in usage() and exit(1). */
  function Validate(flags: bv32, conflict: bool, cfg: Config, rp: Resolver): (r: Start)
    ensures r.Exit? ==> r.code == 1
    ensures r.Ready? ==>
      && cfg.lowerdir.Some? && ResolveLowerdirs(cfg.lowerdir.value, rp).Resolved?
      && r.dirs.lowerdirs == ResolveLowerdirs(cfg.lowerdir.value, rp).dirs
      && (cfg.upperdir.Some? <==> r.dirs.upperdir.Some?)
      && (cfg.upperdir.Some? ==> cfg.upperdir.value in rp && r.dirs.upperdir.value == rp[cfg.upperdir.value])
      && (cfg.workdir.Some? <==> r.dirs.workdir.Some?)
      && (cfg.workdir.Some? ==> cfg.workdir.value in rp && r.dirs.workdir.value == rp[cfg.workdir.value])
      && (r.dirs.upperdir.Some? ==> r.dirs.workdir.Some?)
      && (r.dirs.upperdir.None? ==> |r.dirs.lowerdirs| >= 2)
      && (OptionBitsOnly(flags) ==> (r.flags & FL_UPPER != 0 <==> r.dirs.upperdir.Some?))
      && r.flags & FL_OPT_MASK == flags & FL_OPT_MASK
    ensures r.Ready? <==>
      && !conflict
      && cfg.lowerdir.Some? && Resolvable(cfg, rp)
      && (cfg.upperdir.Some? ==> cfg.workdir.Some?)
      && (cfg.upperdir.None? ==> |SplitLowerdirs(cfg.lowerdir.value)| >= 2)
  {
    var slot := OptionDirs(cfg, rp);
    var lowers := if slot.lower.Val? then slot.lower.v else [];
    var upper := if slot.upper.Val? then Some(slot.upper.v) else None;
    var work := if slot.work.Val? then Some(slot.work.v) else None;
    var flags1 := if upper.Some? then flags | FL_UPPER else flags;
    UpperBit(flags, upper.Some?);
    if |lowers| == 0 || (upper.None? && |lowers| == 1) then Exit(1)
    else if upper.Some? && work.None? then Exit(1)
    else if conflict then Exit(1)
    else Ready(flags1, Dirs(lowers, upper, work))
  }

  /** parse_options (fsck.c:170-255): the getopt loop, then Validate. */
  function ParseOptions(opts: seq<Opt>, rp: Resolver): (r: Start)
    ensures TakeOpts(opts).Quit? ==> r == Exit(TakeOpts(opts).code)
    ensures r.Exit? ==> r.code == 0 || r.code == 1
    ensures r.Ready? ==>
      var cfg := TakeOpts(opts).cfg;
      && TakeOpts(opts).Parsing? && !TakeOpts(opts).conflict
      && cfg.lowerdir.Some? && ResolveLowerdirs(cfg.lowerdir.value, rp).Resolved?
      && r.dirs.lowerdirs == ResolveLowerdirs(cfg.lowerdir.value, rp).dirs
      && (cfg.upperdir.Some? <==> r.dirs.upperdir.Some?)
      && (cfg.upperdir.Some? ==> cfg.upperdir.value in rp && r.dirs.upperdir.value == rp[cfg.upperdir.value])
      && (cfg.workdir.Some? <==> r.dirs.workdir.Some?)
      && (cfg.workdir.Some? ==> cfg.workdir.value in rp && r.dirs.workdir.value == rp[cfg.workdir.value])
      && (r.dirs.upperdir.Some? ==> r.dirs.workdir.Some?)
      && (r.dirs.upperdir.None? ==> |r.dirs.lowerdirs| >= 2)
      && (r.flags & FL_UPPER != 0 <==> r.dirs.upperdir.Some?)
      && r.flags & FL_OPT_MASK == TakeOpts(opts).flags & FL_OPT_MASK
    ensures r.Ready? <==>
      var t := TakeOpts(opts);
      && t.Parsing? && !t.conflict
      && t.cfg.lowerdir.Some? && Resolvable(t.cfg, rp)
      && (t.cfg.upperdir.Some? ==> t.cfg.workdir.Some?)
      && (t.cfg.upperdir.None? ==> |SplitLowerdirs(t.cfg.lowerdir.value)| >= 2)
  {
    match TakeOpts(opts)
    case Quit(code) => Exit(code)
    case Parsing(flags, conflict, cfg) => Validate(flags, conflict, cfg, rp)
  }

  /** fsck_status_report (fsck.c:258-269): the exit bits the scan status adds. */
  function StatusReport(status: bv32): (r: bv32)
    ensures r & FSCK_UNCORRECTED != 0 <==> Inconsistent(status)
    ensures r & FSCK_ERROR != 0 <==> Aborted(status)
    ensures r & !(FSCK_UNCORRECTED | FSCK_ERROR) == 0
  {
    (if Inconsistent(status) then FSCK_UNCORRECTED else 0) | (if Aborted(status) then FSCK_ERROR else 0)
  }

  /** What the program reads besides its options: realpath, the layer
      directories by resolved path, the mount table (None when it cannot be
      read), the fts walks of the scan, and standard input. */
  datatype Env = Env(rp: Resolver, dirs: map<string, Layer>, mounts: Option<seq<MntEnt>>, walks: Walks, input: string)

  /** ovl_open_dirs (fsck.c:61-120): every layer directory opens, giving the
      overlay to check. */
  function OpenDirs(d: Dirs, env: Env): (r: Option<Overlay>)
    ensures r.Some? <==>
      (d.upperdir.Some? ==> d.upperdir.value in env.dirs)
      && forall i | 0 <= i < |d.lowerdirs| :: d.lowerdirs[i] in env.dirs
    ensures r.Some? ==>
      && |r.value.lowers| == |d.lowerdirs|
      && (r.value.upper.Some? <==> d.upperdir.Some?)
      && forall i | 0 <= i < |d.lowerdirs| :: r.value.lowers[i] == env.dirs[d.lowerdirs[i]]
  {
    if d.upperdir.Some? && d.upperdir.value !in env.dirs then None
    else if exists i | 0 <= i < |d.lowerdirs| :: d.lowerdirs[i] !in env.dirs then None
    else
      var upper := if d.upperdir.Some? then Some(env.dirs[d.upperdir.value]) else None;
      Some(Overlay(upper, seq(|d.lowerdirs|, i requires 0 <= i < |d.lowerdirs| => env.dirs[d.lowerdirs[i]])))
  }

  /** The end of a run: the exit code, and the overlay as the scan left it
      when the scan ran. */
  datatype Run = Run(code: bv32, after: Option<Overlay>)

  /** The exit code of a run that got as far as the scan (fsck.c:293-309). */
  function ScanExit(r: Outcome): (code: bv32)
    ensures code == 0 <==> r.ok && !r.inconsistent
    ensures code & FSCK_UNCORRECTED != 0 <==> r.inconsistent
    ensures code & FSCK_ERROR != 0 <==> !r.ok
  {
    var status := if r.inconsistent then SetInconsistency(0) else 0;
    (if r.ok then 0 else FSCK_ERROR) | StatusReport(status)
  }

  /** main (fsck.c:271-310). */
  function Main(opts: seq<Opt>, env: Env): (r: Run)
    ensures r.after.Some? ==> ParseOptions(opts, env.rp).Ready?
    ensures ParseOptions(opts, env.rp).Exit? ==> r == Run(ParseOptions(opts, env.rp).code, None)
    ensures ParseOptions(opts, env.rp).Ready? ==>
      var p := ParseOptions(opts, env.rp);
      && (OpenDirs(p.dirs, env).None? ==> r == Run(FSCK_ERROR, None))
      && (CheckMount(env.mounts, env.rp, p.dirs).Err? ==> r.code == FSCK_ERROR && r.after.None?)
      && (CheckMount(env.mounts, env.rp, p.dirs) == Ok(true) && p.flags & FL_OPT_NO == 0 ==>
            r == Run(FSCK_ERROR, None))
      && ((&& OpenDirs(p.dirs, env).Some? && CheckMount(env.mounts, env.rp, p.dirs).Ok?
           && (CheckMount(env.mounts, env.rp, p.dirs) == Ok(false) || p.flags & FL_OPT_NO != 0))
          ==> r.after.Some?)
      && (r.after.Some? && AssumeNo(p.flags) ==> r.after == OpenDirs(p.dirs, env))
      && (r.after.Some? ==>
            var s := ScanFix(OpenDirs(p.dirs, env).value, p.flags, env.input, env.walks,
                             Roots(p.dirs.upperdir.GetOr(""), p.dirs.lowerdirs));
            r == Run(ScanExit(s), Some(s.ovl)))
    ensures r.code == 0 ==> r.after.Some? || ParseOptions(opts, env.rp) == Exit(0)
  {
    match ParseOptions(opts, env.rp)
    case Exit(code) => Run(code, None)
    case Ready(flags, d) =>
      match OpenDirs(d, env)
      case None => Run(FSCK_ERROR, None)
      case Some(o) =>
        match CheckMount(env.mounts, env.rp, d)
        case Err(_) => Run(FSCK_ERROR, None)
        case Ok(mounted) =>
          if mounted && flags & FL_OPT_NO == 0 then Run(StatusReport(SetAbort(0)), None)
          else
            var s := ScanFix(o, flags, env.input, env.walks, Roots(d.upperdir.GetOr(""), d.lowerdirs));
            Run(ScanExit(s), Some(s.ovl))
  }
}

=== FILE: layers.dfy ===
/** The on-disk state the checker reads and repairs. Each layer is a finite
    map from a path relative to the layer root to an entry; the syscalls of
    check.c and lib.c (fstatat, the f*xattr wrappers, unlinkat, mknodat)
    become functions on that map that may fail. */
module Layers {
  import opened Util
  import opened Paths

  /** File type as fstatat reports it (check.c:90-103); `Special` is a FIFO
      or a block device. */
  datatype Kind = Dir | Reg | CharDev(rdev: int) | Symlink | Socket | Special

  /** A whiteout is a character device with device number 0 (check.c:78, 95-98). */
  predicate IsWhiteout(k: Kind) {
    k.CharDev? && k.rdev == 0
  }

  /** The four overlay xattrs (overlayfs.h:28-31). */
  datatype Xattr = Opaque | Redirect | Origin | Impure

  /** An entry: its type and the overlay xattrs it carries with their values. */
  datatype Entry = Entry(kind: Kind, xattrs: map<Xattr, string>)

  /** A layer: its entries, and the paths on which every syscall fails with
      an error other than "does not exist" (EIO, EACCES, ...). */
  datatype Layer = Layer(entries: map<string, Entry>, faults: set<string>)

  /** Which layer a scanned entry lives in: OVL_UPPER, or OVL_LOWER with its
      stack index (lib.h:50-51). */
  datatype Place = Upper | Lower(stack: nat)

  /** An optional upper layer and the lower layers, index 0 nearest the top. */
  datatype Overlay = Overlay(upper: Option<Layer>, lowers: seq<Layer>)

  predicate ValidPlace(o: Overlay, pl: Place) {
    match pl
    case Upper => o.upper.Some?
    case Lower(s) => s < |o.lowers|
  }

  function LayerAt(o: Overlay, pl: Place): Layer
    requires ValidPlace(o, pl)
  {
    match pl
    case Upper => o.upper.value
    case Lower(s) => o.lowers[s]
  }

  /** The overlay with the layer at `pl` replaced and every other layer kept. */
  function WithLayer(o: Overlay, pl: Place, l: Layer): (r: Overlay)
    requires ValidPlace(o, pl)
    ensures ValidPlace(r, pl) && LayerAt(r, pl) == l
    ensures |r.lowers| == |o.lowers| && r.upper.Some? == o.upper.Some?
    ensures forall q | ValidPlace(o, q) && q != pl :: ValidPlace(r, q) && LayerAt(r, q) == LayerAt(o, q)
  {
    match pl
    case Upper => o.(upper := Some(l))
    case Lower(s) => o.(lowers := o.lowers[s := l])
  }

  /** The map key an fstatat path names: the empty path is the layer root
      itself (AT_EMPTY_PATH). */
  function Key(p: string): string {
    if p == "" then "." else p
  }

  /** An absolute path leaves the layer; the model does not follow it. */
  predicate Reachable(l: Layer, p: string) {
    !IsAbsolute(p) && Key(p) !in l.faults
  }

  /** ovl_lookup_single (check.c:229-244): the entry, None for ENOENT or
      ENOTDIR, or a failure. */
  function Stat(l: Layer, p: string): (r: Result<Option<Entry>>)
    ensures r.Err? <==> !Reachable(l, p)
    ensures r.Ok? ==> (r.value.Some? <==> Key(p) in l.entries)
    ensures r.Ok? && r.value.Some? ==> r.value.value == l.entries[Key(p)]
  {
    if !Reachable(l, p) then Err(Io)
    else if Key(p) in l.entries then Ok(Some(l.entries[Key(p)]))
    else Ok(None)
  }

  /** open(O_RDONLY|O_NONBLOCK|O_NOFOLLOW) succeeds on a file of this type:
      a symlink gives ELOOP, and a socket or a whiteout (device 0:0, which
      no driver serves) gives ENXIO. */
  predicate OpensForRead(k: Kind) {
    !k.Symlink? && !k.Socket? && !IsWhiteout(k)
  }

  /** The path can be opened the way the xattr wrappers of lib.c open it
      first (lib.c:79, 127, 158). */
  predicate Openable(l: Layer, p: string) {
    Reachable(l, p) && Key(p) in l.entries && OpensForRead(l.entries[Key(p)].kind)
  }

  /** get_xattr (lib.c:72-119): a failure, None when the xattr is absent
      (ENODATA or ENOTSUP), or its value; a present empty value is Some(""). */
  function GetXattr(l: Layer, p: string, x: Xattr): (r: Result<Option<string>>)
    ensures r.Err? <==> !Openable(l, p)
    ensures r.Ok? ==> (r.value.Some? <==> x in l.entries[Key(p)].xattrs)
    ensures r.Ok? && r.value.Some? ==> r.value.value == l.entries[Key(p)].xattrs[x]
  {
    if !Openable(l, p) then Err(Io)
    else if x in l.entries[Key(p)].xattrs then Ok(Some(l.entries[Key(p)].xattrs[x]))
    else Ok(None)
  }

  /** set_xattr (lib.c:121-151): create the xattr or replace its value. */
  function SetXattr(l: Layer, p: string, x: Xattr, v: string): (r: Result<Layer>)
    ensures r.Err? <==> !Openable(l, p)
    ensures r.Ok? ==> GetXattr(r.value, p, x) == Ok(Some(v))
    ensures r.Ok? ==> r.value.faults == l.faults && r.value.entries.Keys == l.entries.Keys
    ensures r.Ok? ==> forall y | y != x :: GetXattr(r.value, p, y) == GetXattr(l, p, y)
    ensures r.Ok? ==> forall k | k in l.entries && k != Key(p) :: r.value.entries[k] == l.entries[k]
    ensures r.Ok? ==> r.value.entries[Key(p)].kind == l.entries[Key(p)].kind
  {
    if !Openable(l, p) then Err(Io)
    else
      var e := l.entries[Key(p)];
      Ok(l.(entries := l.entries[Key(p) := e.(xattrs := e.xattrs[x := v])]))
  }

  /** remove_xattr (lib.c:153-172): fails when the xattr is absent (ENODATA). */
  function RemoveXattr(l: Layer, p: string, x: Xattr): (r: Result<Layer>)
    ensures r.Err? <==> !(Openable(l, p) && x in l.entries[Key(p)].xattrs)
    ensures r.Ok? ==> GetXattr(r.value, p, x) == Ok(None)
    ensures r.Ok? ==> r.value.faults == l.faults && r.value.entries.Keys == l.entries.Keys
    ensures r.Ok? ==> forall y | y != x :: GetXattr(r.value, p, y) == GetXattr(l, p, y)
    ensures r.Ok? ==> forall k | k in l.entries && k != Key(p) :: r.value.entries[k] == l.entries[k]
    ensures r.Ok? ==> r.value.entries[Key(p)].kind == l.entries[Key(p)].kind
  {
    if !(Openable(l, p) && x in l.entries[Key(p)].xattrs) then Err(Io)
    else
      var e := l.entries[Key(p)];
      Ok(l.(entries := l.entries[Key(p) := e.(xattrs := e.xattrs - {x})]))
  }

  /** unlinkat(dirfd, p, 0) (check.c:432): removes a non-directory. */
  function Unlink(l: Layer, p: string): (r: Result<Layer>)
    ensures r.Err? <==> !(Reachable(l, p) && Key(p) in l.entries && !l.entries[Key(p)].kind.Dir?)
    ensures r.Ok? ==> r.value.entries == l.entries - {Key(p)} && r.value.faults == l.faults
  {
    if !(Reachable(l, p) && Key(p) in l.entries && !l.entries[Key(p)].kind.Dir?) then Err(Io)
    else Ok(l.(entries := l.entries - {Key(p)}))
  }

  /** The parent directory mknodat needs: the root, or an existing directory. */
  predicate ParentIsDir(l: Layer, p: string) {
    var d := Dirname(p);
    d == "." || (Reachable(l, d) && Key(d) in l.entries && l.entries[Key(d)].kind.Dir?)
  }

  /** ovl_create_whiteout (check.c:177-185): mknodat of a character device
      0:0; fails when the name exists (EEXIST) or its parent is missing. */
  function MknodWhiteout(l: Layer, p: string): (r: Result<Layer>)
    ensures r.Err? <==> !(Reachable(l, p) && Key(p) !in l.entries && ParentIsDir(l, p))
    ensures r.Ok? ==> r.value.entries == l.entries[Key(p) := Entry(CharDev(0), map[])]
    ensures r.Ok? ==> r.value.faults == l.faults
  {
    if !(Reachable(l, p) && Key(p) !in l.entries && ParentIsDir(l, p)) then Err(Io)
    else Ok(l.(entries := l.entries[Key(p) := Entry(CharDev(0), map[])]))
  }

  /** is_dir_xattr (check.c:105-119): the value is exactly "y"; absence,
      an empty value or a failure all read as false. */
  predicate IsDirXattr(l: Layer, p: string, x: Xattr) {
    GetXattr(l, p, x) == Ok(Some("y"))
  }

  predicate IsOpaque(l: Layer, p: string) { IsDirXattr(l, p, Opaque) }

  predicate IsImpure(l: Layer, p: string) { IsDirXattr(l, p, Impure) }

  /** ovl_is_redirect and ovl_is_origin (check.c:187-199): presence alone
      counts, even with an empty value; a failure reads as false. */
  predicate IsRedirect(l: Layer, p: string) {
    GetXattr(l, p, Redirect).Ok? && GetXattr(l, p, Redirect).value.Some?
  }

  predicate IsOrigin(l: Layer, p: string) {
    GetXattr(l, p, Origin).Ok? && GetXattr(l, p, Origin).value.Some?
  }

  /** ovl_get_redirect (check.c:146-170): the path the redirect xattr of `p`
      names, relative to the layer root. A value starting with '/' loses that
      one '/'; any other value is taken relative to the parent of `p`. An
      absent or empty value gives None. */
  function GetRedirect(l: Layer, p: string): (r: Result<Option<string>>)
    ensures r.Err? <==> GetXattr(l, p, Redirect).Err?
    ensures r.Ok? ==> (r.value.Some? <==> IsRedirect(l, p) && GetXattr(l, p, Redirect).value.value != "")
    ensures r.Ok? && r.value.Some? ==>
      var v := GetXattr(l, p, Redirect).value.value;
      (v[0] == '/' ==> "/" + r.value.value == v)
      && (v[0] != '/' ==> r.value.value == Joinname(Dirname(p), v))
  {
    match GetXattr(l, p, Redirect)
    case Err(f) => Err(f)
    case Ok(None) => Ok(None)
    case Ok(Some(v)) =>
      if v == "" then Ok(None)
      else if v[0] == '/' then Ok(Some(v[1..]))
      else Ok(Some(Joinname(Dirname(p), v)))
  }

  /** The paths of a layer that carry a redirect xattr. Every call of
      ovl_do_remove_redirect removes one of them, so this set is the
      termination measure of its recursion. */
  function RedirectPaths(l: Layer): set<string> {
    set p | p in l.entries && Redirect in l.entries[p].xattrs
  }

  /** Removing the redirect xattr takes exactly that path out of the set. */
  lemma RedirectPathsAfterRemoveRedirect(l: Layer, p: string)
    requires RemoveXattr(l, p, Redirect).Ok?
    ensures Key(p) in RedirectPaths(l)
    ensures RedirectPaths(RemoveXattr(l, p, Redirect).value) == RedirectPaths(l) - {Key(p)}
    ensures |RedirectPaths(RemoveXattr(l, p, Redirect).value)| == |RedirectPaths(l)| - 1
  {
    var l' := RemoveXattr(l, p, Redirect).value;
    assert RedirectPaths(l) == RedirectPaths(l') + {Key(p)};
  }

  /** Setting any other xattr leaves the set alone. */
  lemma RedirectPathsAfterSetXattr(l: Layer, p: string, x: Xattr, v: string)
    requires x != Redirect && SetXattr(l, p, x, v).Ok?
    ensures RedirectPaths(SetXattr(l, p, x, v).value) == RedirectPaths(l)
  {
  }

  /** A new whiteout carries no xattr, so creating one leaves the redirect
      paths alone. */
  lemma RedirectPathsAfterMknod(l: Layer, p: string)
    requires MknodWhiteout(l, p).Ok?
    ensures RedirectPaths(MknodWhiteout(l, p).value) == RedirectPaths(l)
  {
  }

  /** Removing a whiteout (never a directory with xattrs that matter here)
      may only shrink the redirect paths. */
  lemma RedirectPathsAfterUnlink(l: Layer, p: string)
    requires Unlink(l, p).Ok?
    ensures RedirectPaths(Unlink(l, p).value) <= RedirectPaths(l)
  {
  }
}

=== FILE: lookup.dfy ===
/** The cross-layer lookup of check.c:229-389: find what a path of one layer
    resolves to in the layers below it, following redirect directories and
    stopping at opaque directories and files, the way the overlay kernel
    module merges directories. */
module Lookups {
  import opened Util
  import opened Paths
  import opened Layers

  /** What the ancestors of a missing path decide (check.c:268-297): nothing,
      stop the lookup, or continue in the next layer under another path. */
  datatype Walk = Continue | Stop | Rewrite(target: string, ancestor: string)

  /** The outcome of a whole lookup: nothing, or the layer, the path used
      there, and the entry found (struct ovl_lookup_data, check.c:60-65). */
  datatype Hit = NotFound | Found(path: string, stack: nat, entry: Entry)

  /** Which basename2 the rewrite uses and whether the freed redirect buffer
      is read (check.c:291-293): the code as written, or as evidently meant. */
  datatype Variant = AsWritten | Corrected

  /** Per-lookup state carried from layer to layer (struct ovl_lookup_ctx):
      the current redirect target and whether the lookup must stop. */
  datatype Ctx = Ctx(redirect: Option<string>, stop: bool)

  /** The result of one layer: the entry if the path exists there, and the
      context for the next layer. */
  datatype Step = Step(found: Option<Entry>, ctx: Ctx)

  const Fresh: Ctx := Ctx(None, false)

  predicate Exists(l: Layer, a: string) {
    Reachable(l, a) && Key(a) in l.entries
  }

  predicate IsDirAt(l: Layer, a: string) {
    Exists(l, a) && l.entries[Key(a)].kind.Dir?
  }

  /** What one ancestor decides (check.c:273-295). A missing ancestor or a
      plain directory decides nothing; an existing non-directory or opaque
      directory stops the lookup; a redirect directory rewrites the path.
      An empty redirect value makes the source pass NULL to joinname, which
      the model reports as the fault NullRedirect. */
  function AncestorVerdict(l: Layer, a: string): (r: Result<Walk>)
    ensures r == Err(Io) <==> !Reachable(l, a)
    ensures r == Ok(Continue) <==>
      Reachable(l, a) && (!Exists(l, a) || (IsDirAt(l, a) && !IsOpaque(l, a) && !IsRedirect(l, a)))
    ensures r == Ok(Stop) <==> Exists(l, a) && (!IsDirAt(l, a) || IsOpaque(l, a))
    ensures r == Err(NullRedirect) <==>
      IsDirAt(l, a) && !IsOpaque(l, a) && GetXattr(l, a, Redirect) == Ok(Some(""))
    ensures r.Ok? && r.value.Rewrite? <==>
      IsDirAt(l, a) && !IsOpaque(l, a) && IsRedirect(l, a) && GetXattr(l, a, Redirect).value.value != ""
    ensures r.Ok? && r.value.Rewrite? ==>
      r.value.ancestor == a && GetRedirect(l, a) == Ok(Some(r.value.target))
    ensures r != Err(FreedRead)
  {
    match Stat(l, a)
    case Err(f) => Err(f)
    case Ok(None) => Ok(Continue)
    case Ok(Some(e)) =>
      if !e.kind.Dir? || IsOpaque(l, a) then Ok(Stop)
      else if IsRedirect(l, a) then
        (match GetRedirect(l, a)
         case Err(f) => Err(f)
         case Ok(None) => Err(NullRedirect)
         case Ok(Some(t)) => Ok(Rewrite(t, a)))
      else Ok(Continue)
  }

  /** The walk over the ancestors in the order given: the first ancestor that
      decides something ends it. */
  function WalkAncestors(l: Layer, ancs: seq<string>): (r: Result<Walk>)
    ensures r.Ok? && r.value.Rewrite? ==> r.value.ancestor in ancs
    ensures r != Err(FreedRead)
  {
    if ancs == [] then Ok(Continue)
    else
      var v := AncestorVerdict(l, ancs[0]);
      if v == Ok(Continue) then WalkAncestors(l, ancs[1..]) else v
  }

  /** The walk decides nothing exactly when no ancestor does; otherwise its
      outcome is that of the first ancestor that decides something. */
  lemma {:induction false} WalkFindsFirstDecisive(l: Layer, ancs: seq<string>)
    ensures WalkAncestors(l, ancs) == Ok(Continue) <==>
      forall i | 0 <= i < |ancs| :: AncestorVerdict(l, ancs[i]) == Ok(Continue)
    ensures WalkAncestors(l, ancs) != Ok(Continue) ==>
      exists i | 0 <= i < |ancs| ::
        && WalkAncestors(l, ancs) == AncestorVerdict(l, ancs[i])
        && forall j | 0 <= j < i :: AncestorVerdict(l, ancs[j]) == Ok(Continue)
  {
    if ancs != [] {
      WalkFindsFirstDecisive(l, ancs[1..]);
      if AncestorVerdict(l, ancs[0]) == Ok(Continue) {
        if WalkAncestors(l, ancs) != Ok(Continue) {
          var i :| 0 <= i < |ancs[1..]|
            && WalkAncestors(l, ancs[1..]) == AncestorVerdict(l, ancs[1..][i])
            && forall j | 0 <= j < i :: AncestorVerdict(l, ancs[1..][j]) == Ok(Continue);
          assert WalkAncestors(l, ancs) == AncestorVerdict(l, ancs[i + 1]);
          forall j | 0 <= j < i + 1
            ensures AncestorVerdict(l, ancs[j]) == Ok(Continue)
          {
            if j > 0 {
              assert ancs[j] == ancs[1..][j - 1];
            }
          }
        } else {
          forall i | 0 <= i < |ancs|
            ensures AncestorVerdict(l, ancs[i]) == Ok(Continue)
          {
            if i > 0 {
              assert ancs[i] == ancs[1..][i - 1];
            }
          }
        }
      }
    }
  }

  /** The tail the rewrite appends to the redirect target. */
  function RewriteTail(v: Variant, path: string, ancestor: string): string {
    match v
    case AsWritten => Basename2(path, ancestor)
    case Corrected => Basename2Fixed(path, ancestor)
  }

  /** ovl_lookup_layer (check.c:246-300) on layer `l` for `path`. With `skip`
      the path itself is not looked at; in the last layer the ancestors are
      not walked. In the code as written the tail is computed from the path
      after the buffer holding it was freed whenever the path came from an
      earlier redirect; the model reports that as FreedRead. */
  function LayerStep(l: Layer, path: string, skip: bool, last: bool, ctx: Ctx, v: Variant): (r: Result<Step>)
    ensures r.Ok? && r.value.found.Some? ==> !skip && Stat(l, path) == Ok(r.value.found) && r.value.ctx == ctx
    ensures r.Ok? && !skip ==> Stat(l, path).Ok?
    ensures r.Ok? && r.value.found.None? && !skip ==> Stat(l, path) == Ok(None)
    ensures r.Ok? && last ==> r.value.ctx == ctx
    ensures r.Ok? && r.value.ctx.stop != ctx.stop ==>
      !last && !IsAbsolute(path) && WalkAncestors(l, Ancestors(path)) == Ok(Stop)
    ensures r.Ok? && r.value.ctx.redirect != ctx.redirect ==>
      !last && !IsAbsolute(path)
      && WalkAncestors(l, Ancestors(path)).Ok? && WalkAncestors(l, Ancestors(path)).value.Rewrite?
      && var w := WalkAncestors(l, Ancestors(path)).value;
         r.value.ctx.redirect == Some(Joinname(w.target, RewriteTail(v, path, w.ancestor)))
    ensures r == Err(FreedRead) ==> v == AsWritten && ctx.redirect.Some?
    ensures (skip || Stat(l, path) == Ok(None)) && last ==> r == Ok(Step(None, ctx))
  {
    if !skip && Stat(l, path).Err? then Err(Stat(l, path).fault)
    else if !skip && Stat(l, path).value.Some? then Ok(Step(Stat(l, path).value, ctx))
    else if last then Ok(Step(None, ctx))
    else if IsAbsolute(path) then Err(Io)
    else
      match WalkAncestors(l, Ancestors(path))
      case Err(f) => Err(f)
      case Ok(Continue) => Ok(Step(None, ctx))
      case Ok(Stop) => Ok(Step(None, ctx.(stop := true)))
      case Ok(Rewrite(t, a)) =>
        if v == AsWritten && ctx.redirect.Some? then Err(FreedRead)
        else Ok(Step(None, ctx.(redirect := Some(Joinname(t, RewriteTail(v, path, a))))))
  }

  /** Conversely, a layer that misses and is not the last hands on exactly
      what the walk over the ancestors of the path decides: the same
      context, a stopped one, or one redirected to the rewritten path. */
  lemma LayerStepMiss(l: Layer, path: string, skip: bool, ctx: Ctx, v: Variant)
    ensures var r := LayerStep(l, path, skip, false, ctx, v);
      r.Ok? && r.value.found.None? ==>
        && !IsAbsolute(path) && WalkAncestors(l, Ancestors(path)).Ok?
        && var w := WalkAncestors(l, Ancestors(path)).value;
           && (w.Continue? ==> r.value.ctx == ctx)
           && (w.Stop? ==> r.value.ctx == ctx.(stop := true))
           && (w.Rewrite? ==> r.value.ctx == ctx.(redirect := Some(Joinname(w.target, RewriteTail(v, path, w.ancestor)))))
  {
  }

  /** The loop over the lower layers from index `i` (check.c:331-345 and
      367-379): each layer is searched under the current redirect target, or
      under `p` until a redirect is met; the layer `skipAt` does not look at
      the path itself. */
  function LowersFrom(o: Overlay, p: string, i: nat, ctx: Ctx, skipAt: int, v: Variant): (r: Result<Hit>)
    ensures ctx.stop || i >= |o.lowers| ==> r == Ok(NotFound)
    ensures r.Ok? && r.value.Found? ==>
      && i <= r.value.stack < |o.lowers| && r.value.stack != skipAt
      && Stat(o.lowers[r.value.stack], r.value.path) == Ok(Some(r.value.entry))
    ensures r == Err(FreedRead) ==> v == AsWritten
    decreases |o.lowers| - i, 1
  {
    if ctx.stop || i >= |o.lowers| then Ok(NotFound)
    else LayerThen(o, p, i, ctx, skipAt, v)
  }

  /** One round of that loop: search layer `i` and, when it misses, go on
      with the context it hands on. */
  function LayerThen(o: Overlay, p: string, i: nat, ctx: Ctx, skipAt: int, v: Variant): (r: Result<Hit>)
    requires i < |o.lowers|
    ensures r.Ok? && r.value.Found? ==>
      && i <= r.value.stack < |o.lowers| && r.value.stack != skipAt
      && Stat(o.lowers[r.value.stack], r.value.path) == Ok(Some(r.value.entry))
    ensures r == Err(FreedRead) ==> v == AsWritten
    decreases |o.lowers| - i, 0
  {
    var path := ctx.redirect.GetOr(p);
    match LayerStep(o.lowers[i], path, i == skipAt, i == |o.lowers| - 1, ctx, v)
    case Err(f) => Err(f)
    case Ok(step) =>
      if step.found.Some? then Ok(Found(path, i, step.found.value))
      else LowersFrom(o, p, i + 1, step.ctx, skipAt, v)
  }

  /** ovl_lookup_lower (check.c:310-355) in either variant: for an entry of the
      upper layer, walk its ancestors there and search every lower layer; for
      an entry of lower layer `s`, search from `s` on without looking at the
      entry itself. */
  function LookupLowerIn(o: Overlay, p: string, pl: Place, v: Variant): (r: Result<Hit>)
    requires ValidPlace(o, pl)
    ensures r.Ok? && r.value.Found? ==>
      r.value.stack < |o.lowers| && Stat(o.lowers[r.value.stack], r.value.path) == Ok(Some(r.value.entry))
    ensures r.Ok? && r.value.Found? && pl.Lower? ==> r.value.stack > pl.stack
    ensures r == Err(FreedRead) ==> v == AsWritten
  {
    match pl
    case Upper =>
      (match LayerStep(o.upper.value, p, true, false, Fresh, v)
       case Err(f) => Err(f)
       case Ok(step) => LowersFrom(o, p, 0, step.ctx, -1, v))
    case Lower(s) => LowersFrom(o, p, s, Fresh, s, v)
  }

  /** ovl_lookup_lower as evidently meant. */
  function LookupLower(o: Overlay, p: string, pl: Place): (r: Result<Hit>)
    requires ValidPlace(o, pl)
    ensures r.Ok? && r.value.Found? ==>
      r.value.stack < |o.lowers| && Stat(o.lowers[r.value.stack], r.value.path) == Ok(Some(r.value.entry))
    ensures r.Ok? && r.value.Found? && pl.Lower? ==> r.value.stack > pl.stack
    ensures r != Err(FreedRead)
  {
    LookupLowerIn(o, p, pl, Corrected)
  }

  /** ovl_lookup (check.c:361-389): search the lower layers from `start` on,
      the start layer included. */
  function LookupIn(o: Overlay, p: string, start: nat, v: Variant): (r: Result<Hit>)
    ensures r.Ok? && r.value.Found? ==>
      start <= r.value.stack < |o.lowers| && Stat(o.lowers[r.value.stack], r.value.path) == Ok(Some(r.value.entry))
    ensures start >= |o.lowers| ==> r == Ok(NotFound)
    ensures r == Err(FreedRead) ==> v == AsWritten
  {
    LowersFrom(o, p, start, Fresh, -1, v)
  }

  /** ovl_lookup as evidently meant. */
  function Lookup(o: Overlay, p: string, start: nat): (r: Result<Hit>)
    ensures r.Ok? && r.value.Found? ==>
      start <= r.value.stack < |o.lowers| && Stat(o.lowers[r.value.stack], r.value.path) == Ok(Some(r.value.entry))
    ensures start >= |o.lowers| ==> r == Ok(NotFound)
    ensures r != Err(FreedRead)
  {
    LookupIn(o, p, start, Corrected)
  }

  // ---------------------------------------------------------------------
  // The route of a lookup, layer by layer
  // ---------------------------------------------------------------------

  /** Where a lookup goes from a layer that does not hold the relative path
      `q`, when a deeper layer exists: on under the same path, on under the
      path a redirect ancestor rewrites it to, or nowhere (None) when an
      ancestor is a file or an opaque directory. */
  function NextPath(l: Layer, q: string): Result<Option<string>> {
    if IsAbsolute(q) then Err(Io)
    else match WalkAncestors(l, Ancestors(q))
      case Err(f) => Err(f)
      case Ok(Continue) => Ok(Some(q))
      case Ok(Stop) => Ok(None)
      case Ok(Rewrite(t, a)) => Ok(Some(Joinname(t, Basename2Fixed(q, a))))
  }

  /** What one layer says to a search under a path: it cannot be searched,
      it holds the path, or it lacks it and names where the search goes on. */
  datatype Probe = Faulty(fault: Fault) | Holds(entry: Entry) | Lacks(next: Result<Option<string>>)

  /** The probe of layer `l` under `q`. */
  function ProbeOf(l: Layer, q: string): (r: Probe)
    ensures r.Faulty? <==> Stat(l, q).Err?
    ensures r.Holds? ==> Stat(l, q) == Ok(Some(r.entry))
    ensures r.Lacks? <==> Stat(l, q) == Ok(None)
    ensures r.Lacks? ==> r.next == NextPath(l, q)
  {
    match Stat(l, q)
    case Err(f) => Faulty(f)
    case Ok(Some(e)) => Holds(e)
    case Ok(None) => Lacks(NextPath(l, q))
  }

  /** A reference search over the layers `ls` from `i` on, under the path
      `q`, that carries no context from layer to layer: each layer is asked
      once, through `pr`, and a layer that lacks the path names the next
      path itself. */
  function SearchFrom(pr: (Layer, string) -> Probe, ls: seq<Layer>, i: nat, q: string): (r: Result<Hit>)
    ensures i >= |ls| ==> r == Ok(NotFound)
    decreases |ls| - i, 1
  {
    if i >= |ls| then Ok(NotFound) else SearchAt(pr, ls, i, q)
  }

  /** One round of the reference search, at layer `i`. */
  function SearchAt(pr: (Layer, string) -> Probe, ls: seq<Layer>, i: nat, q: string): Result<Hit>
    requires i < |ls|
    decreases |ls| - i, 0
  {
    match pr(ls[i], q)
    case Faulty(f) => Err(f)
    case Holds(e) => Ok(Found(q, i, e))
    case Lacks(next) =>
      if i + 1 == |ls| then Ok(NotFound)
      else
        match next
        case Err(f) => Err(f)
        case Ok(None) => Ok(NotFound)
        case Ok(Some(q')) => SearchFrom(pr, ls, i + 1, q')
  }

  /** The paths a search under `q` from layer `i` looks at, one per layer
      from `i` on: each layer that lacks its path hands on to the next. */
  function Trail(pr: (Layer, string) -> Probe, ls: seq<Layer>, i: nat, q: string): (r: seq<string>)
    ensures |r| + i <= |ls| || r == []
    ensures i < |ls| ==> |r| > 0 && r[0] == q
    decreases |ls| - i
  {
    if i >= |ls| then []
    else [q] + match pr(ls[i], q)
      case Lacks(Ok(Some(q'))) => Trail(pr, ls, i + 1, q')
      case _ => []
  }

  /** Searching layer `k` under `q` fails: the probe faults, or it lacks the
      path and cannot say where to go on although a deeper layer exists. */
  predicate Faults(pr: (Layer, string) -> Probe, ls: seq<Layer>, k: nat, q: string) {
    && k < |ls|
    && (pr(ls[k], q).Faulty? || (pr(ls[k], q).Lacks? && k + 1 < |ls| && pr(ls[k], q).next.Err?))
  }

  /** The reference search follows its trail: what it finds is the trail's
      path in that layer, held there; when it finds nothing, every layer of
      the trail lacked its path; it fails only where the trail faults. */
  lemma SearchAlongTrail(pr: (Layer, string) -> Probe, ls: seq<Layer>, i: nat, q: string)
    ensures var r := SearchFrom(pr, ls, i, q);
      var t := Trail(pr, ls, i, q);
      && (r.Ok? && r.value.Found? ==>
            && i <= r.value.stack < i + |t| && t[r.value.stack - i] == r.value.path
            && pr(ls[r.value.stack], r.value.path) == Holds(r.value.entry))
      && (r == Ok(NotFound) ==> forall j | 0 <= j < |t| :: pr(ls[i + j], t[j]).Lacks?)
      && ((forall j | 0 <= j < |t| :: !Faults(pr, ls, i + j, t[j])) ==> r.Ok?)
  {
    var t := Trail(pr, ls, i, q);
    FoundOnTrail(pr, ls, i, q);
    MissedAlongTrail(pr, ls, i, q);
    if forall j | 0 <= j < |t| :: !Faults(pr, ls, i + j, t[j]) {
      FaultFreeTrail(pr, ls, i, q);
    }
  }

  /** The trail of a layer that lacks its path and names the next one, when
      a deeper layer exists, is that path followed by the trail from there. */
  lemma TrailStep(pr: (Layer, string) -> Probe, ls: seq<Layer>, i: nat, q: string)
    requires i + 1 < |ls| && pr(ls[i], q).Lacks? && pr(ls[i], q).next.Ok? && pr(ls[i], q).next.value.Some?
    ensures SearchFrom(pr, ls, i, q) == SearchFrom(pr, ls, i + 1, pr(ls[i], q).next.value.value)
    ensures Trail(pr, ls, i, q) == [q] + Trail(pr, ls, i + 1, pr(ls[i], q).next.value.value)
  {
    assert SearchFrom(pr, ls, i, q) == SearchAt(pr, ls, i, q);
  }

  /** Any other layer ends the trail, and decides the search there. */
  lemma TrailEnd(pr: (Layer, string) -> Probe, ls: seq<Layer>, i: nat, q: string)
    requires i < |ls|
    requires !(i + 1 < |ls| && pr(ls[i], q).Lacks? && pr(ls[i], q).next.Ok? && pr(ls[i], q).next.value.Some?)
    ensures Trail(pr, ls, i, q) == [q]
    ensures var r := SearchFrom(pr, ls, i, q);
      && (pr(ls[i], q).Holds? ==> r == Ok(Found(q, i, pr(ls[i], q).entry)))
      && (Faults(pr, ls, i, q) ==> r.Err?)
      && (pr(ls[i], q).Lacks? && !Faults(pr, ls, i, q) ==> r == Ok(NotFound))
  {
    assert SearchFrom(pr, ls, i, q) == SearchAt(pr, ls, i, q);
  }

  lemma {:induction false} FoundOnTrail(pr: (Layer, string) -> Probe, ls: seq<Layer>, i: nat, q: string)
    ensures var r := SearchFrom(pr, ls, i, q);
      var t := Trail(pr, ls, i, q);
      r.Ok? && r.value.Found? ==>
        && i <= r.value.stack < i + |t| && t[r.value.stack - i] == r.value.path
        && pr(ls[r.value.stack], r.value.path) == Holds(r.value.entry)
    decreases |ls| - i
  {
    if i < |ls| {
      var v := pr(ls[i], q);
      if i + 1 < |ls| && v.Lacks? && v.next.Ok? && v.next.value.Some? {
        var q' := v.next.value.value;
        TrailStep(pr, ls, i, q);
        FoundOnTrail(pr, ls, i + 1, q');
        var r := SearchFrom(pr, ls, i + 1, q');
        if r.Ok? && r.value.Found? {
          assert Trail(pr, ls, i, q)[r.value.stack - i] == Trail(pr, ls, i + 1, q')[r.value.stack - (i + 1)];
        }
      } else {
        TrailEnd(pr, ls, i, q);
      }
    }
  }

  lemma {:induction false} MissedAlongTrail(pr: (Layer, string) -> Probe, ls: seq<Layer>, i: nat, q: string)
    ensures var t := Trail(pr, ls, i, q);
      SearchFrom(pr, ls, i, q) == Ok(NotFound) ==> forall j | 0 <= j < |t| :: pr(ls[i + j], t[j]).Lacks?
    decreases |ls| - i
  {
    if i < |ls| {
      var v := pr(ls[i], q);
      var t := Trail(pr, ls, i, q);
      if i + 1 < |ls| && v.Lacks? && v.next.Ok? && v.next.value.Some? {
        var q' := v.next.value.value;
        TrailStep(pr, ls, i, q);
        MissedAlongTrail(pr, ls, i + 1, q');
        var t' := Trail(pr, ls, i + 1, q');
        forall j | 1 <= j < |t|
          ensures t[j] == t'[j - 1]
        {
        }
      } else {
        TrailEnd(pr, ls, i, q);
      }
    }
  }

  lemma {:induction false} FaultFreeTrail(pr: (Layer, string) -> Probe, ls: seq<Layer>, i: nat, q: string)
    requires forall j | 0 <= j < |Trail(pr, ls, i, q)| :: !Faults(pr, ls, i + j, Trail(pr, ls, i, q)[j])
    ensures SearchFrom(pr, ls, i, q).Ok?
    decreases |ls| - i
  {
    if i < |ls| {
      var v := pr(ls[i], q);
      var t := Trail(pr, ls, i, q);
      assert !Faults(pr, ls, i + 0, t[0]);
      if i + 1 < |ls| && v.Lacks? && v.next.Ok? && v.next.value.Some? {
        var q' := v.next.value.value;
        TrailStep(pr, ls, i, q);
        var t' := Trail(pr, ls, i + 1, q');
        forall j | 0 <= j < |t'|
          ensures !Faults(pr, ls, i + 1 + j, t'[j])
        {
          assert t[j + 1] == t'[j];
        }
        FaultFreeTrail(pr, ls, i + 1, q');
      } else {
        TrailEnd(pr, ls, i, q);
      }
    }
  }

  /** Conversely, a layer of the trail that holds its path is what the
      reference search finds. */
  lemma {:induction false} TrailHitIsFound(pr: (Layer, string) -> Probe, ls: seq<Layer>, i: nat, q: string, j: nat)
    requires j < |Trail(pr, ls, i, q)| && i + j < |ls|
    requires pr(ls[i + j], Trail(pr, ls, i, q)[j]).Holds?
    ensures SearchFrom(pr, ls, i, q) ==
      Ok(Found(Trail(pr, ls, i, q)[j], i + j, pr(ls[i + j], Trail(pr, ls, i, q)[j]).entry))
    decreases j
  {
    assert SearchFrom(pr, ls, i, q) == SearchAt(pr, ls, i, q);
    if j > 0 {
      var q' := pr(ls[i], q).next.value.value;
      assert Trail(pr, ls, i, q) == [q] + Trail(pr, ls, i + 1, q');
      TrailHitIsFound(pr, ls, i + 1, q', j - 1);
    }
  }

  /** A layer of the trail that faults makes the reference search fail. */
  lemma {:induction false} TrailFaultIsError(pr: (Layer, string) -> Probe, ls: seq<Layer>, i: nat, q: string, j: nat)
    requires j < |Trail(pr, ls, i, q)|
    requires Faults(pr, ls, i + j, Trail(pr, ls, i, q)[j])
    ensures SearchFrom(pr, ls, i, q).Err?
    decreases j
  {
    assert SearchFrom(pr, ls, i, q) == SearchAt(pr, ls, i, q);
    if j > 0 {
      var q' := pr(ls[i], q).next.value.value;
      assert Trail(pr, ls, i, q) == [q] + Trail(pr, ls, i + 1, q');
      TrailFaultIsError(pr, ls, i + 1, q', j - 1);
    }
  }

  /** One layer of the loop, under the current path of `ctx` for `p`, not
      the last one, and either told to skip the path or lacking it: the
      context it hands on is the one NextPath describes. */
  lemma StepFollowsNextPath(l: Layer, p: string, skip: bool, ctx: Ctx)
    requires (skip || Stat(l, ctx.redirect.GetOr(p)) == Ok(None)) && !ctx.stop
    ensures var q := ctx.redirect.GetOr(p);
      var r := LayerStep(l, q, skip, false, ctx, Corrected);
      && (r.Err? <==> NextPath(l, q).Err?)
      && (r.Err? ==> r.fault == NextPath(l, q).fault)
      && (r.Ok? ==> r.value.found.None?)
      && (NextPath(l, q) == Ok(None) ==> r.value.ctx.stop)
      && (NextPath(l, q).Ok? && NextPath(l, q).value.Some? ==>
            !r.value.ctx.stop && r.value.ctx.redirect.GetOr(p) == NextPath(l, q).value.value)
  {
    LayerStepMiss(l, ctx.redirect.GetOr(p), skip, ctx, Corrected);
  }

  /** The loop of the corrected lookup, once its context is reduced to the
      current path, is the reference search over the probes of the layers. */
  lemma {:induction false} LowersIsSearch(o: Overlay, p: string, i: nat, ctx: Ctx)
    requires !ctx.stop
    ensures LowersFrom(o, p, i, ctx, -1, Corrected) == SearchFrom(ProbeOf, o.lowers, i, ctx.redirect.GetOr(p))
    decreases |o.lowers| - i
  {
    if i < |o.lowers| {
      var q := ctx.redirect.GetOr(p);
      assert LowersFrom(o, p, i, ctx, -1, Corrected) == LayerThen(o, p, i, ctx, -1, Corrected);
      assert SearchFrom(ProbeOf, o.lowers, i, q) == SearchAt(ProbeOf, o.lowers, i, q);
      if Stat(o.lowers[i], q) == Ok(None) && i + 1 < |o.lowers| {
        StepFollowsNextPath(o.lowers[i], p, false, ctx);
        var step := LayerStep(o.lowers[i], q, false, false, ctx, Corrected);
        if step.Ok? && !step.value.ctx.stop {
          LowersIsSearch(o, p, i + 1, step.value.ctx);
        }
      }
    }
  }

  /** The corrected lookup is the reference search from `start` under `p`
      (check.c:246-300, 361-389). */
  lemma LookupIsSearch(o: Overlay, p: string, start: nat)
    ensures Lookup(o, p, start) == SearchFrom(ProbeOf, o.lowers, start, p)
  {
    LowersIsSearch(o, p, start, Fresh);
  }

  /** The route of a lookup of `p` from layer `start`: element j is the path
      searched in layer start + j. */
  function Route(o: Overlay, p: string, start: nat): seq<string> {
    Trail(ProbeOf, o.lowers, start, p)
  }

  /** Searching layer `k` under `q` fails: the path cannot be looked at, or it
      is absent and, a deeper layer existing, the ancestors cannot be walked. */
  predicate FaultsAt(o: Overlay, k: nat, q: string) {
    && k < |o.lowers|
    && (|| Stat(o.lowers[k], q).Err?
        || (Stat(o.lowers[k], q) == Ok(None) && k + 1 < |o.lowers| && NextPath(o.lowers[k], q).Err?))
  }

  /** No layer of the route `t` from layer `i` faults. */
  predicate FaultFree(o: Overlay, i: nat, t: seq<string>) {
    forall j | 0 <= j < |t| :: !FaultsAt(o, i + j, t[j])
  }

  /** Lookup follows its route: what it finds is the path of the route in
      that layer; when it finds nothing, every layer of the route lacked its
      path; it fails only when a layer of the route faults
      (check.c:246-300, 361-389). */
  lemma LookupFollowsRoute(o: Overlay, p: string, start: nat)
    ensures var r := Lookup(o, p, start);
      var t := Route(o, p, start);
      && (r.Ok? && r.value.Found? ==>
            start <= r.value.stack < start + |t| && t[r.value.stack - start] == r.value.path)
      && (r == Ok(NotFound) ==> forall j | 0 <= j < |t| :: Stat(o.lowers[start + j], t[j]) == Ok(None))
      && (FaultFree(o, start, t) ==> r.Ok?)
  {
    var t := Route(o, p, start);
    LookupIsSearch(o, p, start);
    SearchAlongTrail(ProbeOf, o.lowers, start, p);
    if Lookup(o, p, start) == Ok(NotFound) {
      forall j | 0 <= j < |t|
        ensures Stat(o.lowers[start + j], t[j]) == Ok(None)
      {
        assert ProbeOf(o.lowers[start + j], t[j]).Lacks?;
      }
    }
    if FaultFree(o, start, t) {
      forall j | 0 <= j < |t|
        ensures !Faults(ProbeOf, o.lowers, start + j, t[j])
      {
        assert !FaultsAt(o, start + j, t[j]);
      }
    }
  }

  /** Conversely, a layer of the route that holds its path is what lookup
      finds, under that path. */
  lemma RouteHitIsLookup(o: Overlay, p: string, start: nat, j: nat, e: Entry)
    requires j < |Route(o, p, start)| && Stat(o.lowers[start + j], Route(o, p, start)[j]) == Ok(Some(e))
    ensures Lookup(o, p, start) == Ok(Found(Route(o, p, start)[j], start + j, e))
  {
    LookupIsSearch(o, p, start);
    assert ProbeOf(o.lowers[start + j], Route(o, p, start)[j]) == Holds(e);
    TrailHitIsFound(ProbeOf, o.lowers, start, p, j);
  }

  /** Lookup finds nothing exactly when no layer of the route holds its path
      and none faults. */
  lemma LookupMissesIffRouteEmpty(o: Overlay, p: string, start: nat)
    ensures var t := Route(o, p, start);
      Lookup(o, p, start) == Ok(NotFound) <==>
        forall j | 0 <= j < |t| :: Stat(o.lowers[start + j], t[j]) == Ok(None) && !FaultsAt(o, start + j, t[j])
  {
    var t := Route(o, p, start);
    LookupFollowsRoute(o, p, start);
    if Lookup(o, p, start) == Ok(NotFound) {
      forall j | 0 <= j < |t|
        ensures !FaultsAt(o, start + j, t[j])
      {
        if FaultsAt(o, start + j, t[j]) {
          assert Faults(ProbeOf, o.lowers, start + j, t[j]);
          LookupIsSearch(o, p, start);
          TrailFaultIsError(ProbeOf, o.lowers, start, p, j);
        }
      }
    }
  }

  /** Once past the skipped layer, the loop no longer depends on it. */
  lemma {:induction false} PastSkip(o: Overlay, p: string, i: nat, ctx: Ctx, skipAt: int, v: Variant)
    requires i > skipAt
    ensures LowersFrom(o, p, i, ctx, skipAt, v) == LowersFrom(o, p, i, ctx, -1, v)
    decreases |o.lowers| - i
  {
    if !ctx.stop && i < |o.lowers| {
      var step := LayerStep(o.lowers[i], ctx.redirect.GetOr(p), false, i == |o.lowers| - 1, ctx, v);
      UnskippedLayer(o, p, i, ctx, skipAt, v);
      UnskippedLayer(o, p, i, ctx, -1, v);
      if step.Ok? && step.value.found.None? {
        PastSkip(o, p, i + 1, step.value.ctx, skipAt, v);
      }
    }
  }

  /** A round of the loop on a layer that is not the skipped one. */
  lemma UnskippedLayer(o: Overlay, p: string, i: nat, ctx: Ctx, skipAt: int, v: Variant)
    requires !ctx.stop && i < |o.lowers| && i != skipAt
    ensures var path := ctx.redirect.GetOr(p);
      LowersFrom(o, p, i, ctx, skipAt, v) ==
        match LayerStep(o.lowers[i], path, false, i == |o.lowers| - 1, ctx, v)
        case Err(f) => Err(f)
        case Ok(step) =>
          if step.found.Some? then Ok(Found(path, i, step.found.value))
          else LowersFrom(o, p, i + 1, step.ctx, skipAt, v)
  {
    assert LowersFrom(o, p, i, ctx, skipAt, v) == LayerThen(o, p, i, ctx, skipAt, v);
  }

  /** In the corrected lookup only the current path matters, not whether it
      came from a redirect. */
  lemma {:induction false} OnlyPathMatters(o: Overlay, p: string, i: nat, ctx: Ctx)
    requires !ctx.stop
    ensures LowersFrom(o, p, i, ctx, -1, Corrected) == LowersFrom(o, ctx.redirect.GetOr(p), i, Fresh, -1, Corrected)
    decreases |o.lowers| - i
  {
    if i < |o.lowers| {
      var q := ctx.redirect.GetOr(p);
      var last := i == |o.lowers| - 1;
      var a := LayerStep(o.lowers[i], q, false, last, ctx, Corrected);
      var b := LayerStep(o.lowers[i], q, false, last, Fresh, Corrected);
      assert LowersFrom(o, p, i, ctx, -1, Corrected) == LayerThen(o, p, i, ctx, -1, Corrected);
      assert LowersFrom(o, q, i, Fresh, -1, Corrected) == LayerThen(o, q, i, Fresh, -1, Corrected);
      LayerStepMiss(o.lowers[i], q, false, ctx, Corrected);
      LayerStepMiss(o.lowers[i], q, false, Fresh, Corrected);
      if a.Ok? && a.value.found.None? && !a.value.ctx.stop {
        assert b.Ok? && b.value.found.None? && !b.value.ctx.stop;
        assert a.value.ctx.redirect.GetOr(p) == b.value.ctx.redirect.GetOr(q);
        OnlyPathMatters(o, p, i + 1, a.value.ctx);
        OnlyPathMatters(o, q, i + 1, b.value.ctx);
      }
    }
  }

  /** The layer an entry of `pl` lives in, and the first lower layer below it. */
  function HomeLayer(o: Overlay, pl: Place): Layer
    requires ValidPlace(o, pl)
  {
    if pl.Upper? then o.upper.value else o.lowers[pl.stack]
  }

  function Below(pl: Place): nat {
    if pl.Upper? then 0 else pl.stack + 1
  }

  /** ovl_lookup_lower in terms of ovl_lookup: the entry's own layer is not
      looked at, only its ancestors there; they send the search on to the
      layers below under the same path or a rewritten one, or stop it. An
      entry of the bottom layer has nothing below (check.c:310-355). */
  lemma LookupLowerSkipsHome(o: Overlay, p: string, pl: Place)
    requires ValidPlace(o, pl)
    ensures pl.Lower? && pl.stack == |o.lowers| - 1 ==> LookupLower(o, p, pl) == Ok(NotFound)
    ensures !(pl.Lower? && pl.stack == |o.lowers| - 1) ==>
      var n := NextPath(HomeLayer(o, pl), p);
      && (n.Err? ==> LookupLower(o, p, pl) == Err(n.fault))
      && (n == Ok(None) ==> LookupLower(o, p, pl) == Ok(NotFound))
      && (n.Ok? && n.value.Some? ==> LookupLower(o, p, pl) == Lookup(o, n.value.value, Below(pl)))
  {
    if pl.Upper? {
      UpperSkipsHome(o, p);
    } else {
      LowerSkipsHome(o, p, pl.stack);
    }
  }

  /** The skipping step of ovl_lookup_lower on layer `l`, followed by the
      corrected loop from layer `i` with no layer skipped. */
  function AfterHome(o: Overlay, l: Layer, p: string, i: nat): Result<Hit> {
    match LayerStep(l, p, true, false, Fresh, Corrected)
    case Err(f) => Err(f)
    case Ok(step) => LowersFrom(o, p, i, step.ctx, -1, Corrected)
  }

  /** What follows the skipping step is ovl_lookup under the path NextPath
      names, or nothing, or its failure. */
  lemma AfterHomeIsLookup(o: Overlay, l: Layer, p: string, i: nat)
    ensures var n := NextPath(l, p);
      && (n.Err? ==> AfterHome(o, l, p, i) == Err(n.fault))
      && (n == Ok(None) ==> AfterHome(o, l, p, i) == Ok(NotFound))
      && (n.Ok? && n.value.Some? ==> AfterHome(o, l, p, i) == Lookup(o, n.value.value, i))
  {
    StepFollowsNextPath(l, p, true, Fresh);
    var step := LayerStep(l, p, true, false, Fresh, Corrected);
    if step.Ok? && !step.value.ctx.stop {
      OnlyPathMatters(o, p, i, step.value.ctx);
    }
  }

  lemma UpperSkipsHome(o: Overlay, p: string)
    requires o.upper.Some?
    ensures var n := NextPath(o.upper.value, p);
      && (n.Err? ==> LookupLower(o, p, Upper) == Err(n.fault))
      && (n == Ok(None) ==> LookupLower(o, p, Upper) == Ok(NotFound))
      && (n.Ok? && n.value.Some? ==> LookupLower(o, p, Upper) == Lookup(o, n.value.value, 0))
  {
    assert LookupLower(o, p, Upper) == AfterHome(o, o.upper.value, p, 0);
    AfterHomeIsLookup(o, o.upper.value, p, 0);
  }

  lemma LowerSkipsHome(o: Overlay, p: string, s: nat)
    requires s < |o.lowers|
    ensures s == |o.lowers| - 1 ==> LookupLower(o, p, Lower(s)) == Ok(NotFound)
    ensures s < |o.lowers| - 1 ==>
      var n := NextPath(o.lowers[s], p);
      && (n.Err? ==> LookupLower(o, p, Lower(s)) == Err(n.fault))
      && (n == Ok(None) ==> LookupLower(o, p, Lower(s)) == Ok(NotFound))
      && (n.Ok? && n.value.Some? ==> LookupLower(o, p, Lower(s)) == Lookup(o, n.value.value, s + 1))
  {
    var last := s == |o.lowers| - 1;
    var step := LayerStep(o.lowers[s], p, true, last, Fresh, Corrected);
    assert LookupLower(o, p, Lower(s)) == LowersFrom(o, p, s, Fresh, s, Corrected);
    assert LowersFrom(o, p, s, Fresh, s, Corrected) == LayerThen(o, p, s, Fresh, s, Corrected);
    if step.Ok? {
      PastSkip(o, p, s + 1, step.value.ctx, s, Corrected);
    }
    if !last {
      assert LookupLower(o, p, Lower(s)) == AfterHome(o, o.lowers[s], p, s + 1);
      AfterHomeIsLookup(o, o.lowers[s], p, s + 1);
    }
  }

  /** No layer from `i` on fails on `p`, and no ancestor of `p` there decides
      anything: the overlay merges `p` like a plain union of directories. */
  predicate PlainFrom(o: Overlay, p: string, i: nat) {
    && !IsAbsolute(p)
    && (forall k | i <= k < |o.lowers| :: Reachable(o.lowers[k], p))
    && (forall k | i <= k < |o.lowers| :: WalkAncestors(o.lowers[k], Ancestors(p)) == Ok(Continue))
  }

  /** Where nothing redirects or stops, lookup returns the first layer from
      `start` on that holds the path, under the same path, or nothing when no
      layer holds it (check.c:331-350, 367-385). */
  lemma {:induction false} PlainLookupFindsFirstLayer(o: Overlay, p: string, start: nat)
    requires PlainFrom(o, p, start)
    ensures Lookup(o, p, start).Ok?
    ensures Lookup(o, p, start).value.Found? ==>
      && Lookup(o, p, start).value.path == p
      && Key(p) in o.lowers[Lookup(o, p, start).value.stack].entries
      && forall k | start <= k < Lookup(o, p, start).value.stack :: Key(p) !in o.lowers[k].entries
    ensures Lookup(o, p, start).value.NotFound? ==>
      forall k | start <= k < |o.lowers| :: Key(p) !in o.lowers[k].entries
  {
    PlainFromOnward(o, p, start);
  }

  lemma {:induction false} PlainFromOnward(o: Overlay, p: string, i: nat)
    requires PlainFrom(o, p, i)
    ensures LowersFrom(o, p, i, Fresh, -1, Corrected).Ok?
    ensures var r := LowersFrom(o, p, i, Fresh, -1, Corrected).value;
      r.Found? ==>
        r.path == p && Key(p) in o.lowers[r.stack].entries && forall k | i <= k < r.stack :: Key(p) !in o.lowers[k].entries
    ensures var r := LowersFrom(o, p, i, Fresh, -1, Corrected).value;
      r.NotFound? ==> forall k | i <= k < |o.lowers| :: Key(p) !in o.lowers[k].entries
    decreases |o.lowers| - i
  {
    if i < |o.lowers| {
      var l := o.lowers[i];
      var step := LayerStep(l, p, false, i == |o.lowers| - 1, Fresh, Corrected);
      assert LowersFrom(o, p, i, Fresh, -1, Corrected) == LayerThen(o, p, i, Fresh, -1, Corrected);
      assert Reachable(l, p);
      if Key(p) !in l.entries {
        assert step == Ok(Step(None, Fresh));
        assert PlainFrom(o, p, i + 1);
        PlainFromOnward(o, p, i + 1);
      }
    }
  }

  /** An existing file or opaque directory among the ancestors, met before
      any redirect, hides every deeper layer: the lookup finds nothing
      (check.c:281-284, 331). */
  lemma StopHidesDeeperLayers(o: Overlay, p: string, i: nat)
    requires i + 1 < |o.lowers| && !IsAbsolute(p)
    requires Stat(o.lowers[i], p) == Ok(None)
    requires WalkAncestors(o.lowers[i], Ancestors(p)) == Ok(Stop)
    ensures Lookup(o, p, i) == Ok(NotFound)
  {
    var step := LayerStep(o.lowers[i], p, false, false, Fresh, Corrected);
    assert step == Ok(Step(None, Ctx(None, true)));
    assert LowersFrom(o, p, i, Fresh, -1, Corrected) == LayerThen(o, p, i, Fresh, -1, Corrected);
  }

  /** A redirect ancestor, met first, sends the lookup to the next layer under
      the redirect target joined with the rest of the path (check.c:286-295). */
  lemma RedirectSendsToNextLayer(o: Overlay, p: string, i: nat, t: string, a: string)
    requires i + 1 < |o.lowers| && !IsAbsolute(p)
    requires Stat(o.lowers[i], p) == Ok(None)
    requires WalkAncestors(o.lowers[i], Ancestors(p)) == Ok(Rewrite(t, a))
    ensures Lookup(o, p, i) ==
      LowersFrom(o, p, i + 1, Ctx(Some(Joinname(t, Basename2Fixed(p, a))), false), -1, Corrected)
  {
    assert Lookup(o, p, i) == LowersFrom(o, p, i, Fresh, -1, Corrected);
    assert LowersFrom(o, p, i, Fresh, -1, Corrected) == LayerThen(o, p, i, Fresh, -1, Corrected);
    LayerStepMiss(o.lowers[i], p, false, Fresh, Corrected);
  }

  /** The common case: a child `n` of a redirect directory `d` whose value is
      "/t", with `d` missing or plain... is looked up as "t/n" in the next
      layer. */
  lemma {:induction false} ChildOfRedirectDir(o: Overlay, d: string, n: string, t: string, i: nat)
    requires i + 1 < |o.lowers|
    requires d != "" && d != "." && !IsAbsolute(d) && d[|d| - 1] != '/' && !(|d| >= 2 && d[0] == '.' && d[1] == '/')
    requires PlainName(n) && forall k | 0 <= k < |n| :: n[k] != '/'
    requires PlainName(t) && forall k | 0 <= k < |t| :: t[k] != '/'
    requires Stat(o.lowers[i], d + "/" + n) == Ok(None)
    requires IsDirAt(o.lowers[i], d) && !IsOpaque(o.lowers[i], d)
    requires GetXattr(o.lowers[i], d, Redirect) == Ok(Some("/" + t))
    ensures Lookup(o, d + "/" + n, i) ==
      LowersFrom(o, d + "/" + n, i + 1, Ctx(Some(t + "/" + n), false), -1, Corrected)
  {
    var p := d + "/" + n;
    DirnameOfChild(d, n);
    assert !IsAbsolute(p) by { assert p[0] == d[0]; }
    var ancs := Ancestors(p);
    assert ancs[0] == d;
    assert ("/" + t)[1..] == t;
    assert GetRedirect(o.lowers[i], d) == Ok(Some(t));
    assert AncestorVerdict(o.lowers[i], d) == Ok(Rewrite(t, d));
    assert WalkAncestors(o.lowers[i], ancs) == Ok(Rewrite(t, d));
    RedirectSendsToNextLayer(o, p, i, t, d);
    JoinThenBasenameFixed(d, n);
    JoinPlain(t, n);
  }
}

=== FILE: mount.dfy ===
/** Mount options and the mounted-overlay check of mount.c: splitting the
    option string and the lowerdir list, picking out the three directory
    options, resolving them, and deciding whether a directory fsck is asked
    to check belongs to a mounted overlay. realpath and the mount table are
    inputs: a Resolver maps each path realpath accepts to what it returns. */
module Mount {
  import opened Util

  /** Most lower layers an overlay may stack (config.h:26). */
  const OVL_MAX_STACK: nat := 500

  /** The option prefixes and file system type (config.h:32-38). */
  const OPT_LOWERDIR: string := "lowerdir="
  const OPT_UPPERDIR: string := "upperdir="
  const OPT_WORKDIR: string := "workdir="
  const OVERLAY_NAME: string := "overlay"

  /** realpath: the paths it resolves and their canonical form. */
  type Resolver = map<string, string>

  // ---------------------------------------------------------------------
  // The lowerdir list
  // ---------------------------------------------------------------------

  /** Put `c` at the front of the first component. */
  function Prepend(c: char, parts: seq<string>): (r: seq<string>)
    requires |parts| >= 1
    ensures |r| == |parts| && r[0] == [c] + parts[0] && r[1..] == parts[1..]
  {
    [[c] + parts[0]] + parts[1..]
  }

  /** ovl_split_lowerdirs (mount.c:59-77): the components of a lowerdir
      list, split at every ':' that no '\' escapes, with the escaping '\'
      dropped. A '\' at the very end is dropped too. */
  function SplitLowerdirs(s: string): (r: seq<string>)
    ensures |r| >= 1
    decreases |s|
  {
    if s == "" then [""]
    else if s[0] == '\\' then
      if |s| == 1 then [""] else Prepend(s[1], SplitLowerdirs(s[2..]))
    else if s[0] == ':' then [""] + SplitLowerdirs(s[1..])
    else Prepend(s[0], SplitLowerdirs(s[1..]))
  }

  /** The number of ':' in `s` that no '\' escapes. */
  function Separators(s: string): nat
    decreases |s|
  {
    if s == "" then 0
    else if s[0] == '\\' then (if |s| == 1 then 0 else Separators(s[2..]))
    else (if s[0] == ':' then 1 else 0) + Separators(s[1..])
  }

  /** The count ovl_split_lowerdirs returns: one more than the separators. */
  lemma {:induction false} SplitLowerdirsCount(s: string)
    ensures |SplitLowerdirs(s)| == 1 + Separators(s)
    decreases |s|
  {
    if s == "" {
    } else if s[0] == '\\' {
      if |s| > 1 {
        SplitLowerdirsCount(s[2..]);
      }
    } else {
      SplitLowerdirsCount(s[1..]);
    }
  }

  /** The room the components take where ovl_split_lowerdirs leaves them:
      their characters and one NUL after each but the last. */
  function SplitRoom(parts: seq<string>): nat
    requires |parts| >= 1
  {
    if |parts| == 1 then |parts[0]| else |parts[0]| + 1 + SplitRoom(parts[1..])
  }

  lemma PrependRoom(c: char, parts: seq<string>)
    requires |parts| >= 1
    ensures SplitRoom(Prepend(c, parts)) == SplitRoom(parts) + 1
  {
    var r := Prepend(c, parts);
    if |parts| > 1 {
      assert r[1..] == parts[1..];
    }
  }

  /** ovl_split_lowerdirs rewrites the list in place: the components and
      their separators never need more room than the list they came from. */
  lemma {:induction false} SplitLowerdirsFits(s: string)
    ensures SplitRoom(SplitLowerdirs(s)) <= |s|
    decreases |s|
  {
    if s == "" {
    } else if s[0] == '\\' {
      if |s| > 1 {
        SplitLowerdirsFits(s[2..]);
        PrependRoom(s[1], SplitLowerdirs(s[2..]));
      }
    } else if s[0] == ':' {
      var rest := SplitLowerdirs(s[1..]);
      SplitLowerdirsFits(s[1..]);
      assert ([""] + rest)[1..] == rest;
    } else {
      SplitLowerdirsFits(s[1..]);
      PrependRoom(s[0], SplitLowerdirs(s[1..]));
    }
  }

  /** A list with no '\' and no ':' is one directory, unchanged. */
  lemma {:induction false} SplitPlainList(s: string)
    requires forall i | 0 <= i < |s| :: s[i] != '\\' && s[i] != ':'
    ensures SplitLowerdirs(s) == [s]
    decreases |s|
  {
    if s != "" {
      SplitPlainList(s[1..]);
      assert [s[0]] + s[1..] == s;
    }
  }

  /** One character of a directory name as written into a lowerdir list:
      '\' and ':' get a '\' in front. */
  function EscapeChar(c: char): string {
    if c == '\\' || c == ':' then ['\\', c] else [c]
  }

  /** A directory name written into a lowerdir list. */
  function Escape(d: string): (r: string)
    ensures |r| >= |d|
  {
    if d == "" then "" else EscapeChar(d[0]) + Escape(d[1..])
  }

  /** An escaped character is read back as that character, glued to the
      first component of what follows. */
  lemma SplitEscapeChar(c: char, tail: string)
    ensures SplitLowerdirs(EscapeChar(c) + tail) == Prepend(c, SplitLowerdirs(tail))
  {
    var e := EscapeChar(c) + tail;
    if c == '\\' || c == ':' {
      assert e[0] == '\\' && e[1] == c && e[2..] == tail;
    } else {
      assert e[0] == c && e[1..] == tail;
    }
  }

  /** A lowerdir list: the escaped names joined with ':'. */
  function JoinLowerdirs(ds: seq<string>): string
    requires |ds| >= 1
  {
    if |ds| == 1 then Escape(ds[0]) else Escape(ds[0]) + ":" + JoinLowerdirs(ds[1..])
  }

  /** Splitting an escaped name followed by a rest puts the name in front of
      the first component of the rest. */
  lemma {:induction false} SplitEscaped(d: string, rest: string)
    ensures SplitLowerdirs(Escape(d) + rest)
         == [d + SplitLowerdirs(rest)[0]] + SplitLowerdirs(rest)[1..]
    decreases |d|
  {
    if d == "" {
      SplitEscapedNothing(rest);
    } else {
      SplitEscaped(d[1..], rest);
      SplitEscapedStep(d, rest);
    }
  }

  lemma SplitEscapedNothing(rest: string)
    ensures SplitLowerdirs(Escape("") + rest)
         == ["" + SplitLowerdirs(rest)[0]] + SplitLowerdirs(rest)[1..]
  {
    var R := SplitLowerdirs(rest);
    assert Escape("") + rest == rest;
    assert "" + R[0] == R[0];
    assert [R[0]] + R[1..] == R;
  }

  /** The inductive step of SplitEscaped: one more escaped character. */
  lemma SplitEscapedStep(d: string, rest: string)
    requires d != ""
    requires SplitLowerdirs(Escape(d[1..]) + rest)
         == [d[1..] + SplitLowerdirs(rest)[0]] + SplitLowerdirs(rest)[1..]
    ensures SplitLowerdirs(Escape(d) + rest)
         == [d + SplitLowerdirs(rest)[0]] + SplitLowerdirs(rest)[1..]
  {
    var R := SplitLowerdirs(rest);
    EscapeFirst(d, rest);
    SplitAfterEscapeChar(d[0], d[1..], Escape(d[1..]) + rest, Escape(d) + rest, R);
    HeadTail(d, R);
  }

  lemma HeadTail(d: string, R: seq<string>)
    requires d != "" && |R| >= 1
    ensures [([d[0]] + d[1..]) + R[0]] + R[1..] == [d + R[0]] + R[1..]
  {
    assert [d[0]] + d[1..] == d;
  }

  lemma EscapeFirst(d: string, rest: string)
    requires d != ""
    ensures Escape(d) + rest == EscapeChar(d[0]) + (Escape(d[1..]) + rest)
  {
  }

  /** The step of SplitEscapedStep with the strings taken apart. */
  lemma SplitAfterEscapeChar(c: char, dt: string, tail: string, e: string, R: seq<string>)
    requires |R| >= 1 && e == EscapeChar(c) + tail
    requires SplitLowerdirs(tail) == [dt + R[0]] + R[1..]
    ensures SplitLowerdirs(e) == [([c] + dt) + R[0]] + R[1..]
  {
    SplitEscapeChar(c, tail);
    PrependFirst(c, dt, R, SplitLowerdirs(tail));
  }

  /** Prepending to a split whose first component starts with `d`. */
  lemma PrependFirst(c: char, d: string, R: seq<string>, S: seq<string>)
    requires |R| >= 1 && S == [d + R[0]] + R[1..]
    ensures Prepend(c, S) == [([c] + d) + R[0]] + R[1..]
  {
    assert [c] + (d + R[0]) == ([c] + d) + R[0];
  }

  /** Any list of directory names survives being written as a lowerdir list
      and split again. */
  lemma {:induction false} SplitJoinLowerdirs(ds: seq<string>)
    requires |ds| >= 1
    ensures SplitLowerdirs(JoinLowerdirs(ds)) == ds
    decreases |ds|
  {
    if |ds| == 1 {
      SplitEscaped(ds[0], "");
      assert Escape(ds[0]) + "" == Escape(ds[0]);
      assert ds[0] + "" == ds[0];
    } else {
      var rest := ":" + JoinLowerdirs(ds[1..]);
      assert JoinLowerdirs(ds) == Escape(ds[0]) + rest;
      SplitEscaped(ds[0], rest);
      assert rest[1..] == JoinLowerdirs(ds[1..]);
      SplitJoinLowerdirs(ds[1..]);
      assert SplitLowerdirs(rest) == [""] + ds[1..];
      assert ds[0] + "" == ds[0];
    }
  }

  /** What ovl_resolve_lowerdirs (mount.c:80-121) gives: too many
      components, a component realpath rejects, or the resolved list. */
  datatype Lowers = TooMany | Unresolved | Resolved(dirs: seq<string>)

  /** realpath applied to each component, or None at the first it rejects. */
  function ResolveAll(parts: seq<string>, rp: Resolver): (r: Option<seq<string>>)
    ensures r.Some? <==> forall i | 0 <= i < |parts| :: parts[i] in rp
    ensures r.Some? ==> |r.value| == |parts| && forall i | 0 <= i < |parts| :: r.value[i] == rp[parts[i]]
  {
    if |parts| == 0 then Some([])
    else if parts[0] !in rp then None
    else
      match ResolveAll(parts[1..], rp)
      case None => None
      case Some(rest) => Some([rp[parts[0]]] + rest)
  }

  function ResolveLowerdirs(s: string, rp: Resolver): (r: Lowers)
    ensures r.TooMany? <==> |SplitLowerdirs(s)| > OVL_MAX_STACK
    ensures r.Resolved? ==>
      && 1 <= |r.dirs| <= OVL_MAX_STACK
      && |r.dirs| == |SplitLowerdirs(s)|
      && forall i | 0 <= i < |r.dirs| :: SplitLowerdirs(s)[i] in rp && r.dirs[i] == rp[SplitLowerdirs(s)[i]]
    ensures r.Unresolved? <==>
      |SplitLowerdirs(s)| <= OVL_MAX_STACK && exists i | 0 <= i < |SplitLowerdirs(s)| :: SplitLowerdirs(s)[i] !in rp
  {
    var parts := SplitLowerdirs(s);
    if |parts| > OVL_MAX_STACK then TooMany
    else
      match ResolveAll(parts, rp)
      case None => Unresolved
      case Some(ds) => Resolved(ds)
  }

  // ---------------------------------------------------------------------
  // The option string
  // ---------------------------------------------------------------------

  /** Where the option at the front of `s` ends (mount.c:135-145): at the
      first ',' that no '\' escapes, or at the end. */
  function OptEnd(s: string): (k: nat)
    ensures k <= |s|
    ensures k < |s| ==> s[k] == ','
    decreases |s|
  {
    if s == "" then 0
    else if s[0] == '\\' then (if |s| == 1 then 1 else 2 + OptEnd(s[2..]))
    else if s[0] == ',' then 0
    else 1 + OptEnd(s[1..])
  }

  /** The options successive ovl_next_opt calls return (mount.c:127-148).
      The escapes stay in place. */
  function SplitOpts(s: string): (r: seq<string>)
    ensures |r| >= 1
    decreases |s|
  {
    var k := OptEnd(s);
    if k == |s| then [s] else [s[..k]] + SplitOpts(s[k + 1..])
  }

  /** The options joined with ','. */
  function JoinOpts(opts: seq<string>): string
    requires |opts| >= 1
  {
    if |opts| == 1 then opts[0] else opts[0] + "," + JoinOpts(opts[1..])
  }

  /** Splitting loses nothing: the options joined again give the input. */
  lemma {:induction false} JoinSplitOpts(s: string)
    ensures JoinOpts(SplitOpts(s)) == s
    decreases |s|
  {
    var k := OptEnd(s);
    if k < |s| {
      JoinSplitOpts(s[k + 1..]);
      assert s == s[..k] + "," + s[k + 1..];
    }
  }

  /** An option with neither ',' nor '\' in it. */
  predicate PlainOpt(o: string) {
    forall i | 0 <= i < |o| :: o[i] != ',' && o[i] != '\\'
  }

  lemma {:induction false} OptEndPlain(o: string, rest: string)
    requires PlainOpt(o) && (rest == "" || rest[0] == ',')
    ensures OptEnd(o + rest) == |o|
    decreases |o|
  {
    if o != "" {
      assert (o + rest)[1..] == o[1..] + rest;
      OptEndPlain(o[1..], rest);
    }
  }

  /** Options free of ',' and '\' are split back out of their join. */
  lemma {:induction false} SplitJoinOpts(opts: seq<string>)
    requires |opts| >= 1 && forall i | 0 <= i < |opts| :: PlainOpt(opts[i])
    ensures SplitOpts(JoinOpts(opts)) == opts
    decreases |opts|
  {
    if |opts| == 1 {
      OptEndPlain(opts[0], "");
      assert opts[0] + "" == opts[0];
    } else {
      var rest := "," + JoinOpts(opts[1..]);
      assert JoinOpts(opts) == opts[0] + rest;
      OptEndPlain(opts[0], rest);
      var s := JoinOpts(opts);
      assert s[..|opts[0]|] == opts[0];
      assert s[|opts[0]| + 1..] == JoinOpts(opts[1..]);
      SplitJoinOpts(opts[1..]);
    }
  }

  /** struct ovl_config: the three directory options, as given. */
  datatype Config = Config(lowerdir: Option<string>, upperdir: Option<string>, workdir: Option<string>)

  const NoConfig: Config := Config(None, None, None)

  predicate HasPrefix(s: string, p: string) {
    |p| <= |s| && s[..|p|] == p
  }

  /** One option (mount.c:225-237): a known prefix replaces that field with
      the rest of the option (ovl_match_dump, mount.c:150-155); an empty or
      unknown option changes nothing. */
  function ApplyOpt(cfg: Config, o: string): Config {
    if o == "" then cfg
    else if HasPrefix(o, OPT_UPPERDIR) then cfg.(upperdir := Some(o[|OPT_UPPERDIR|..]))
    else if HasPrefix(o, OPT_LOWERDIR) then cfg.(lowerdir := Some(o[|OPT_LOWERDIR|..]))
    else if HasPrefix(o, OPT_WORKDIR) then cfg.(workdir := Some(o[|OPT_WORKDIR|..]))
    else cfg
  }

  function ApplyOpts(cfg: Config, opts: seq<string>): Config
    decreases |opts|
  {
    if |opts| == 0 then cfg else ApplyOpts(ApplyOpt(cfg, opts[0]), opts[1..])
  }

  /** ovl_parse_opt (mount.c:220-239) on top of what `cfg` already holds. */
  function ParseOpt(s: string, cfg: Config): Config {
    ApplyOpts(cfg, SplitOpts(s))
  }

  /** The value of the last option with prefix `p`, found from the end. */
  function LastValue(opts: seq<string>, p: string): (r: Option<string>)
    ensures r.Some? <==> exists i | 0 <= i < |opts| :: HasPrefix(opts[i], p)
    ensures r.Some? ==> exists i | 0 <= i < |opts| ::
      && HasPrefix(opts[i], p)
      && r.value == opts[i][|p|..]
      && forall j | i < j < |opts| :: !HasPrefix(opts[j], p)
    decreases |opts|
  {
    if |opts| == 0 then None
    else if HasPrefix(opts[|opts| - 1], p) then Some(opts[|opts| - 1][|p|..])
    else
      var r := LastValue(opts[..|opts| - 1], p);
      assert forall i | 0 <= i < |opts| - 1 :: opts[..|opts| - 1][i] == opts[i];
      r
  }

  /** The three prefixes exclude each other, and none is empty. */
  lemma PrefixesDisjoint(o: string)
    ensures !(HasPrefix(o, OPT_UPPERDIR) && HasPrefix(o, OPT_LOWERDIR))
    ensures !(HasPrefix(o, OPT_UPPERDIR) && HasPrefix(o, OPT_WORKDIR))
    ensures !(HasPrefix(o, OPT_LOWERDIR) && HasPrefix(o, OPT_WORKDIR))
    ensures HasPrefix(o, OPT_UPPERDIR) || HasPrefix(o, OPT_LOWERDIR) || HasPrefix(o, OPT_WORKDIR) ==> o != ""
  {
    assert OPT_UPPERDIR[0] == 'u' && OPT_LOWERDIR[0] == 'l' && OPT_WORKDIR[0] == 'w';
  }

  /** The last occurrence of each directory option wins; a field no option
      names keeps what `cfg` held. */
  lemma {:induction false} ApplyOptsLastWins(cfg: Config, opts: seq<string>)
    ensures var r := ApplyOpts(cfg, opts);
      && r.upperdir == (if LastValue(opts, OPT_UPPERDIR).Some? then LastValue(opts, OPT_UPPERDIR) else cfg.upperdir)
      && r.lowerdir == (if LastValue(opts, OPT_LOWERDIR).Some? then LastValue(opts, OPT_LOWERDIR) else cfg.lowerdir)
      && r.workdir == (if LastValue(opts, OPT_WORKDIR).Some? then LastValue(opts, OPT_WORKDIR) else cfg.workdir)
    decreases |opts|
  {
    if |opts| > 0 {
      var n := |opts| - 1;
      var front := opts[..n];
      ApplyOptsLastWins(cfg, front);
      ApplyOptsSnoc(cfg, front, opts[n]);
      assert front + [opts[n]] == opts;
      PrefixesDisjoint(opts[n]);
    }
  }

  /** Options applied in two runs give what the whole run gives. */
  lemma {:induction false} ApplyOptsAppend(cfg: Config, a: seq<string>, b: seq<string>)
    ensures ApplyOpts(cfg, a + b) == ApplyOpts(ApplyOpts(cfg, a), b)
    decreases |a|
  {
    if |a| == 0 {
      assert a + b == b;
    } else {
      assert (a + b)[1..] == a[1..] + b;
      ApplyOptsAppend(ApplyOpt(cfg, a[0]), a[1..], b);
    }
  }

  lemma {:induction false} ApplyOptsSnoc(cfg: Config, opts: seq<string>, o: string)
    ensures ApplyOpts(cfg, opts + [o]) == ApplyOpt(ApplyOpts(cfg, opts), o)
    decreases |opts|
  {
    if |opts| == 0 {
      assert opts + [o] == [o];
    } else {
      assert (opts + [o])[1..] == opts[1..] + [o];
      ApplyOptsSnoc(ApplyOpt(cfg, opts[0]), opts[1..], o);
    }
  }

  // ---------------------------------------------------------------------
  // Resolving the directories
  // ---------------------------------------------------------------------

  /** A pointer field of struct ovl_mnt_entry: never written since the
      array was grown, NULL, or a value. */
  datatype Cell<T> = Garbage | Null | Val(v: T)

  /** The directory fields of one struct ovl_mnt_entry (mount.c:40-45);
      `lower` stands for the lowerdir array and lowernum together. */
  datatype Slot = Slot(lower: Cell<seq<string>>, upper: Cell<string>, work: Cell<string>)

  /** A slot as srealloc leaves it (common.c:81-90, nothing zeroed), and as
      smalloc leaves it (common.c:68-79, memset to 0). */
  const Unwritten: Slot := Slot(Garbage, Garbage, Garbage)
  const Cleared: Slot := Slot(Null, Null, Null)

  /** The number of entries ovl_scan_mount_init allocates at a time (mount.c:48). */
  const ALLOC_NUM: nat := 16

  /** Slot `i` of the entry array before a mount is resolved into it: the
      first ALLOC_NUM come from smalloc (mount.c:259-260) and are zeroed, the
      later ones from srealloc (mount.c:279-281) and are not. With `zeroed`
      every block is zeroed, as evidently intended. */
  function FreshSlot(i: nat, zeroed: bool): Slot {
    if zeroed || i < ALLOC_NUM then Cleared else Unwritten
  }

  predicate Initialised(s: Slot) {
    !s.lower.Garbage? && !s.upper.Garbage? && !s.work.Garbage?
  }

  /** The error path that frees a field (mount.c:196-202): `if (*p)` reads it. */
  function Release<T>(c: Cell<T>): (r: Result<Cell<T>>)
    ensures r.Ok? <==> !c.Garbage?
    ensures r.Ok? ==> r.value == Null
  {
    if c.Garbage? then Err(UninitRead) else Ok(Null)
  }

  /** ovl_get_dirs (mount.c:160-205) writing into the slot `s`: realpath of
      each option given, in the order upper, work, lower. The flag is false
      where the source returns -1; the error paths set the fields already
      written, and those before them, back to NULL. */
  function GetDirs(cfg: Config, s: Slot, rp: Resolver): (r: Result<(bool, Slot)>)
    ensures Initialised(s) ==> r.Ok? && Initialised(r.value.1)
    ensures r.Ok? && r.value.0 <==>
      && (cfg.upperdir.Some? ==> cfg.upperdir.value in rp)
      && (cfg.workdir.Some? ==> cfg.workdir.value in rp)
      && (cfg.lowerdir.Some? ==> ResolveLowerdirs(cfg.lowerdir.value, rp).Resolved?)
    ensures r.Ok? && r.value.0 ==>
      var t := r.value.1;
      && (cfg.upperdir.Some? ==> t.upper == Val(rp[cfg.upperdir.value]))
      && (cfg.upperdir.None? ==> t.upper == s.upper)
      && (cfg.workdir.Some? ==> t.work == Val(rp[cfg.workdir.value]))
      && (cfg.workdir.None? ==> t.work == s.work)
      && (cfg.lowerdir.Some? ==> t.lower == Val(ResolveLowerdirs(cfg.lowerdir.value, rp).dirs))
      && (cfg.lowerdir.None? ==> t.lower == s.lower)
  {
    if cfg.upperdir.Some? && cfg.upperdir.value !in rp then Ok((false, s))
    else
      var s1 := if cfg.upperdir.Some? then s.(upper := Val(rp[cfg.upperdir.value])) else s;
      if cfg.workdir.Some? && cfg.workdir.value !in rp then
        match Release(s1.upper)
        case Err(f) => Err(f)
        case Ok(u) => Ok((false, s1.(upper := u)))
      else
        var s2 := if cfg.workdir.Some? then s1.(work := Val(rp[cfg.workdir.value])) else s1;
        if cfg.lowerdir.None? then Ok((true, s2))
        else
          match ResolveLowerdirs(cfg.lowerdir.value, rp)
          case Resolved(ds) => Ok((true, s2.(lower := Val(ds))))
          case other =>
            var s3 := if other.Unresolved? then s2.(lower := Null) else s2;
            match Release(s3.work)
            case Err(f) => Err(f)
            case Ok(w) =>
              match Release(s3.upper)
              case Err(f) => Err(f)
              case Ok(u) => Ok((false, s3.(work := w, upper := u)))
  }

  // ---------------------------------------------------------------------
  // The mount table
  // ---------------------------------------------------------------------

  /** One line of the mount table: its type and its options. */
  datatype MntEnt = MntEnt(fsType: string, opts: string)

  /** The filter of mount.c:269-272: every directory option given must be an
      absolute path (its first character is '/'). */
  predicate AbsoluteOpts(cfg: Config) {
    && (cfg.lowerdir.Some? ==> |cfg.lowerdir.value| > 0 && cfg.lowerdir.value[0] == '/')
    && (cfg.upperdir.Some? ==> |cfg.upperdir.value| > 0 && cfg.upperdir.value[0] == '/')
    && (cfg.workdir.Some? ==> |cfg.workdir.value| > 0 && cfg.workdir.value[0] == '/')
  }

  /** The mount table loop of ovl_scan_mount_init (mount.c:262-287), with
      `i` slots kept so far and `cur` the contents of slot `i`: each overlay
      mount with absolute options is resolved into slot `i`; a success keeps
      it and moves on to the fresh slot `i + 1`, a failure leaves slot `i`,
      as the error paths left it, for the next mount. */
  function CollectMounts(mounts: seq<MntEnt>, rp: Resolver, i: nat, cur: Slot, zeroed: bool): (r: Result<seq<Slot>>)
    ensures Initialised(cur) && zeroed ==>
      r.Ok? && forall k | 0 <= k < |r.value| :: Initialised(r.value[k])
    decreases |mounts|
  {
    if |mounts| == 0 then Ok([])
    else
      var m := mounts[0];
      var cfg := ParseOpt(m.opts, NoConfig);
      if m.fsType != OVERLAY_NAME || !AbsoluteOpts(cfg) then CollectMounts(mounts[1..], rp, i, cur, zeroed)
      else
        match GetDirs(cfg, cur, rp)
        case Err(f) => Err(f)
        case Ok((true, s)) =>
          (match CollectMounts(mounts[1..], rp, i + 1, FreshSlot(i + 1, zeroed), zeroed)
           case Err(f) => Err(f)
           case Ok(rest) => Ok([s] + rest))
        case Ok((false, s)) => CollectMounts(mounts[1..], rp, i, s, zeroed)
  }

  /** ovl_scan_mount_init as written: only the first block of slots is
      zeroed. */
  function ScanMountsAsWritten(mounts: seq<MntEnt>, rp: Resolver): Result<seq<Slot>> {
    CollectMounts(mounts, rp, 0, FreshSlot(0, false), false)
  }

  /** The options of a mount table line, parsed from scratch: ovl_free_opt
      (mount.c:207-215) empties the configuration after every line. */
  function MountConfig(m: MntEnt): Config {
    ParseOpt(m.opts, NoConfig)
  }

  /** realpath accepts every directory option the configuration gives. */
  predicate Resolvable(cfg: Config, rp: Resolver) {
    && (cfg.upperdir.Some? ==> cfg.upperdir.value in rp)
    && (cfg.workdir.Some? ==> cfg.workdir.value in rp)
    && (cfg.lowerdir.Some? ==> ResolveLowerdirs(cfg.lowerdir.value, rp).Resolved?)
  }

  /** A mount table line that keeps a slot: an overlay, with absolute
      directory options, all of which resolve. */
  predicate Eligible(m: MntEnt, rp: Resolver) {
    m.fsType == OVERLAY_NAME && AbsoluteOpts(MountConfig(m)) && Resolvable(MountConfig(m), rp)
  }

  /** The resolved directories of a configuration; an option not given is
      an empty field. */
  function SlotOf(cfg: Config, rp: Resolver): (r: Slot)
    requires Resolvable(cfg, rp)
    ensures Initialised(r)
  {
    Slot(if cfg.lowerdir.Some? then Val(ResolveLowerdirs(cfg.lowerdir.value, rp).dirs) else Null,
         if cfg.upperdir.Some? then Val(rp[cfg.upperdir.value]) else Null,
         if cfg.workdir.Some? then Val(rp[cfg.workdir.value]) else Null)
  }

  /** The slots of the eligible lines of a mount table, in table order. */
  function EligibleSlots(mounts: seq<MntEnt>, rp: Resolver): seq<Slot>
    decreases |mounts|
  {
    if |mounts| == 0 then []
    else (if Eligible(mounts[0], rp) then [SlotOf(MountConfig(mounts[0]), rp)] else [])
         + EligibleSlots(mounts[1..], rp)
  }

  /** ovl_get_dirs into a zeroed slot: a failure leaves it zeroed, a success
      fills exactly the fields the options give. */
  lemma GetDirsCleared(cfg: Config, rp: Resolver)
    ensures GetDirs(cfg, Cleared, rp)
         == Ok((Resolvable(cfg, rp), if Resolvable(cfg, rp) then SlotOf(cfg, rp) else Cleared))
  {
  }

  /** From a zeroed slot `i`, the mount loop keeps exactly the slots of the
      eligible lines, provided every slot it moves on to is zeroed too:
      all blocks are, or fewer than ALLOC_NUM - i lines are kept. */
  lemma {:induction false} CollectZeroed(mounts: seq<MntEnt>, rp: Resolver, i: nat, zeroed: bool)
    requires zeroed || i + |EligibleSlots(mounts, rp)| < ALLOC_NUM
    ensures CollectMounts(mounts, rp, i, Cleared, zeroed) == Ok(EligibleSlots(mounts, rp))
    decreases |mounts|
  {
    if |mounts| > 0 {
      var m := mounts[0];
      GetDirsCleared(MountConfig(m), rp);
      if Eligible(m, rp) {
        var s := SlotOf(MountConfig(m), rp);
        assert EligibleSlots(mounts, rp) == [s] + EligibleSlots(mounts[1..], rp);
        assert FreshSlot(i + 1, zeroed) == Cleared;
        CollectZeroed(mounts[1..], rp, i + 1, zeroed);
        assert CollectMounts(mounts, rp, i, Cleared, zeroed) == Ok([s] + EligibleSlots(mounts[1..], rp));
      } else {
        assert EligibleSlots(mounts, rp) == [] + EligibleSlots(mounts[1..], rp) == EligibleSlots(mounts[1..], rp);
        CollectZeroed(mounts[1..], rp, i, zeroed);
        assert CollectMounts(mounts, rp, i, Cleared, zeroed) == CollectMounts(mounts[1..], rp, i, Cleared, zeroed);
      }
    }
  }

  /** ovl_scan_mount_init with every slot zeroed, as evidently intended: one
      slot per eligible line of the table, in order, each holding what
      realpath made of that line's options. */
  function ScanMounts(mounts: seq<MntEnt>, rp: Resolver): (r: Result<seq<Slot>>)
    ensures r == Ok(EligibleSlots(mounts, rp))
    ensures r.Ok? && forall i | 0 <= i < |r.value| :: Initialised(r.value[i])
  {
    CollectZeroed(mounts, rp, 0, true);
    EligibleSlotsInitialised(mounts, rp);
    CollectMounts(mounts, rp, 0, Cleared, true)
  }

  lemma {:induction false} EligibleSlotsInitialised(mounts: seq<MntEnt>, rp: Resolver)
    ensures forall i | 0 <= i < |EligibleSlots(mounts, rp)| :: Initialised(EligibleSlots(mounts, rp)[i])
    decreases |mounts|
  {
    if |mounts| > 0 {
      EligibleSlotsInitialised(mounts[1..], rp);
    }
  }

  /** The directories fsck is asked to check, resolved. */
  datatype Dirs = Dirs(lowerdirs: seq<string>, upperdir: Option<string>, workdir: Option<string>)

  /** Some lowerdir of the mount is one of ours. */
  predicate SharesLower(ds: seq<string>, ours: seq<string>) {
    exists j, k | 0 <= j < |ds| && 0 <= k < |ours| :: ds[j] == ours[k]
  }

  /** The comparison of mount.c:336-361 for one mount: a shared lowerdir,
      or the same upperdir, or the same workdir. A field read before it was
      ever written is a fault. */
  function MatchSlot(s: Slot, mine: Dirs): (r: Result<bool>)
    ensures Initialised(s) ==> r.Ok?
    ensures r.Ok? && r.value ==>
      || (s.lower.Val? && SharesLower(s.lower.v, mine.lowerdirs))
      || (mine.upperdir.Some? && s.upper == Val(mine.upperdir.value))
      || (mine.workdir.Some? && s.work == Val(mine.workdir.value))
    ensures Initialised(s) ==> (r.value <==>
      || (s.lower.Val? && SharesLower(s.lower.v, mine.lowerdirs))
      || (mine.upperdir.Some? && s.upper == Val(mine.upperdir.value))
      || (mine.workdir.Some? && s.work == Val(mine.workdir.value)))
  {
    if s.lower.Garbage? then Err(UninitRead)
    else
      var lowerHit := match s.lower
        case Val(ds) => SharesLower(ds, mine.lowerdirs)
        case _ => false;
      if lowerHit then Ok(true)
      else if mine.upperdir.Some? && s.upper.Garbage? then Err(UninitRead)
      else if mine.upperdir.Some? && s.upper == Val(mine.upperdir.value) then Ok(true)
      else if mine.workdir.Some? && s.work.Garbage? then Err(UninitRead)
      else Ok(mine.workdir.Some? && s.work == Val(mine.workdir.value))
  }

  /** The mount loop of ovl_check_mount (mount.c:334-362): the first mount
      that matches, or a fault, decides. */
  function AnyMounted(slots: seq<Slot>, mine: Dirs): (r: Result<bool>)
    ensures (forall i | 0 <= i < |slots| :: Initialised(slots[i])) ==>
      r.Ok? && (r.value <==> exists i | 0 <= i < |slots| :: MatchSlot(slots[i], mine) == Ok(true))
    decreases |slots|
  {
    if |slots| == 0 then Ok(false)
    else
      match MatchSlot(slots[0], mine)
      case Err(f) => Err(f)
      case Ok(true) => Ok(true)
      case Ok(false) =>
        var r := AnyMounted(slots[1..], mine);
        assert forall i | 1 <= i < |slots| :: slots[1..][i - 1] == slots[i];
        r
  }

  /** The mount table line `m` keeps a slot, and that mount uses one of our
      directories: a lowerdir we share, or our upperdir or workdir, after
      realpath. */
  predicate Uses(m: MntEnt, rp: Resolver, mine: Dirs) {
    && Eligible(m, rp)
    && var cfg := MountConfig(m);
    || (cfg.lowerdir.Some? && SharesLower(ResolveLowerdirs(cfg.lowerdir.value, rp).dirs, mine.lowerdirs))
    || (cfg.upperdir.Some? && mine.upperdir == Some(rp[cfg.upperdir.value]))
    || (cfg.workdir.Some? && mine.workdir == Some(rp[cfg.workdir.value]))
  }

  /** Some line of the mount table uses one of our directories. */
  predicate Mounted(mounts: seq<MntEnt>, rp: Resolver, mine: Dirs) {
    exists i | 0 <= i < |mounts| :: Uses(mounts[i], rp, mine)
  }

  /** The slot of an eligible line matches exactly when the line uses one of
      our directories. */
  lemma MatchSlotOf(m: MntEnt, rp: Resolver, mine: Dirs)
    requires Eligible(m, rp)
    ensures MatchSlot(SlotOf(MountConfig(m), rp), mine) == Ok(Uses(m, rp, mine))
  {
  }

  lemma {:induction false} AnyMountedTable(mounts: seq<MntEnt>, rp: Resolver, mine: Dirs)
    ensures AnyMounted(EligibleSlots(mounts, rp), mine) == Ok(Mounted(mounts, rp, mine))
    decreases |mounts|
  {
    if |mounts| > 0 {
      var m := mounts[0];
      var rest := EligibleSlots(mounts[1..], rp);
      AnyMountedTable(mounts[1..], rp, mine);
      assert forall i | 1 <= i < |mounts| :: mounts[1..][i - 1] == mounts[i];
      assert Mounted(mounts, rp, mine) <==> Uses(m, rp, mine) || Mounted(mounts[1..], rp, mine) by {
        if Mounted(mounts[1..], rp, mine) {
          var j :| 0 <= j < |mounts[1..]| && Uses(mounts[1..][j], rp, mine);
          assert Uses(mounts[j + 1], rp, mine);
        }
      }
      if Eligible(m, rp) {
        var s := SlotOf(MountConfig(m), rp);
        MatchSlotOf(m, rp, mine);
        assert EligibleSlots(mounts, rp) == [s] + rest;
        assert ([s] + rest)[1..] == rest;
      } else {
        assert EligibleSlots(mounts, rp) == rest;
      }
    }
  }

  /** ovl_check_mount (mount.c:321-370) with zeroed slots: an unreadable
      mount table (None) is an error; otherwise never a fault, and true
      exactly when a line of the table uses one of our directories. */
  function CheckMount(table: Option<seq<MntEnt>>, rp: Resolver, mine: Dirs): (r: Result<bool>)
    ensures table.None? ==> r == Err(Io)
    ensures table.Some? ==> r == Ok(Mounted(table.value, rp, mine))
  {
    match table
    case None => Err(Io)
    case Some(mounts) =>
      AnyMountedTable(mounts, rp, mine);
      AnyMounted(ScanMounts(mounts, rp).value, mine)
  }

  /** ovl_check_mount as written: slots past the first block are not
      zeroed. */
  function CheckMountAsWritten(table: Option<seq<MntEnt>>, rp: Resolver, mine: Dirs): Result<bool> {
    match table
    case None => Err(Io)
    case Some(mounts) =>
      match ScanMountsAsWritten(mounts, rp)
      case Err(f) => Err(f)
      case Ok(slots) => AnyMounted(slots, mine)
  }

  /** With fewer than ALLOC_NUM lines kept, every slot the mount loop writes
      came zeroed from smalloc, so the code as written gives the same slots
      and the same answer as the zeroed model. */
  lemma AsWrittenWithinFirstBlock(mounts: seq<MntEnt>, rp: Resolver, mine: Dirs)
    requires |EligibleSlots(mounts, rp)| < ALLOC_NUM
    ensures ScanMountsAsWritten(mounts, rp) == ScanMounts(mounts, rp)
    ensures CheckMountAsWritten(Some(mounts), rp, mine) == CheckMount(Some(mounts), rp, mine)
  {
    CollectZeroed(mounts, rp, 0, false);
  }
}

=== FILE: paths.dfy ===
/** The path helpers of path.c, together with the dirname(3) of the GNU C
    library that the lookup engine iterates. Strings are C strings without
    their terminating NUL. */
module Paths {

  /** A path the kernel resolves from the root instead of from a directory handle. */
  predicate IsAbsolute(p: string) {
    |p| > 0 && p[0] == '/'
  }

  /** `s` with every leading "./" pair removed (path.c:73-74). */
  function DropDotSlash(s: string): (r: string)
    ensures |r| <= |s|
    ensures !(|r| >= 2 && r[0] == '.' && r[1] == '/')
    ensures !(|s| >= 2 && s[0] == '.' && s[1] == '/') ==> r == s
    decreases |s|
  {
    if |s| >= 2 && s[0] == '.' && s[1] == '/' then DropDotSlash(s[2..]) else s
  }

  /** `s` with every leading '/' removed (path.c:75 and path.c:118). */
  function DropSlashes(s: string): (r: string)
    ensures |r| <= |s|
    ensures |r| == 0 || r[0] != '/'
    ensures forall i | 0 <= i < |s| - |r| :: s[i] == '/'
    ensures |s| == 0 || s[0] != '/' ==> r == s
    decreases |s|
  {
    if |s| > 0 && s[0] == '/' then DropSlashes(s[1..]) else s
  }

  /** What DropSlashes leaves is a final part of its argument. */
  lemma {:induction false} DropSlashesSuffix(s: string)
    ensures DropSlashes(s) == s[|s| - |DropSlashes(s)|..]
    decreases |s|
  {
    if |s| > 0 && s[0] == '/' {
      DropSlashesSuffix(s[1..]);
    }
  }

  /** The directory part joinname keeps: "." counts as empty, leading "./" go. */
  function JoinHead(path: string): string {
    DropDotSlash(if path == "." then "" else path)
  }

  /** The name part joinname keeps: "." counts as empty, leading "./" and '/' go. */
  function JoinTail(name: string): string {
    DropSlashes(DropDotSlash(if name == "." then "" else name))
  }

  /** joinname (path.c:56-103). */
  function Joinname(path: string, name: string): (r: string)
    ensures r != ""
  {
    var head := JoinHead(path);
    var tail := JoinTail(name);
    if head == "" && tail == "" then "."
    else if head != "" && tail != "" && head[|head| - 1] != '/' then head + "/" + tail
    else head + tail
  }

  /** What joinname promises (path.c:64-103): "." and the empty string count
      as empty; with both parts empty the result is "."; with one part empty
      it is the other; otherwise the result starts with the directory part,
      ends with the name part, and has one '/' between them exactly when the
      directory part does not already end in one. */
  lemma JoinnameCases(path: string, name: string)
    ensures var h, t, r := JoinHead(path), JoinTail(name), Joinname(path, name);
      && (h == "" && t == "" ==> r == ".")
      && (h == "" && t != "" ==> r == t)
      && (h != "" && t == "" ==> r == h)
      && (h != "" && t != "" ==>
            && |r| == |h| + |t| + (if h[|h| - 1] == '/' then 0 else 1)
            && r[..|h|] == h
            && r[|r| - |t|..] == t)
  {
    var h, t := JoinHead(path), JoinTail(name);
    if h != "" && t != "" {
      var r := Joinname(path, name);
      if h[|h| - 1] == '/' {
        assert r == h + t;
      } else {
        assert r == h + "/" + t;
      }
      assert r[..|h|] == h;
      assert r[|r| - |t|..] == t;
    }
  }

  /** The examples in the comment above joinname (path.c:38-46). */
  lemma JoinnameExamples()
    ensures Joinname("/usr", "lib") == "/usr/lib"
    ensures Joinname("/usr", ".") == "/usr"
    ensures Joinname("/usr", "..") == "/usr/.."
    ensures Joinname(".", "lib") == "lib"
    ensures Joinname("..", "lib") == "../lib"
    ensures Joinname(".", ".") == "."
    ensures Joinname("..", "..") == "../.."
  {
    assert JoinTail("lib") == "lib";
    assert JoinTail("..") == "..";
    assert JoinHead("/usr") == "/usr";
    assert JoinHead("..") == "..";
  }

  /** How many leading characters of `dir` basename2 compares (path.c:108-115):
      all of them, except that a leading '.' makes it none and one trailing '/'
      is not compared. */
  function PrefixLen(dir: string): (n: nat)
    ensures n <= |dir|
    ensures |dir| > 0 && dir[0] == '.' ==> n == 0
    ensures |dir| > 0 && dir[0] != '.' ==> n == |dir| - (if dir[|dir| - 1] == '/' then 1 else 0)
  {
    var lend := if |dir| > 0 && dir[0] == '.' then 0 else |dir|;
    if lend > 0 && dir[lend - 1] == '/' then lend - 1 else lend
  }

  /** The prefix length basename2 evidently means: only the directory "."
      (the layer root) is an empty prefix; a name such as ".cache" is
      compared like any other. */
  function PrefixLenFixed(dir: string): (n: nat)
    ensures n <= |dir|
    ensures dir == "." ==> n == 0
    ensures dir != "." && |dir| > 0 ==> n == |dir| - (if dir[|dir| - 1] == '/' then 1 else 0)
  {
    var lend := if dir == "." then 0 else |dir|;
    if lend > 0 && dir[lend - 1] == '/' then lend - 1 else lend
  }

  /** What basename2 returns once the prefix length is chosen: the part of
      `path` after the first `n` characters of `dir`, without leading '/',
      or "." when nothing is left; `path` itself when `dir` is not a prefix. */
  function TailAfter(path: string, dir: string, n: nat): (r: string)
    requires n <= |dir|
    ensures r != "" || path == ""
    ensures n <= |path| && path[..n] == dir[..n] ==>
      (r == "." && DropSlashes(path[n..]) == "") || r == DropSlashes(path[n..])
    ensures !(n <= |path| && path[..n] == dir[..n]) ==> r == path
  {
    if n <= |path| && path[..n] == dir[..n] then
      var rest := DropSlashes(path[n..]);
      if rest == "" then "." else rest
    else path
  }

  /** `r` is a final part of `s`. */
  predicate SuffixOf(r: string, s: string) {
    |r| <= |s| && s[|s| - |r|..] == r
  }

  lemma TailAfterSuffix(path: string, dir: string, n: nat)
    requires n <= |dir|
    ensures var r := TailAfter(path, dir, n);
      r == "." || (SuffixOf(r, path) && (r == path || (r != "" && r[0] != '/')))
  {
    if n <= |path| && path[..n] == dir[..n] {
      var t := path[n..];
      DropSlashesSuffix(t);
      assert t[|t| - |DropSlashes(t)|..] == path[|path| - |DropSlashes(t)|..];
    }
  }

  /** basename2 (path.c:105-125), as written: "." or a final part of the
      path, which is the whole path or does not start with '/'. The
      directory itself gives "." only when it does not start with '.'. */
  function Basename2(path: string, dir: string): (r: string)
    ensures r == "." || (SuffixOf(r, path) && (r == path || (r != "" && r[0] != '/')))
    ensures path == dir && dir != "" && dir[0] != '.' ==> r == "."
  {
    TailAfterSuffix(path, dir, PrefixLen(dir));
    TailAfter(path, dir, PrefixLen(dir))
  }

  /** basename2 with the prefix rule corrected (see PrefixLenFixed): the
      directory itself always gives ".". */
  function Basename2Fixed(path: string, dir: string): (r: string)
    ensures r == "." || (SuffixOf(r, path) && (r == path || (r != "" && r[0] != '/')))
    ensures path == dir && dir != "" ==> r == "."
  {
    TailAfterSuffix(path, dir, PrefixLenFixed(dir));
    TailAfter(path, dir, PrefixLenFixed(dir))
  }

  /** A name joinname keeps unchanged: not empty, not ".", and not starting
      with '/' or "./". */
  predicate PlainName(n: string) {
    n != "" && n != "." && n[0] != '/' && !(|n| >= 2 && n[0] == '.' && n[1] == '/')
  }

  /** One separator in front of a name that does not start with '/' is
      exactly what DropSlashes removes. */
  lemma DropOneSlash(n: string)
    requires n == "" || n[0] != '/'
    ensures DropSlashes("/" + n) == n
  {
    assert ("/" + n)[1..] == n;
  }

  /** Joining a directory and a plain name puts exactly one '/' between them. */
  lemma JoinPlain(d: string, n: string)
    requires d != "" && d != "." && d[|d| - 1] != '/' && !(|d| >= 2 && d[0] == '.' && d[1] == '/')
    requires PlainName(n)
    ensures Joinname(d, n) == d + "/" + n
  {
    assert JoinHead(d) == d;
    assert JoinTail(n) == n;
  }

  /** The tail of `d + "/" + n` after the first |d| characters of `d` is `n`. */
  lemma TailOfJoined(d: string, n: string)
    requires PlainName(n)
    ensures TailAfter(d + "/" + n, d, |d|) == n
  {
    var j := d + "/" + n;
    assert j[..|d|] == d[..|d|];
    assert j[|d|..] == "/" + n;
    DropOneSlash(n);
  }

  /** Joining a directory and a name and taking basename2 relative to the
      directory gives the name back, for a directory that does not start
      with '.' (path.c:93-98, 117-121). */
  lemma JoinThenBasename(d: string, n: string)
    requires d != "" && d[0] != '.' && d[|d| - 1] != '/'
    requires PlainName(n)
    ensures Joinname(d, n) == d + "/" + n
    ensures Basename2(Joinname(d, n), d) == n
  {
    JoinPlain(d, n);
    TailOfJoined(d, n);
  }

  /** The corrected basename2 completes the same round trip for every
      directory joinname keeps as it is, hidden names such as ".cache"
      included. */
  lemma JoinThenBasenameFixed(d: string, n: string)
    requires d != "" && d != "." && d[|d| - 1] != '/' && !(|d| >= 2 && d[0] == '.' && d[1] == '/')
    requires PlainName(n)
    ensures Joinname(d, n) == d + "/" + n
    ensures Basename2Fixed(Joinname(d, n), d) == n
  {
    JoinPlain(d, n);
    TailOfJoined(d, n);
  }

  /** As written, basename2 does not strip a directory whose name starts
      with '.': the whole path comes back, where the corrected version
      gives the last component. */
  lemma HiddenDirectoryNotStripped()
    ensures Basename2(".cache/x", ".cache") == ".cache/x"
    ensures Basename2Fixed(".cache/x", ".cache") == "x"
  {
    assert ".cache/x"[..0] == ".cache"[..0];
    TailOfJoined(".cache", "x");
    assert ".cache" + "/" + "x" == ".cache/x";
  }

  /** Largest index below `n` holding '/', or -1 (strrchr / memrchr). */
  function LastSlash(p: string, n: nat): (r: int)
    requires n <= |p|
    ensures -1 <= r < n
    ensures r >= 0 ==> p[r] == '/'
    ensures forall i | r < i < n :: p[i] != '/'
  {
    if n == 0 then -1 else if p[n - 1] == '/' then n - 1 else LastSlash(p, n - 1)
  }

  /** First index of the run of slashes that ends at `k`. */
  function SlashRunStart(p: string, k: nat): (r: nat)
    requires k < |p| && p[k] == '/'
    ensures r <= k
    ensures forall i | r <= i <= k :: p[i] == '/'
    ensures r == 0 || p[r - 1] != '/'
  {
    if k > 0 && p[k - 1] == '/' then SlashRunStart(p, k - 1) else k
  }

  /** dirname(3) as the GNU C library computes it (misc/dirname.c). */
  function Dirname(p: string): (r: string)
    ensures r != ""
  {
    var last0 := LastSlash(p, |p|);
    var last :=
      if 0 < last0 && last0 == |p| - 1 then
        (var run := SlashRunStart(p, last0); if run != 0 then LastSlash(p, run) else last0)
      else last0;
    if last < 0 then "."
    else
      var run := SlashRunStart(p, last);
      if run == 0 then (if last == 1 then "//" else "/")
      else p[..run]
  }

  /** The parent of a relative path is "." or a shorter relative proper prefix
      of it that does not end in '/'. */
  lemma DirnameOfRelative(p: string)
    requires !IsAbsolute(p)
    ensures var d := Dirname(p);
      d == "." || (d < p && |d| < |p| && !IsAbsolute(d) && d[|d| - 1] != '/')
  {
    var last0 := LastSlash(p, |p|);
    var last :=
      if 0 < last0 && last0 == |p| - 1 then
        (var run := SlashRunStart(p, last0); if run != 0 then LastSlash(p, run) else last0)
      else last0;
  }

  /** The parent of `d + "/" + n`, for a name `n` without '/', is `d`. */
  lemma DirnameOfChild(d: string, n: string)
    requires d != "" && d[|d| - 1] != '/'
    requires n != "" && forall i | 0 <= i < |n| :: n[i] != '/'
    ensures Dirname(d + "/" + n) == d
  {
    var p := d + "/" + n;
    assert p[|d|] == '/';
    assert forall i | |d| < i < |p| :: p[i] == n[i - |d| - 1];
    var last := LastSlash(p, |p|);
    assert last == |d|;
    assert SlashRunStart(p, |d|) == |d|;
    assert p[..|d|] == d;
  }

  /** The ancestors the walk of check.c:268-297 visits: dirname of the path,
      then dirname of that, and so on until dirname gives ".". */
  function Ancestors(p: string): (r: seq<string>)
    requires !IsAbsolute(p)
    ensures |r| > 0 <==> Dirname(p) != "."
    ensures |r| > 0 ==> r[0] == Dirname(p)
    decreases |p|
  {
    DirnameOfRelative(p);
    var d := Dirname(p);
    if d == "." then [] else [d] + Ancestors(d)
  }

  /** Each ancestor is the parent of the one before it, and the last one
      has "." as its parent: the walk climbs one level at a time up to the
      layer root. */
  lemma {:induction false} AncestorsChain(p: string)
    requires !IsAbsolute(p)
    ensures var r := Ancestors(p);
      && (forall i | 0 < i < |r| :: r[i] == Dirname(r[i - 1]))
      && (|r| > 0 ==> Dirname(r[|r| - 1]) == ".")
    decreases |p|
  {
    DirnameOfRelative(p);
    var d := Dirname(p);
    if d != "." {
      AncestorsChain(d);
      assert Ancestors(p) == [d] + Ancestors(d);
      ChainCons(d, Ancestors(d));
    }
  }

  /** Putting a directory in front of the chain of its own ancestors keeps
      it a chain. */
  lemma ChainCons(d: string, rest: seq<string>)
    requires |rest| > 0 <==> Dirname(d) != "."
    requires |rest| > 0 ==> rest[0] == Dirname(d) && Dirname(rest[|rest| - 1]) == "."
    requires forall i | 0 < i < |rest| :: rest[i] == Dirname(rest[i - 1])
    ensures var r := [d] + rest;
      && (forall i | 0 < i < |r| :: r[i] == Dirname(r[i - 1]))
      && Dirname(r[|r| - 1]) == "."
  {
    var r := [d] + rest;
    forall i | 0 < i < |r|
      ensures r[i] == Dirname(r[i - 1])
    {
      assert r[i] == rest[i - 1];
      if i > 1 {
        assert r[i - 1] == rest[i - 2];
      }
    }
    if |rest| > 0 {
      assert r[|r| - 1] == rest[|rest| - 1];
    }
  }


  /** Every ancestor is a proper prefix of the path, and not ".". */
  lemma {:induction false} AncestorsArePrefixes(p: string)
    requires !IsAbsolute(p)
    ensures forall i | 0 <= i < |Ancestors(p)| :: Ancestors(p)[i] < p && Ancestors(p)[i] != "."
    decreases |p|
  {
    DirnameOfRelative(p);
    var d := Dirname(p);
    if d != "." {
      AncestorsArePrefixes(d);
      var r := Ancestors(p);
      var rest := Ancestors(d);
      assert r == [d] + rest;
      forall i | 0 <= i < |r|
        ensures r[i] < p && r[i] != "."
      {
        if i > 0 {
          assert r[i] == rest[i - 1];
          PrefixTransitive(rest[i - 1], d, p);
        }
      }
    }
  }

  /** A proper prefix of a proper prefix is a proper prefix. */
  lemma PrefixTransitive(a: string, d: string, p: string)
    requires a < d && d < p
    ensures a < p
  {
    assert a == d[..|a|];
    assert d == p[..|d|];
  }
}

=== FILE: registry.dfy ===
/** The registry of valid redirect directories (check.c:444-545): a list,
    newest first, of the redirect directories already accepted, each with the
    lower directory its redirect resolves to. Two redirect directories that
    resolve to the same lower directory are duplicates. */
module Registry {
  import opened Util
  import opened Layers

  /** struct ovl_redirect_entry (check.c:67-75): the redirect directory
      `pathname` in layer `place` resolves to `origin` in lower layer `ostack`. */
  datatype RedirectEntry = RedirectEntry(pathname: string, place: Place, origin: string, ostack: nat)

  /** Find and delete match on the origin path and its layer (check.c:480, 502). */
  predicate Matches(e: RedirectEntry, origin: string, ostack: nat) {
    e.ostack == ostack && e.origin == origin
  }

  /** No two entries share an origin. */
  predicate Unique(reg: seq<RedirectEntry>) {
    forall i, j | 0 <= i < j < |reg| :: !Matches(reg[j], reg[i].origin, reg[i].ostack)
  }

  /** ovl_redirect_entry_add (check.c:447-466): list_add inserts at the head. */
  function Add(reg: seq<RedirectEntry>, e: RedirectEntry): (r: seq<RedirectEntry>)
    ensures |r| == |reg| + 1 && r[0] == e && r[1..] == reg
  {
    [e] + reg
  }

  /** Index of the first entry matching the key, if any. */
  function FirstMatch(reg: seq<RedirectEntry>, origin: string, ostack: nat): (r: int)
    ensures -1 <= r < |reg|
    ensures r >= 0 ==> Matches(reg[r], origin, ostack)
    ensures forall i | 0 <= i < |reg| && (r < 0 || i < r) :: !Matches(reg[i], origin, ostack)
  {
    if |reg| == 0 then -1
    else if Matches(reg[0], origin, ostack) then 0
    else
      var k := FirstMatch(reg[1..], origin, ostack);
      if k < 0 then -1 else k + 1
  }

  /** ovl_redirect_entry_find (check.c:468-492): the first matching entry. */
  function Find(reg: seq<RedirectEntry>, origin: string, ostack: nat): (r: Option<RedirectEntry>)
    ensures r.None? <==> forall i | 0 <= i < |reg| :: !Matches(reg[i], origin, ostack)
    ensures r.Some? ==> r.value in reg && Matches(r.value, origin, ostack)
    ensures r.Some? ==> exists i | 0 <= i < |reg| ::
      reg[i] == r.value && forall j | 0 <= j < i :: !Matches(reg[j], origin, ostack)
  {
    var k := FirstMatch(reg, origin, ostack);
    if k < 0 then None else Some(reg[k])
  }

  /** ovl_redirect_entry_del (check.c:494-517): remove the first matching
      entry; nothing happens when none matches. */
  function Del(reg: seq<RedirectEntry>, origin: string, ostack: nat): (r: seq<RedirectEntry>)
    ensures Find(reg, origin, ostack).None? ==> r == reg
    ensures Find(reg, origin, ostack).Some? ==>
      |r| == |reg| - 1
      && multiset(r) + multiset{Find(reg, origin, ostack).value} == multiset(reg)
    ensures |r| <= |reg| && forall e | e in r :: e in reg
  {
    var k := FirstMatch(reg, origin, ostack);
    if k < 0 then reg
    else
      assert reg == reg[..k] + [reg[k]] + reg[k + 1..];
      reg[..k] + reg[k + 1..]
  }

  /** After an add of a key the registry did not hold, finding that key gives
      the new entry and the registry is still free of duplicates; every other
      key is found as before. */
  lemma AddKeepsUnique(reg: seq<RedirectEntry>, e: RedirectEntry)
    requires Unique(reg) && Find(reg, e.origin, e.ostack).None?
    ensures Unique(Add(reg, e))
    ensures Find(Add(reg, e), e.origin, e.ostack) == Some(e)
    ensures forall o, s | !Matches(e, o, s) :: Find(Add(reg, e), o, s) == Find(reg, o, s)
  {
    var r := Add(reg, e);
    forall i, j | 0 <= i < j < |r|
      ensures !Matches(r[j], r[i].origin, r[i].ostack)
    {
      if i > 0 {
        assert r[i] == reg[i - 1] && r[j] == reg[j - 1];
      } else {
        assert r[j] == reg[j - 1];
      }
    }
  }

  /** Deleting a key from a registry without duplicates removes it entirely,
      keeps the registry free of duplicates, and leaves every other key as it
      was. */
  lemma {:induction false} DelRemovesKey(reg: seq<RedirectEntry>, origin: string, ostack: nat)
    requires Unique(reg)
    ensures Unique(Del(reg, origin, ostack))
    ensures Find(Del(reg, origin, ostack), origin, ostack).None?
    ensures forall o, s | o != origin || s != ostack :: Find(Del(reg, origin, ostack), o, s) == Find(reg, o, s)
  {
    var k := FirstMatch(reg, origin, ostack);
    if k >= 0 {
      var r := Del(reg, origin, ostack);
      assert r == reg[..k] + reg[k + 1..];
      assert forall i | 0 <= i < |r| :: r[i] == (if i < k then reg[i] else reg[i + 1]);
      forall i | 0 <= i < |r|
        ensures !Matches(r[i], origin, ostack)
      {
        if i >= k {
          assert r[i] == reg[i + 1];
          assert !Matches(reg[i + 1], reg[k].origin, reg[k].ostack);
        }
      }
      forall o, s | o != origin || s != ostack
        ensures Find(r, o, s) == Find(reg, o, s)
      {
        FirstMatchAfterDel(reg, k, o, s);
      }
    }
  }

  /** Removing an entry that does not match a key does not change which entry
      is first for that key. */
  lemma FirstMatchAfterDel(reg: seq<RedirectEntry>, k: nat, o: string, s: nat)
    requires k < |reg| && !Matches(reg[k], o, s)
    ensures var r := reg[..k] + reg[k + 1..];
      var m := FirstMatch(reg, o, s);
      (m < 0 ==> FirstMatch(r, o, s) < 0)
      && (m >= 0 ==> FirstMatch(r, o, s) >= 0 && r[FirstMatch(r, o, s)] == reg[m])
  {
    var r := reg[..k] + reg[k + 1..];
    assert forall i | 0 <= i < |r| :: r[i] == (if i < k then reg[i] else reg[i + 1]);
    var m := FirstMatch(reg, o, s);
    if m >= 0 {
      var want := if m < k then m else m - 1;
      assert r[want] == reg[m];
    }
  }
}

=== FILE: scan.dfy ===
/** The scan driver: scan_dir and scan_entry_init (lib.c:175-249) walk one
    layer and dispatch each entry to a check; ovl_scan_fix (check.c:821-936)
    runs two passes over every layer. The order in which fts_read returns
    the entries of a layer is not something the model computes: each walk is
    a parameter, and a missing walk is an fts_open failure. */
module Scan {
  import opened Util
  import opened Status
  import opened Paths
  import opened Layers
  import opened Registry
  import opened Checks

  /** fts_info of an entry returned by fts_read. */
  datatype FtsInfo = D | Dc | Default | Dnr | Dot | Dp | Error | F | Ns | Nsok | Sl | SlNone

  /** An entry of the walk: its fts_info, its full path (fts_path, which
      begins with the layer root) and the file type of its stat. */
  datatype FtsEnt = FtsEnt(info: FtsInfo, path: string, kind: Kind)

  /** The entries on which scan_dir gives up (lib.c:237-243). */
  predicate IsReadError(e: FtsEnt) {
    e.info.Ns? || e.info.Dnr? || e.info.Error?
  }

  predicate IsFileEnt(e: FtsEnt) { e.info.F? }

  predicate IsDirEnt(e: FtsEnt) { e.info.D? }

  /** The walks of every pass and layer; a missing key is an fts_open failure. */
  type Walks = map<(nat, Place), seq<FtsEnt>>

  /** The layer root directories, as fsck resolved them. */
  datatype Roots = Roots(upperdir: string, lowerdirs: seq<string>)

  function RootOf(roots: Roots, pl: Place): string {
    match pl
    case Upper => roots.upperdir
    case Lower(s) => if s < |roots.lowerdirs| then roots.lowerdirs[s] else ""
  }

  /** The two overlays have the same layers. */
  predicate SameShape(a: Overlay, b: Overlay) {
    |a.lowers| == |b.lowers| && a.upper.Some? == b.upper.Some?
  }

  /** The checks that may change the state of pass `pass` (ovl_scan_ops,
      check.c:821-840): pass 0 checks redirect directories, pass 1
      whiteouts. The impurity operations are listed for the upper layer but
      scan_dir never calls them. */
  predicate Active(pass: nat, e: FtsEnt) {
    (pass == 0 && e.info.D?) || (pass == 1 && e.info.Default?)
  }

  /** The counters the checks of pass `pass` leave alone: no check changes
      the impurity count, redirect checking (pass 0) leaves the invalid
      whiteout count alone and whiteout checking (pass 1) both redirect
      counts. */
  predicate Carries(pass: nat, a: Counters, b: Counters) {
    && b.mImpure == a.mImpure
    && (pass == 0 ==> b.iWhiteouts == a.iWhiteouts)
    && (pass == 1 ==> b.tRedirects == a.tRedirects && b.iRedirects == a.iRedirects)
  }

  /** One loop iteration of scan_dir (lib.c:203-244) for the entry `e`: the
      path relative to the layer root `root` (scan_entry_init), then the
      dispatch on fts_info. */
  function Visit(st: State, flags: bv32, pass: nat, pl: Place, root: string, e: FtsEnt): (r: Done)
    requires pass < OVL_SCAN_PASS_MAX && ValidPlace(st.ovl, pl)
    ensures ValidPlace(r.st.ovl, pl) && OnlyLayerChanged(st.ovl, r.st.ovl, pl)
    ensures r.st.ctr.files == st.ctr.files + (if IsFileEnt(e) then 1 else 0)
    ensures r.st.ctr.directories == st.ctr.directories + (if IsDirEnt(e) then 1 else 0)
    ensures IsReadError(e) ==> !r.ok
    ensures !Active(pass, e) ==> r.ok == !IsReadError(e)
    ensures !Active(pass, e) ==> r.st.ovl == st.ovl && r.st.reg == st.reg && r.st.input == st.input
    ensures pass == 0 && e.info.D? ==>
      r == CheckRedirect(st.(ctr := st.ctr.(directories := st.ctr.directories + 1)), flags, pl, Basename2(e.path, root))
    ensures pass == 1 && e.info.Default? ==> r == CheckWhiteout(st, flags, pl, Basename2(e.path, root), e.kind)
    ensures Carries(pass, st.ctr, r.st.ctr)
    ensures pass == 1 ==> r.st.reg == st.reg
    ensures Unique(st.reg) ==> Unique(r.st.reg)
    ensures AssumeNo(flags) ==> r.st.ovl == st.ovl && r.st.input == st.input
  {
    var pathname := Basename2(e.path, root);
    match e.info
    case F => Done(st.(ctr := st.ctr.(files := st.ctr.files + 1)), true)
    case Default =>
      if pass == 1 then CheckWhiteout(st, flags, pl, pathname, e.kind) else Done(st, true)
    case D =>
      var st1 := st.(ctr := st.ctr.(directories := st.ctr.directories + 1));
      if pass == 0 then CheckRedirect(st1, flags, pl, pathname) else Done(st1, true)
    case Ns => Done(st, false)
    case Dnr => Done(st, false)
    case Error => Done(st, false)
    case _ => Done(st, true)
  }

  /** The fts_read loop of scan_dir: visit the entries in order, stopping at
      the first failure. */
  function ScanEntries(st: State, flags: bv32, pass: nat, pl: Place, root: string, ents: seq<FtsEnt>): (r: Done)
    requires pass < OVL_SCAN_PASS_MAX && ValidPlace(st.ovl, pl)
    ensures ValidPlace(r.st.ovl, pl) && OnlyLayerChanged(st.ovl, r.st.ovl, pl)
    ensures r.ok ==> forall i | 0 <= i < |ents| :: !IsReadError(ents[i])
    ensures r.ok ==> r.st.ctr.files == st.ctr.files + CountIf(ents, IsFileEnt)
    ensures r.ok ==> r.st.ctr.directories == st.ctr.directories + CountIf(ents, IsDirEnt)
    ensures Carries(pass, st.ctr, r.st.ctr)
    ensures pass == 1 ==> r.st.reg == st.reg
    ensures Unique(st.reg) ==> Unique(r.st.reg)
    ensures AssumeNo(flags) ==> r.st.ovl == st.ovl && r.st.input == st.input
    decreases |ents|
  {
    if |ents| == 0 then Done(st, true)
    else
      var v := Visit(st, flags, pass, pl, root, ents[0]);
      if !v.ok then v
      else ScanEntries(v.st, flags, pass, pl, root, ents[1..])
  }

  /** scan_dir (lib.c:189-249) over the layer `pl` with its walk, if fts_open
      succeeded. */
  function ScanDir(st: State, flags: bv32, pass: nat, pl: Place, root: string, walk: Option<seq<FtsEnt>>): (r: Done)
    requires pass < OVL_SCAN_PASS_MAX && ValidPlace(st.ovl, pl)
    ensures ValidPlace(r.st.ovl, pl) && OnlyLayerChanged(st.ovl, r.st.ovl, pl)
    ensures walk.None? ==> r == Done(st, false)
    ensures r.ok ==>
      && walk.Some?
      && r.st.ctr.files == st.ctr.files + CountIf(walk.value, IsFileEnt)
      && r.st.ctr.directories == st.ctr.directories + CountIf(walk.value, IsDirEnt)
    ensures Carries(pass, st.ctr, r.st.ctr)
    ensures pass == 1 ==> r.st.reg == st.reg
    ensures Unique(st.reg) ==> Unique(r.st.reg)
    ensures AssumeNo(flags) ==> r.st.ovl == st.ovl && r.st.input == st.input
  {
    match walk
    case None => Done(st, false)
    case Some(ents) => ScanEntries(st, flags, pass, pl, root, ents)
  }

  /** The lower layers from the bottom one up. */
  function LowersUp(n: nat): (r: seq<Place>)
    ensures |r| == n
    ensures forall i | 0 <= i < n :: r[i] == Lower(n - 1 - i)
  {
    if n == 0 then [] else [Lower(n - 1)] + LowersUp(n - 1)
  }

  /** The layers one pass scans, in order (check.c:901-927): every lower
      layer from the bottom one up, then the upper layer if there is one. */
  function ScanOrder(o: Overlay): (r: seq<Place>)
    ensures |r| == |o.lowers| + (if o.upper.Some? then 1 else 0)
    ensures forall i | 0 <= i < |o.lowers| :: r[i] == Lower(|o.lowers| - 1 - i)
    ensures o.upper.Some? ==> r[|r| - 1] == Upper
    ensures forall i | 0 <= i < |r| :: ValidPlace(o, r[i])
    ensures forall pl | ValidPlace(o, pl) :: pl in r
  {
    var r := LowersUp(|o.lowers|) + (if o.upper.Some? then [Upper] else []);
    forall pl | ValidPlace(o, pl)
      ensures pl in r
    {
      if pl.Lower? {
        assert r[|o.lowers| - 1 - pl.stack] == pl;
      } else {
        assert r[|r| - 1] == pl;
      }
    }
    r
  }

  /** The walk of `pl` in pass `pass`, if fts_open succeeded. */
  function WalkOf(walks: Walks, pass: nat, pl: Place): Option<seq<FtsEnt>> {
    if (pass, pl) in walks then Some(walks[(pass, pl)]) else None
  }

  /** Number of entries satisfying `p` in the walks of `order` in pass `pass`. */
  function TotalIf(walks: Walks, pass: nat, order: seq<Place>, p: FtsEnt -> bool): nat {
    if |order| == 0 then 0
    else (match WalkOf(walks, pass, order[0])
          case None => 0
          case Some(ents) => CountIf(ents, p))
         + TotalIf(walks, pass, order[1..], p)
  }

  /** The layer loop of one pass: scan every layer of `order`, stopping at
      the first failure. */
  function ScanLayers(st: State, flags: bv32, pass: nat, order: seq<Place>, walks: Walks, roots: Roots): (r: Done)
    requires pass < OVL_SCAN_PASS_MAX
    requires forall i | 0 <= i < |order| :: ValidPlace(st.ovl, order[i])
    ensures SameShape(st.ovl, r.st.ovl)
    ensures forall pl | ValidPlace(st.ovl, pl) && pl !in order :: LayerAt(r.st.ovl, pl) == LayerAt(st.ovl, pl)
    ensures r.ok ==> forall i | 0 <= i < |order| :: (pass, order[i]) in walks
    ensures r.ok ==> r.st.ctr.files == st.ctr.files + TotalIf(walks, pass, order, IsFileEnt)
    ensures r.ok ==> r.st.ctr.directories == st.ctr.directories + TotalIf(walks, pass, order, IsDirEnt)
    ensures Carries(pass, st.ctr, r.st.ctr)
    ensures pass == 1 ==> r.st.reg == st.reg
    ensures Unique(st.reg) ==> Unique(r.st.reg)
    ensures AssumeNo(flags) ==> r.st.ovl == st.ovl && r.st.input == st.input
    decreases |order|
  {
    if |order| == 0 then Done(st, true)
    else
      var pl := order[0];
      var d := ScanDir(st, flags, pass, pl, RootOf(roots, pl), WalkOf(walks, pass, pl));
      if !d.ok then d
      else
        assert forall i | 0 <= i < |order[1..]| :: ValidPlace(d.st.ovl, order[1..][i]);
        ScanLayers(d.st, flags, pass, order[1..], walks, roots)
  }

  /** ovl_scan_check (check.c:866-881): invalid whiteouts or redirect
      directories left, or directories missing the impure xattr, make the
      file system inconsistent; the caller then sets the inconsistency bit
      (Status.SetInconsistency, which is idempotent). */
  predicate LeftInconsistent(ctr: Counters) {
    ctr.iWhiteouts != 0 || ctr.iRedirects != 0 || ctr.mImpure != 0
  }

  /** What ovl_scan_fix leaves: the layers, the counters, the rest of the
      input, whether some pass ended with something left to fix, and
      whether every pass ran to its end. */
  datatype Outcome = Outcome(ovl: Overlay, ctr: Counters, input: string, inconsistent: bool, ok: bool)

  /** One pass (check.c:894-913): the file and directory counts start over,
      every other counter carries on from the previous pass. */
  function ScanPass(st: State, flags: bv32, pass: nat, walks: Walks, roots: Roots): (r: Done)
    requires pass < OVL_SCAN_PASS_MAX
    ensures SameShape(st.ovl, r.st.ovl)
    ensures r.ok ==> r.st.ctr.files == TotalIf(walks, pass, ScanOrder(st.ovl), IsFileEnt)
    ensures r.ok ==> r.st.ctr.directories == TotalIf(walks, pass, ScanOrder(st.ovl), IsDirEnt)
    ensures r.ok ==> forall pl | ValidPlace(st.ovl, pl) :: (pass, pl) in walks
    ensures Carries(pass, st.ctr, r.st.ctr)
    ensures pass == 1 ==> r.st.reg == st.reg
    ensures Unique(st.reg) ==> Unique(r.st.reg)
    ensures AssumeNo(flags) ==> r.st.ovl == st.ovl && r.st.input == st.input
  {
    var st0 := st.(ctr := st.ctr.(files := 0, directories := 0));
    var order := ScanOrder(st.ovl);
    var d := ScanLayers(st0, flags, pass, order, walks, roots);
    assert d.ok ==> forall pl | ValidPlace(st.ovl, pl) :: pl in order;
    d
  }

  /** ovl_scan_fix (check.c:884-936): pass 0 over every layer, then pass 1,
      each followed by ovl_scan_check; a failure ends the scan. The registry
      starts empty and is freed at the end, so it is not part of the
      outcome. */
  function ScanFix(o: Overlay, flags: bv32, input: string, walks: Walks, roots: Roots): (r: Outcome)
    ensures SameShape(o, r.ovl)
    ensures AssumeNo(flags) ==> r.ovl == o && r.input == input
    ensures r.ok ==> forall pl | ValidPlace(o, pl) :: (0, pl) in walks && (1, pl) in walks
    ensures r.ok ==> r.ctr.files == TotalIf(walks, 1, ScanOrder(o), IsFileEnt)
    ensures r.ok ==> r.ctr.directories == TotalIf(walks, 1, ScanOrder(o), IsDirEnt)
    ensures r.ctr.mImpure == 0
    ensures r.ok ==> (r.inconsistent <==> LeftInconsistent(r.ctr))
  {
    var p0 := ScanPass(State(o, Zero, [], input), flags, 0, walks, roots);
    if !p0.ok then Outcome(p0.st.ovl, p0.st.ctr, p0.st.input, false, false)
    else
      var p1 := ScanPass(p0.st, flags, 1, walks, roots);
      assert forall pl | ValidPlace(o, pl) :: ValidPlace(p0.st.ovl, pl);
      var bad := LeftInconsistent(p0.st.ctr) || (p1.ok && LeftInconsistent(p1.st.ctr));
      Outcome(p1.st.ovl, p1.st.ctr, p1.st.input, bad, p1.ok)
  }
}

=== FILE: shell.dfy ===
/** Quoting of a file name for the generated shell scripts (sh.c:23-35): the
    name goes between single quotes, and each single quote inside it is
    closed, given in double quotes, and reopened. The model reads the
    output back with the quoting rules of the POSIX shell to show the name
    arrives as one word, unchanged. */
module Shell {
  import opened Util

  predicate IsQuote(c: char) { c == '\'' }

  /** What one character of the name becomes inside the single quotes. */
  function Esc(c: char): string {
    if c == '\'' then "'\"'\"'" else [c]
  }

  /** The name with every character escaped, without the outer quotes. */
  function QuoteBody(s: string): (r: string)
    ensures |r| == |s| + 4 * CountIf(s, IsQuote)
    decreases |s|
  {
    if |s| == 0 then ""
    else
      assert s == [s[0]] + s[1..];
      CountIfAppend([s[0]], s[1..], IsQuote);
      Esc(s[0]) + QuoteBody(s[1..])
  }

  /** Escaping a concatenation escapes each part. */
  lemma {:induction false} QuoteBodyAppend(a: string, b: string)
    ensures QuoteBody(a + b) == QuoteBody(a) + QuoteBody(b)
    decreases |a|
  {
    if |a| > 0 {
      assert (a + b)[1..] == a[1..] + b;
      QuoteBodyAppend(a[1..], b);
    } else {
      assert a + b == b;
    }
  }

  /** quote (sh.c:23-35) as the text it writes when every write succeeds: one
      character more than the name per character, four more per single
      quote, and the two outer quotes. */
  function Quote(s: string): (r: string)
    ensures |r| == |s| + 2 + 4 * CountIf(s, IsQuote)
    ensures r[0] == '\'' && r[|r| - 1] == '\''
  {
    "'" + QuoteBody(s) + "'"
  }

  /** Where the shell's reader stands: outside quotes, inside single quotes,
      inside double quotes. */
  datatype Mode = Plain | InSingle | InDouble

  /** A character the shell treats specially outside quotes: a blank, an
      operator, an expansion, a glob or an escape. */
  predicate Special(c: char) {
    c in " \t\n;&|<>()$`\\*?[]#~='\""
  }

  /** Prepend a character to a word that was read. */
  function Cons(c: char, w: Option<string>): Option<string> {
    if w.Some? then Some([c] + w.value) else None
  }

  /** Reads `t` as one shell word, following section 2.2 of the POSIX shell
      command language: single quotes keep everything up to the next single
      quote; double quotes keep everything up to the next double quote
      except `\`, `$` and backquote, which would expand; outside quotes a
      special character would split or expand the word. None means the text
      is not one literal word. */
  function ReadWord(t: string, mode: Mode): Option<string>
    decreases |t|
  {
    if |t| == 0 then (if mode == Plain then Some("") else None)
    else
      var c := t[0];
      match mode
      case Plain =>
        if c == '\'' then ReadWord(t[1..], InSingle)
        else if c == '"' then ReadWord(t[1..], InDouble)
        else if Special(c) then None
        else Cons(c, ReadWord(t[1..], Plain))
      case InSingle =>
        if c == '\'' then ReadWord(t[1..], Plain)
        else Cons(c, ReadWord(t[1..], InSingle))
      case InDouble =>
        if c == '"' then ReadWord(t[1..], Plain)
        else if c == '\\' || c == '$' || c == '`' then None
        else Cons(c, ReadWord(t[1..], InDouble))
  }

  /** Inside single quotes, the escape of one character reads back as that
      character, whatever follows. */
  lemma ReadEsc(c: char, t: string)
    ensures ReadWord(Esc(c) + t, InSingle) == Cons(c, ReadWord(t, InSingle))
  {
    var u := Esc(c) + t;
    if c == '\'' {
      var u1, u2, u3, u4 := u[1..], u[2..], u[3..], u[4..];
      assert u1 == "\"'\"'" + t && u2 == "'\"'" + t && u3 == "\"'" + t && u4 == "'" + t;
      assert u1[1..] == u2 && u2[1..] == u3 && u3[1..] == u4 && u4[1..] == t;
      assert ReadWord(u4, Plain) == ReadWord(t, InSingle);
      assert ReadWord(u3, InDouble) == ReadWord(u4, Plain);
      assert ReadWord(u2, InDouble) == Cons('\'', ReadWord(u3, InDouble));
      assert ReadWord(u1, Plain) == ReadWord(u2, InDouble);
    } else {
      assert u[1..] == t;
    }
  }

  /** Prepending to a word read: the result is the character, then the word. */
  lemma ConsAppend(c: char, s: string, w: Option<string>)
    ensures Cons(c, if w.Some? then Some(s + w.value) else None)
      == if w.Some? then Some([c] + s + w.value) else None
  {
    if w.Some? {
      assert [c] + (s + w.value) == [c] + s + w.value;
    }
  }

  /** Inside single quotes, the escaped name reads back as the name. */
  lemma {:induction false} ReadQuoteBody(s: string, rest: string)
    ensures ReadWord(QuoteBody(s) + rest, InSingle) ==
      if ReadWord(rest, InSingle).Some? then Some(s + ReadWord(rest, InSingle).value) else None
    decreases |s|
  {
    var w := ReadWord(rest, InSingle);
    if |s| == 0 {
      assert QuoteBody(s) + rest == rest;
      if w.Some? {
        assert s + w.value == w.value;
      }
    } else {
      var c := s[0];
      var t := QuoteBody(s[1..]) + rest;
      ReadQuoteBody(s[1..], rest);
      assert QuoteBody(s) + rest == Esc(c) + t;
      ReadEsc(c, t);
      ConsAppend(c, s[1..], w);
      assert [c] + s[1..] == s;
    }
  }

  /** The shell reads quote's output as exactly one word, and that word is
      the name: nothing in it splits, expands or globs. */
  lemma QuoteReadsBack(s: string)
    ensures ReadWord(Quote(s), Plain) == Some(s)
  {
    var q := Quote(s);
    assert q[1..] == QuoteBody(s) + "'";
    ReadQuoteBody(s, "'");
    assert ReadWord("'", InSingle) == Some("");
    assert s + "" == s;
  }

  /** Different names give different quoted texts. */
  lemma QuoteInjective(a: string, b: string)
    requires Quote(a) == Quote(b)
    ensures a == b
  {
    QuoteReadsBack(a);
    QuoteReadsBack(b);
  }

  function Min(a: nat, b: nat): nat { if a <= b then a else b }

  /** The quoted name split at its i-th character. */
  lemma QuoteAt(f: string, i: nat)
    requires i < |f|
    ensures QuoteBody(f[..i + 1]) == QuoteBody(f[..i]) + Esc(f[i])
    ensures Quote(f) == "'" + QuoteBody(f[..i + 1]) + QuoteBody(f[i + 1..]) + "'"
  {
    var a, b := f[..i + 1], f[i + 1..];
    QuoteBodyAppend(f[..i], [f[i]]);
    QuoteBodyAppend(a, b);
    assert f[..i] + [f[i]] == a;
    assert a + b == f;
    assert QuoteBody([f[i]]) == Esc(f[i]) + QuoteBody([]);
    assert Quote(f) == "'" + (QuoteBody(a) + QuoteBody(b)) + "'";
  }

  /** Writing the escape of the i-th character: either all of it fits and
      the stream holds one more escaped character, or the stream fails
      holding as much of the quoted name as it has room for. */
  lemma EmitStep(f: string, i: nat, room: nat, written: string)
    requires i < |f| && written == "'" + QuoteBody(f[..i]) && |written| <= room
    ensures var e := Emit(written, room, Esc(f[i]));
      && (e.1 ==> e.0 == "'" + QuoteBody(f[..i + 1]) && |e.0| <= room)
      && (!e.1 ==> room < |Quote(f)| && e.0 == Quote(f)[..room])
  {
    QuoteAt(f, i);
    var head := "'" + QuoteBody(f[..i + 1]);
    assert written + Esc(f[i]) == head;
    assert Quote(f) == head + (QuoteBody(f[i + 1..]) + "'");
    if room < |head| {
      PrefixOfLonger(head, QuoteBody(f[i + 1..]) + "'", room);
    }
  }

  lemma PrefixOfLonger(a: string, b: string, n: nat)
    requires n <= |a|
    ensures (a + b)[..n] == a[..n]
  {
  }

  /** One write to a stream with `room` characters left before it fails:
      what fits is written, and the write reports whether all of it was. */
  function Emit(written: string, room: nat, piece: string): (r: (string, bool))
    requires |written| <= room
  {
    var w := written + piece;
    if |w| <= room then (w, true) else (w[..room], false)
  }

  /** quote (sh.c:23-35) writing to a stream that fails after `room`
      characters: 0 when the whole quoted name fits, -1 at the first write
      that does not; the stream holds the quoted name up to where it failed. */
  method QuoteTo(filename: string, room: nat) returns (code: int, written: string)
    requires '\0' !in filename
    ensures code == 0 || code == -1
    ensures code == 0 <==> |Quote(filename)| <= room
    ensures written == Quote(filename)[..Min(room, |Quote(filename)|)]
  {
    var ok;
    var e := Emit("", room, "'");
    written, ok := e.0, e.1;
    if !ok {
      assert room == 0;
      return -1, written;
    }
    var i := 0;
    while i < |filename|
      invariant 0 <= i <= |filename|
      invariant written == "'" + QuoteBody(filename[..i]) && |written| <= room
    {
      EmitStep(filename, i, room, written);
      e := Emit(written, room, Esc(filename[i]));
      written, ok := e.0, e.1;
      if !ok {
        return -1, written;
      }
      i := i + 1;
    }
    assert filename[..i] == filename;
    e := Emit(written, room, "'");
    written, ok := e.0, e.1;
    if !ok {
      return -1, written;
    }
    return 0, written;
  }
}

=== FILE: status.dfy ===
/** The constants and status helpers of lib.h: fsck exit codes, the scan
    status bits, and the option flags. All are C `int` bit masks; the model
    uses 32-bit vectors so that `|` and `&` mean what they mean in C. */
module Status {

  /** Exit codes (lib.h:23-30). */
  const FSCK_OK: bv32 := 0
  const FSCK_NONDESTRUCT: bv32 := 1
  const FSCK_REBOOT: bv32 := 2
  const FSCK_UNCORRECTED: bv32 := 4
  const FSCK_ERROR: bv32 := 8
  const FSCK_USAGE: bv32 := 16
  const FSCK_CANCELED: bv32 := 32
  const FSCK_LIBRARY: bv32 := 128

  /** Scan status bits (lib.h:33-34). */
  const OVL_ST_INCONSISTENCY: bv32 := 1
  const OVL_ST_ABORT: bv32 := 2

  /** Option flags (lib.h:37-42). */
  const FL_VERBOSE: bv32 := 1
  const FL_UPPER: bv32 := 2
  const FL_OPT_AUTO: bv32 := 8
  const FL_OPT_NO: bv32 := 16
  const FL_OPT_YES: bv32 := 32
  const FL_OPT_MASK: bv32 := FL_OPT_AUTO | FL_OPT_NO | FL_OPT_YES

  /** Number of scan passes (lib.h:47). */
  const OVL_SCAN_PASS_MAX: nat := 2

  predicate Inconsistent(status: bv32) { status & OVL_ST_INCONSISTENCY != 0 }

  predicate Aborted(status: bv32) { status & OVL_ST_ABORT != 0 }

  /** The two statuses agree on every bit but the inconsistency bit. */
  predicate SameButInconsistency(a: bv32, b: bv32) {
    a & !OVL_ST_INCONSISTENCY == b & !OVL_ST_INCONSISTENCY
  }

  /** set_inconsistency (lib.h:108-111): bit 0 becomes set, every other bit stays. */
  function SetInconsistency(status: bv32): (r: bv32)
    ensures Inconsistent(r)
    ensures SameButInconsistency(r, status)
  {
    status | OVL_ST_INCONSISTENCY
  }

  /** Marking the scan inconsistent leaves the abort bit as it was. */
  lemma InconsistencyKeepsAbort(status: bv32)
    ensures Aborted(SetInconsistency(status)) == Aborted(status)
  {
  }

  /** set_abort (lib.h:113-116): bit 1 becomes set, every other bit stays. */
  function SetAbort(status: bv32): (r: bv32)
    ensures r & OVL_ST_ABORT == OVL_ST_ABORT
    ensures r & !OVL_ST_ABORT == status & !OVL_ST_ABORT
  {
    status | OVL_ST_ABORT
  }

  /** Setting either status bit twice is the same as setting it once, and the
      order in which the two are set does not matter. */
  lemma StatusSettersIdempotentAndCommute(s: bv32)
    ensures SetInconsistency(SetInconsistency(s)) == SetInconsistency(s)
    ensures SetAbort(SetAbort(s)) == SetAbort(s)
    ensures SetAbort(SetInconsistency(s)) == SetInconsistency(SetAbort(s))
  {
  }

  /** The exit codes are distinct single bits, so a code built with `|` can be
      taken apart again; the option mask is exactly the three policy flags and
      they share no bit with the verbose and upper flags. */
  lemma FlagLayout()
    ensures forall a, b | a in ExitCodes() && b in ExitCodes() && a != b :: a & b == 0
    ensures FL_OPT_MASK == 56
    ensures FL_OPT_MASK & (FL_VERBOSE | FL_UPPER) == 0
    ensures FL_OPT_AUTO & FL_OPT_NO == 0 && FL_OPT_AUTO & FL_OPT_YES == 0 && FL_OPT_NO & FL_OPT_YES == 0
  {
  }

  /** The nonzero exit codes of lib.h:24-30. */
  function ExitCodes(): (s: set<bv32>)
    ensures |s| == 7
    ensures forall c | c in s :: c != 0 && c & (c - 1) == 0
  {
    var s := {FSCK_NONDESTRUCT, FSCK_REBOOT, FSCK_UNCORRECTED, FSCK_ERROR,
              FSCK_USAGE, FSCK_CANCELED, FSCK_LIBRARY};
    assert |s| == 7;
    s
  }

  /** The repair policy the flags select (lib.c:63-64): "yes" wins over "no",
      which wins over "auto". */
  predicate AssumeYes(flags: bv32) { flags & FL_OPT_YES != 0 }
  predicate AssumeNo(flags: bv32) { flags & FL_OPT_YES == 0 && flags & FL_OPT_NO != 0 }
  predicate Automatic(flags: bv32) { flags & FL_OPT_MASK == FL_OPT_AUTO }
}

=== FILE: util.dfy ===
/** Failure-carrying wrappers shared by every module of the model. */
module Util {

  /** A value that may be missing (a NULL pointer in the C code). */
  datatype Option<T> = None | Some(value: T) {
    function GetOr(default: T): T {
      match this
      case Some(v) => v
      case None => default
    }
  }

  /** Why an operation failed. `Io` stands for every syscall failure other
      than "does not exist"; `NullRedirect` for the null dereference the
      source performs on an empty redirect xattr met during the ancestor
      walk; `FreedRead` for reading freed memory (only the as-written lookup
      produces it); `UninitRead` for reading a field of memory srealloc added that
      nothing has written (only the as-written mount table scan produces it). */
  datatype Fault = Io | NullRedirect | FreedRead | UninitRead

  /** The outcome of an operation that returns 0 or -1 in the source. */
  datatype Result<T> = Ok(value: T) | Err(fault: Fault)

  /** Number of elements of `s` satisfying `p`. */
  function CountIf<T>(s: seq<T>, p: T -> bool): (n: nat)
    ensures n <= |s|
  {
    if |s| == 0 then 0 else (if p(s[0]) then 1 else 0) + CountIf(s[1..], p)
  }

  lemma CountIfAppend<T>(a: seq<T>, b: seq<T>, p: T -> bool)
    ensures CountIf(a + b, p) == CountIf(a, p) + CountIf(b, p)
  {
    if |a| == 0 {
      assert a + b == b;
    } else {
      assert (a + b)[1..] == a[1..] + b;
      CountIfAppend(a[1..], b, p);
    }
  }
}
